=== FILE: README.md ===
# timer — a Dafny model of `PreciseTime`, `CollectingTimer::getResult` and the legacy `tool::Timer`

The timer library measures durations with a steady clock. It stores each one in
`PreciseTime`, a signed mixed-radix triple: int64 hours, seconds within ±3599 and
nanoseconds within ±999 999 999. The triple also carries a dimensional exponent
(seconds, seconds², …) and a sticky "rolled over" flag. A `CollectingTimer` keeps
a named series of such measurements. Its `getResult` reports:

- the median;
- outliers against mean ± range·deviation;
- the minimum and maximum of the kept measurements;
- a histogram tiled from the minimum.

The older header `timer.hpp` holds `tool::PreciseTime` (hours, seconds,
nanoseconds, no exponent) and `tool::Timer`. That timer caches its result until a
new measurement arrives.

The model works on mathematical integers. Its modules follow the headers:

| module | models |
|---|---|
| `Common` | int64 range, C++ truncating `/` and `%` (`TDiv`, `TRem`) |
| `Duration` | the `PreciseTime` value (versions 3 and 2): constructors, `sanitizeNS/S/Sign`, sentinels, saturating `+=`/`-=`, comparisons, exponent bookkeeping of `*`, `/`, `sqrt` |
| `Components` | `get<>`, `convert<>`, `getSeperatedTimeComponents`, `getMayorTime` |
| `Format` | `operator<<`/`toString`, `getMayorTimeString`, with parsers that read a rendering back |
| `Statistics` | counting, sorting and order statistics; `findMedian` |
| `Histogram` | `Histogram::initBuckets` and the bucket-counting loop of `setHistogram` |
| `CollectingTimer` | `stop`, `getResult` (outlier flags, min/max, histogram, the median search's reordering) |
| `Legacy` | `tool::PreciseTime` (`sanitize`, `+ - += -=`, comparisons, sentinels) and `tool::Timer` (`start`, `stop`, the `getResult` cache) |

A value's meaning is `Total(d) = hours·3.6·10¹² + seconds·10⁹ + nanos` nanoseconds.
Both versions of `PreciseTime` share one model: version 2 does the same unit
arithmetic through `double` casts, which are exact below 2⁵³. Every floating-point
quantity `getResult` computes enters as a parameter (`CollectingTimer.Estimates`):

- whether the first deviation exceeds 1 ns;
- the outlier bounds, as whole nanoseconds;
- the bucket size Scott's rule asks for, as an exact fraction of nanoseconds
  (`Histogram.Size`), since a `double` is one.

The model states exactly what `getResult` does with these values. The clock
readings of `start`/`stop` are parameters too. `std::nth_element` is modelled by
the arrangements it may leave (`Statistics.IsNthElement`), since its choice among
valid ones belongs to the library.

Where the code and its comments disagree, the model follows the code. Examples:

- The documentation of `convert` gives 7364 s for 2 h 3 min 44 s; the code (and
  arithmetic) gives 7424.
- `convert<minutes>` does not give the documented 123 minutes (see Findings).

Where the code is evidently wrong, Findings records the code as written next to
the corrected definition the rest of the model uses.

Version 3 of `PreciseTime` is `src/timer/include/timer/precise_time.hpp`; version 2 is
`include/timer/precise_time.hpp`. Source paths below are relative to the repository root.

## Model

| member | source | states |
|---|---|---|
| Common.TDiv | src/timer/include/timer/precise_time.hpp:625-689 | C++ integer division truncates toward zero: the quotient times the divisor never exceeds the dividend in magnitude, has the dividend's sign, and misses it by less than one divisor |
| Common.TRem | src/timer/include/timer/precise_time.hpp:625-689 | the C++ remainder has the dividend's sign, is smaller than the divisor in magnitude, and recomposes the dividend with `TDiv` |
| Common.TDivUnique | src/timer/include/timer/precise_time.hpp:625-689 | a quotient/remainder pair with the remainder bounded and signed like the dividend is the truncating one |
| Duration.SanitizeNanos | src/timer/include/timer/precise_time.hpp:779-792 | sanitizeNS moves whole seconds out of the nanosecond counter: the value is unchanged, the counter ends within ±999 999 999, and an in-range counter is left alone |
| Duration.SanitizeSeconds | src/timer/include/timer/precise_time.hpp:807-825 | sanitizeS moves whole hours out of the second counter: the value is unchanged, seconds end within ±3599, and in-range seconds are left alone |
| Duration.SanitizeSign | src/timer/include/timer/precise_time.hpp:833-875 | the borrow step leaves no counter signed against another, keeps the value, and leaves an already coherent value untouched |
| Duration.Normalize | src/timer/include/timer/precise_time.hpp:880-885 | sanitize() yields the normal form with the same value, unit and flag, and is the identity on normal values |
| Duration.NormalFormUnique | src/timer/include/timer/precise_time.hpp:833-885 | two normal triples with the same value are the same triple, so sanitize() has one answer per value |
| Duration.NormalizeCanonical | src/timer/include/timer/precise_time.hpp:880-885 | values that mean the same nanoseconds normalise to the same triple |
| Duration.LessMatchesTotal | src/timer/include/timer/precise_time.hpp:1274-1295 | on normal values the lexicographic `<` over (hours, seconds, nanoseconds) holds exactly when the first value is smaller, whatever the exponents |
| Duration.ComparisonsMatchTotal | src/timer/include/timer/precise_time.hpp:1261-1307 | for one exponent, `==`, `>`, `<=` and `>=` each hold exactly when the values compare that way |
| Duration.GreaterAcrossUnits | src/timer/include/timer/precise_time.hpp:1261-1307 | equal counters under different exponents are unequal, so each is `>` the other and `<=` fails both ways |
| Duration.MaxValue | src/timer/include/timer/precise_time.hpp:437-444 | max() is a valid value with the template exponent, no roll-over flag and the largest total the class can hold |
| Duration.MinValue | src/timer/include/timer/precise_time.hpp:451-458 | min() is the mirror image: the smallest total, valid, with the template exponent |
| Duration.ZeroValue | src/timer/include/timer/precise_time.hpp:465-470 | zero() is a valid zero total with the template exponent |
| Duration.SentinelsBound | src/timer/include/timer/precise_time.hpp:437-470 | every valid value lies between min() and max() of its exponent, and its total is in the representable range |
| Duration.HoursFitIffInRange | src/timer/include/timer/precise_time.hpp:919-951 | the hour counter of a normal value overflows int64 exactly when its total leaves [min(), max()] |
| Duration.IsPositiveMatchesTotal | src/timer/include/timer/precise_time.hpp:958-987 | isPositive() (sign of the highest non-zero counter, zero counting as positive) holds exactly when the total is non-negative |
| Duration.FromCount | src/timer/include/timer/precise_time.hpp:301-346 | a unit constructor yields a valid value of exponent 1 whose total is the count times the unit's nanoseconds |
| Duration.SanitizedCount | src/timer/include/timer/precise_time.hpp:301-337 | sanitising int64 second and nanosecond counters yields a valid value with their combined total |
| Duration.AddAsWritten | src/timer/include/timer/precise_time.hpp:993-1020 | `+=` as written: a rolled-over operand is absorbing, and a sum beyond the range becomes max()/min() of exponent 1 with the flag set; on in-range sums, and for exponent 1, it agrees with the corrected `Duration.Add`, so the two differ only in the exponent of a saturated sum |
| Duration.Add | src/timer/include/timer/precise_time.hpp:993-1031 | corrected `+=`/`+`: rolled-over operands absorb; otherwise the result is valid, keeps the exponent, is flagged exactly when the exact sum leaves the range, then equals the sentinel of that side, and otherwise has the exact sum as total |
| Duration.Sub | src/timer/include/timer/precise_time.hpp:1037-1075 | `-=`/`-` with the same saturation rules, for the exact difference |
| Duration.SaturatedSumLosesUnit | src/timer/include/timer/precise_time.hpp:919-951 | max<2>() + 1 ns as written saturates to exponent 1, the corrected sum keeps exponent 2 |
| Duration.AddCommutes | src/timer/include/timer/precise_time.hpp:993-1031 | `+` on unflagged values is commutative, saturation included |
| Duration.AddAssociates | src/timer/include/timer/precise_time.hpp:993-1031 | `+` is associative while no partial sum leaves the range |
| Duration.InRangeSum | src/timer/include/timer/precise_time.hpp:993-1031 | an in-range sum is normal, unflagged, of the operands' exponent, with the exact total |
| Duration.InRangeDifference | src/timer/include/timer/precise_time.hpp:1037-1075 | the same for an in-range difference |
| Duration.SubUndoesAdd | src/timer/include/timer/precise_time.hpp:993-1075 | subtracting b after adding it restores a valid a when the sum stays in range |
| Duration.SubSelfIsZero | src/timer/include/timer/precise_time.hpp:1037-1075 | a - a is zero() of a's exponent |
| Duration.BorrowIntoNanos | src/tests/src/test_precise_time.cpp:159-162 | s(3) - ns(333) equals ns(2999999667) |
| Duration.BorrowIntoSeconds | src/tests/src/test_precise_time.cpp:171-174 | h(3) - s(333) equals h(2) + s(3267) |
| Duration.BorrowAcrossBoth | src/tests/src/test_precise_time.cpp:202-204 | h(3) - ns(1) is (2 h, 3599 s, 999999999 ns) |
| Duration.TenSecondsLessTenNanos | include/timer/precise_time.hpp:637-641 | the documented {10 s} - {10 ns} is {9 s, 999999990 ns} |
| Duration.SameNormalForm | src/timer/include/timer/precise_time.hpp:833-885 | normal values with equal totals, unit and flag are equal |
| Duration.ProductAsWritten | src/timer/include/timer/precise_time.hpp:1136-1149 | as written, a product or quotient beyond the int64 hours is the max()/min() sentinel of the result's unit, unflagged, because `setHours` reassigns the sentinel after the flag was raised; otherwise it has the computed value, unflagged |
| Duration.Product | src/timer/include/timer/precise_time.hpp:1136-1149 | corrected: flagged exactly when the computed value leaves the int64 hours, and otherwise equal to the as-written result |
| Duration.MultiplyAsWritten | src/timer/include/timer/precise_time.hpp:1126-1152 | PT·PT as written absorbs rolled-over operands; otherwise it carries the sum of the exponents and is never flagged |
| Duration.Multiply | src/timer/include/timer/precise_time.hpp:1126-1152 | corrected PT·PT absorbs rolled-over operands; otherwise it carries the sum of the exponents and is flagged exactly when the product saturates, then as the sentinel of that side |
| Duration.DivideAsWritten | src/timer/include/timer/precise_time.hpp:1179-1205 | PT/PT as written absorbs rolled-over operands; otherwise it carries the receiver's exponent minus the argument's and is never flagged |
| Duration.Divide | src/timer/include/timer/precise_time.hpp:1179-1205 | corrected PT/PT: the same exponent, flagged exactly when the quotient saturates |
| Duration.SaturationFlagLost | src/timer/include/timer/precise_time.hpp:737-752 | as-written and corrected PT·PT and PT/PT differ only in the flag, which only the corrected ones raise on saturation |
| Duration.MaxSquaredUnflagged | src/timer/include/timer/precise_time.hpp:1136-1149 | max()·max() is the unflagged max() in s^2 as written and the flagged one corrected |
| Duration.QuotientSecondsAsWritten | src/timer/include/timer/precise_time.hpp:1187-1188 | the quotient as written is the argument's seconds over the receiver's, defined when the receiver is non-zero |
| Duration.QuotientSeconds | src/timer/include/timer/precise_time.hpp:1179-1205 | the corrected quotient is the receiver's seconds over the argument's, defined when the argument is non-zero |
| Duration.QuotientInverted | src/timer/include/timer/precise_time.hpp:1187-1188 | s(2)/s(1) gives 0.5 as written and 2 corrected |
| Duration.Sqrt | src/timer/include/timer/precise_time.hpp:1231-1244 | sqrt halves an even exponent exactly and an odd one truncated toward zero, as a release build does, and yields an unflagged value of the computed magnitude |
| Duration.OddRootTruncates | src/timer/include/timer/precise_time.hpp:1232-1241 | the root of a value in s^3 is in s^1, and of one in s^-3 in s^-1 |
| Duration.UnitsCancel | src/timer/include/timer/precise_time.hpp:1126-1205 | (a·b)/b carries a's exponent when a·b does not saturate, as written and corrected |
| Duration.FlagSticky | src/timer/include/timer/precise_time.hpp:1126-1205 | a chain (a·b)/c is flagged, corrected, exactly when a, b or c is or a computed value saturates; as written, exactly when a, b or c is |
| Duration.SqrtOfSquare | src/timer/include/timer/precise_time.hpp:1126-1244 | sqrt(a·a) carries a's exponent |
| Components.Get | src/timer/include/timer/precise_time.hpp:625-689 | each get<> digit below hours is smaller than its radix in magnitude and, on a coherent value, has the value's sign |
| Components.ComponentsRecompose | src/timer/include/timer/precise_time.hpp:625-689 | the six get<> digits, weighted by their units, add up to the value |
| Components.SeparatedComponents | src/timer/include/timer/precise_time.hpp:1211-1218 | getSeperatedTimeComponents lists the get<> digits from nanoseconds up, and they recompose the value |
| Components.ConvertMinutesAsWritten | src/timer/include/timer/precise_time.hpp:602-607 | convert<minutes> as written is right only for values under one hour |
| Components.Convert | src/timer/include/timer/precise_time.hpp:555-618 | convert<u> (corrected for minutes), defined only when every int64 product and partial sum it forms fits (`ConvertFits`), is an int64 and is the value's total divided by the unit, truncated toward zero |
| Components.ConvertFitsIffResultFits | src/timer/include/timer/precise_time.hpp:150-232 | for a normal value, convert<> to ns, µs, ms or s overflows int64 exactly when its result would not fit, because the hour and second terms carry the result's sign and are no larger |
| Components.NanosecondsOverflow | src/timer/include/timer/precise_time.hpp:555-560 | convert<nanoseconds> fits up to 2 562 047 h 2836 s 854 775 807 ns and overflows one nanosecond later, and for max() and min() |
| Components.ConvertIsTruncatedQuotient | src/timer/include/timer/precise_time.hpp:555-618 | each unit's formula of convert<> equals the truncated quotient of the total |
| Components.MinutesConversionMiscounts | include/timer/precise_time.hpp:420-431 | for 2 h 3 min 44 s 40 ms 66 µs 12 ns, convert<minutes> gives 5 as written and 123 corrected |
| Components.DocumentedExample | include/timer/precise_time.hpp:367-514 | the documented value converts to 7424040066012 ns, 7424040066 µs, 7424040 ms, 7424 s, 2 h, with digits 12, 66, 40, 44, 3, 2 |
| Components.ConstructionExamples | src/tests/src/test_precise_time.cpp:92-100 | ns(±98788987654321) splits into ±(321, 654, 987, 28, 26, 27), and a count of -95667013653679 ns into (-679, -653, -13, -27, -34, -26) |
| Components.ChainedConstructionExamples | src/tests/src/test_precise_time.cpp:102-108 | ns(321) + us(654) + ms(987) + s(28) + m(26) + h(27), evaluated left to right through `+`, splits into (321, 654, 987, 28, 26, 27), and the same chain with `-` in every other place into (-679, -653, -13, -27, -34, -26) |
| Components.SentinelComponents | src/tests/src/test_precise_time.cpp:29-42 | max() splits into (999, 999, 999, 59, 59, INT64_MAX) and min() into the negated digits with INT64_MIN hours |
| Components.RolloverExamples | src/tests/src/test_precise_time.cpp:74-87 | ms(i) + max() + ns(i), max() + max() and min() + min() keep the sentinel's digits |
| Components.MayorUnit | src/timer/include/timer/precise_time.hpp:1370-1390 | the major unit is the largest unit whose digit is positive with no positive digit above it; there is none when no digit is positive |
| Components.MayorTime | src/timer/include/timer/precise_time.hpp:1370-1390 | getMayorTime() is the major digit in its unit (zero without one), normal, unflagged, exponent 1 |
| Components.MayorTimeTruncates | src/timer/include/timer/precise_time.hpp:1370-1390 | getMayorTime() truncates the value to less than one major unit |
| Format.NatToStringRoundTrip | src/timer/include/timer/precise_time.hpp:1320-1354 | the decimal digits of a natural number read back as the number |
| Format.IntToString | src/timer/include/timer/precise_time.hpp:1320-1354 | a printed integer is non-empty, made of digits and '-', and parses back to itself |
| Format.Blanks | src/timer/include/timer/precise_time.hpp:1321-1329 | the padding is blanks; it brings every digit from 0 to 999 to three columns and every digit from -999 to -1 to four, the sign taking one more |
| Format.BodyDigits | src/timer/include/timer/precise_time.hpp:1320-1354 | the bracketed texts of the braces are the six printed digits, hours first, and the braces hold no '^' |
| Format.ParsePrinted | src/timer/include/timer/precise_time.hpp:1320-1354 | the printed digits parse back to the digits |
| Format.ToStringRoundTrip | src/timer/include/timer/precise_time.hpp:1320-1364 | toString() reads back as the six digits, the exponent after '^', and whether the overflow banner follows |
| Format.ToStringInjective | src/timer/include/timer/precise_time.hpp:1320-1364 | distinct normal values print differently |
| Format.QuantityRoundTrip | src/timer/include/timer/precise_time.hpp:1396-1416 | a count printed with its unit suffix reads back as that count and unit |
| Format.MayorTimeString | src/timer/include/timer/precise_time.hpp:1396-1416 | getMayorTimeString() prints the major digit with its unit, which reads back as the positive quantity getMayorTime() returns; without one it prints the zero fallback |
| Statistics.CountPermutation | src/timer/include/timer/collecting_timer.hpp:738-776 | rearranging a series keeps every count |
| Statistics.Sort | src/timer/include/timer/collecting_timer.hpp:738-776 | the reference sort is ascending and a permutation of its input |
| Statistics.SortUnique | src/timer/include/timer/collecting_timer.hpp:738-776 | any ascending permutation of a series is its sort |
| Statistics.OrderStatistic | src/timer/include/timer/collecting_timer.hpp:738-776 | the k-th sorted element is the one value with at most k smaller and more than k no-larger elements |
| Statistics.NthElementSelects | src/timer/include/timer/collecting_timer.hpp:744-746 | after std::nth_element at k, position k holds the k-th sorted element |
| Statistics.BehindNthElement | src/timer/include/timer/collecting_timer.hpp:744-750 | every element behind position k is at least the (k+1)-th sorted element |
| Statistics.MedianOf | src/timer/include/timer/collecting_timer.hpp:738-772 | the median is the middle order statistic for odd sizes and the two middle ones for even sizes |
| Statistics.MedianNanos | src/timer/include/timer/collecting_timer.hpp:755-757 | an even median averages the middle values, truncated, lying between them |
| Statistics.MedianAsWritten | src/timer/include/timer/collecting_timer.hpp:738-772 | findMedian as written is exact for odd sizes; for even sizes its lower middle is right and its upper middle may be too large |
| Statistics.MedianAsWrittenMisses | src/timer/include/timer/collecting_timer.hpp:746-750 | on [1, 2, 3, 4] one valid arrangement makes the as-written search return (2, 4) instead of (2, 3) |
| Statistics.MedianCorrected | src/timer/include/timer/collecting_timer.hpp:738-772 | the corrected search returns the true median for every arrangement std::nth_element may leave |
| Histogram.EffectiveSize | src/timer/include/timer/collecting_timer.hpp:109-113 | the bucket size is at least 1 ns; a size below 1 ns becomes exactly 1 ns and any other, fractional or not, is kept |
| Histogram.Edge | src/timer/include/timer/precise_time.hpp:797-801 | the k-th boundary lies at the whole nanoseconds of k sizes past the minimum: the largest e with e ≤ k·size |
| Histogram.Advance | src/timer/include/timer/precise_time.hpp:797-801 | `iterator + bucket_size` adds exactly one size, keeps the sub-nanoseconds below one, and moves the whole nanoseconds forward when the size is at least 1 ns |
| Histogram.CeilDiv | src/timer/include/timer/collecting_timer.hpp:115-118 | ceil(x/d): the least q with q·d covering x |
| Histogram.BucketCount | src/timer/include/timer/collecting_timer.hpp:122-128 | the number of buckets is the first k whose boundary reaches the maximum, the one before falling short; none for an empty range |
| Histogram.CountIsCeiling | src/timer/include/timer/collecting_timer.hpp:115-118 | that number is ceil(range/size), the count `reserve` is given |
| Histogram.Tiling | src/timer/include/timer/collecting_timer.hpp:107-129 | the buckets tile from the minimum, bucket i running from boundary i to boundary i + 1, with as many buckets as it takes to reach the maximum |
| Histogram.InitBuckets | src/timer/include/timer/collecting_timer.hpp:107-129 | the loop, whose iterator carries the sub-nanoseconds of a fractional size, emits exactly the tiling: the first bucket starts at the minimum and the last starts below the maximum and reaches it |
| Histogram.NextEdge | src/timer/include/timer/collecting_timer.hpp:122-127 | one more step of the loop lands on the next boundary |
| Histogram.FractionalSizeTiling | src/timer/include/timer/collecting_timer.hpp:107-129 | a 2.5 ns size over [0, 10] gives the buckets [0, 2], [2, 5], [5, 7], [7, 10] |
| Histogram.TilingReached | src/timer/include/timer/collecting_timer.hpp:122-128 | the loop stops at the first bucket ending at or past the maximum, which makes its output the tiling |
| Histogram.FirstBucket | src/timer/include/timer/collecting_timer.hpp:559-564 | a measurement goes to the first bucket whose closed interval holds it, or nowhere if none does |
| Histogram.TiledBucket | src/timer/include/timer/collecting_timer.hpp:559-564 | in a tiling a measurement within range goes to the bucket whose end is the first boundary at or past it, so a value on a shared boundary goes to the lower bucket |
| Histogram.CountedTotal | src/timer/include/timer/collecting_timer.hpp:556-566 | counting adds exactly the kept measurements that found a bucket |
| Histogram.CountMeasurements | src/timer/include/timer/collecting_timer.hpp:556-566 | the counting loop produces the reference counts, whose sum grows by the placed measurements |
| Histogram.AllPlaced | src/timer/include/timer/collecting_timer.hpp:553-566 | in a tiling of [min, max], every kept measurement within it is placed |
| Histogram.MaxNum | src/timer/include/timer/collecting_timer.hpp:568-571 | max_num_in_bucket is at least its start and every count, and is the start or some count |
| Histogram.TiledCount | src/timer/include/timer/collecting_timer.hpp:548-572 | counting into a fresh tiling places every kept measurement: the counts sum to the kept number, and the buckets span from min to at least max |
| CollectingTimer.Stop | src/timer/include/timer/collecting_timer.hpp:46-58 | stop appends the time since start to that name's series and leaves every other series alone; an unstarted name changes nothing |
| CollectingTimer.Flags | src/timer/include/timer/collecting_timer.hpp:533-546 | one flag per measurement, set exactly when the deviation exceeds 1 ns and the measurement lies below the lower or above the upper bound |
| CollectingTimer.KeptMin | src/timer/include/timer/collecting_timer.hpp:500-514 | the minimum over kept measurements, starting from max(): no larger than any kept one, and max() or a kept one |
| CollectingTimer.KeptMax | src/timer/include/timer/collecting_timer.hpp:500-514 | the mirror statement for the maximum, starting from min() |
| CollectingTimer.KeptMinIs | src/timer/include/timer/collecting_timer.hpp:500-514 | a kept measurement no larger than the other kept ones is the minimum |
| CollectingTimer.KeptMaxIs | src/timer/include/timer/collecting_timer.hpp:500-514 | a kept measurement no smaller than the other kept ones is the maximum |
| CollectingTimer.TestSeriesRange | src/tests/src/timer/test_timings.cpp:88-117 | for 5, 1, 7, 6, 8, 4, 2, 20 ns without outliers, min is 1 ns and max 20 ns |
| CollectingTimer.TestSeriesRangeWithoutOutlier | src/tests/src/timer/test_timings.cpp:88-117 | with 20 ns flagged, min is 1 ns and max 8 ns |
| CollectingTimer.Summarize | src/timer/include/timer/collecting_timer.hpp:480-593 | after the median: measurement i is flagged exactly when the deviation exceeds 1 ns and it lies outside the bounds; with the deviation at most 1 ns nothing is flagged and the outlier count is the one already there, otherwise outliers and kept measurements add up to the series length; min/max are over kept ones; the histogram total is the old total plus one count per kept measurement that lands in a bucket; started from an empty histogram and no outliers, for int64 measurements, the counts of a spread-out kept range sum to the kept number in the fewest buckets of the effective size |
| CollectingTimer.StackedTotal | src/timer/include/timer/collecting_timer.hpp:548-566 | counting into fresh buckets appended behind old ones adds one count per kept measurement that lands in a bucket |
| CollectingTimer.FreshTotal | src/timer/include/timer/collecting_timer.hpp:548-566 | a fresh tiling of a spread-out kept range counts every kept measurement once, with as many buckets as it takes to span the range |
| CollectingTimer.UnflaggedCovered | src/timer/include/timer/collecting_timer.hpp:548-566 | with nothing flagged, every measurement lies in a bucket of the fresh tiling of its range |
| CollectingTimer.Arranged | src/timer/include/timer/collecting_timer.hpp:482-486 | the median search leaves the stored series a permutation of itself |
| CollectingTimer.GetResult | src/timer/include/timer/collecting_timer.hpp:467-596 | unknown name: false, nothing written; fewer than 3: false with only the count written; otherwise the true median, flags, matching outlier count, kept min/max and a fresh histogram, with the store permuted only when sorting |
| CollectingTimer.Found | src/timer/include/timer/collecting_timer.hpp:480-593 | the successful branch reports fresh statistics of the series |
| CollectingTimer.HistogramCoversKept | src/timer/include/timer/collecting_timer.hpp:548-572 | for int64 measurements, when the kept minimum is below the kept maximum, the bucket counts sum to the number of measurements minus the outliers and the bucket number is the fewest that spans the kept range |
| CollectingTimer.FreshSummaryCoversSeries | src/timer/include/timer/collecting_timer.hpp:548-572 | without outliers and with min < max, every measurement lies in some bucket |
| CollectingTimer.GetResultAsWritten | src/timer/include/timer/collecting_timer.hpp:467-596 | the code as written: the same guards, but the even median may be off, the outlier count stays the caller's when the deviation is small, and buckets are appended to the caller's |
| CollectingTimer.FoundAsWritten | src/timer/include/timer/collecting_timer.hpp:480-593 | its successful branch starts from the caller's histogram and outlier count, and leaves the store alone without sorting |
| CollectingTimer.StaleOutlierCount | src/timer/include/timer/collecting_timer.hpp:576-589 | when the deviation does not exceed 1 ns, no measurement is flagged, yet the reported outlier count is the caller's old one |
| CollectingTimer.StaleBucketsAbsorbCounts | src/timer/include/timer/collecting_timer.hpp:117-128 | when the caller's old buckets hold every measurement, they take all the new counts |
| CollectingTimer.ReusedResultCountsTwice | src/timer/include/timer/collecting_timer.hpp:548-572 | calling getResult twice with one Result object counts every measurement twice in the histogram |
| Legacy.Carry | include/timer/timer.hpp:464-492 | sanitizeNS then sanitizeS bring both counters within bounds and keep the value |
| Legacy.SignOf | include/timer/timer.hpp:494-510 | the sign is that of the hours when they are non-zero, else that of the seconds, and zero when both are zero |
| Legacy.SanitizeFuel | include/timer/timer.hpp:494-535 | whenever the recursive sanitize() returns, it returns a sanitised value with the same total |
| Legacy.FoldSeconds | include/timer/timer.hpp:512-518 | folding seconds into nanoseconds keeps the value |
| Legacy.FoldHours | include/timer/timer.hpp:521-527 | folding hours into seconds keeps the value |
| Legacy.StuckDiverges | include/timer/timer.hpp:512-518 | from a stuck state (seconds zero or signed like the nanoseconds, nanoseconds signed against hours) sanitize() re-enters itself with the same state forever |
| Legacy.Settles | include/timer/timer.hpp:494-535 | any input that does not get stuck settles within two rounds, and more rounds change nothing |
| Legacy.SanitizeTerminatesIff | include/timer/timer.hpp:494-535 | sanitize() returns exactly when the carried input is not stuck, and then returns the normal form of its value |
| Legacy.Repaired | include/timer/timer.hpp:494-535 | the corrected sanitize is total and yields a sanitised value with the same total |
| Legacy.SignRepairLoops | include/timer/timer.hpp:512-518 | (1 h, 0 s, -1 ns), the state of h(1) -= ns(1), never leaves sanitize(); the corrected one yields (0, 3599, 999999999) |
| Legacy.Plus | include/timer/timer.hpp:99-115 | `+`/`+=` (which add the receiver's counters to a copy of the argument), when sanitize() returns, give a sanitised value whose total is the sum |
| Legacy.PlusSettles | include/timer/timer.hpp:99-115 | `+` returns exactly when the field-wise sum is not stuck, then yields its normal form, and is commutative |
| Legacy.NonNegativeSumSettles | include/timer/timer.hpp:99-115 | sums of non-negative sanitised values always return |
| Legacy.RunningSum | include/timer/timer.hpp:609-620 | the loop's `sum += measurement`, when it returns, is a sanitised value of the series' total |
| Legacy.RunningSumStops | include/timer/timer.hpp:609-620 | the loop gets through the series exactly when no step's carried sum is stuck |
| Legacy.NonNegativeSeriesSums | include/timer/timer.hpp:609-620 | a series of sanitised non-negative measurements always sums |
| Legacy.NegativeMeasurementHangs | include/timer/timer.hpp:609-620 | measurements of 1 h and -1 ns, possible with a clock that is not steady (line 654), leave the sum stuck |
| Legacy.Minus | include/timer/timer.hpp:127-133 | `-=` (and the corrected `-`) give receiver minus argument when sanitize() returns |
| Legacy.MinusAsWritten | include/timer/timer.hpp:117-125 | binary `-` as written gives argument minus receiver |
| Legacy.MinusReversed | include/timer/timer.hpp:117-125 | a - b as written is b - a, and differs from the corrected one whenever the values differ |
| Legacy.MinusExample | include/timer/timer.hpp:117-125 | {10 s} - {10 ns} is (0, -9, -999999990) as written and (0, 9, 999999990) corrected |
| Legacy.ComparisonsMatchValue | include/timer/timer.hpp:187-233 | on sanitised values `<`, `==`, `>`, `<=`, `>=` each hold exactly when the totals compare that way |
| Legacy.SentinelsBound | include/timer/timer.hpp:444-461 | every sanitised value with int64 hours lies between min() and max(); max(), min() and zero() have the extreme and zero totals |
| Legacy.FromNanos | include/timer/timer.hpp:72-76 | the nanoseconds constructor yields a sanitised value of that many nanoseconds |
| Legacy.FromNanosSettles | include/timer/timer.hpp:72-76 | its sanitize() always returns, with the normal form |
| Legacy.Start | include/timer/timer.hpp:555-558 | start records the clock reading under the name and changes nothing else |
| Legacy.Stop | include/timer/timer.hpp:560-574 | stop of a started name appends the elapsed time and marks only its result stale; an unstarted name changes nothing |
| Legacy.RunningMin | include/timer/timer.hpp:607-620 | the loop's running minimum is the cached one or a measurement, no larger than either |
| Legacy.RunningMax | include/timer/timer.hpp:607-620 | the mirror statement for the maximum |
| Legacy.GetResult | include/timer/timer.hpp:596-643 | a fresh cache or an unknown series returns the cached result; otherwise the count is the series length, min/max come from the cache or the series, the flag is cleared, and the result is stored under the name |
| Legacy.TimerStaysValid | include/timer/timer.hpp:555-643 | start, stop and getResult keep every stored measurement and cached extreme sanitised |
| Legacy.RecomputedBrackets | include/timer/timer.hpp:607-620 | after a recount every measurement lies between the reported min and max |
| Legacy.GetResultIdempotent | include/timer/timer.hpp:596-600 | a second getResult returns the same result and changes nothing |
| Legacy.UnknownNameDefault | include/timer/timer.hpp:576-605 | a name never measured yields the default result |
| Legacy.StopForcesRecount | include/timer/timer.hpp:560-620 | after stop, getResult recounts, including the new measurement between min and max |

## Left out

- Floating point: `sub_nano_seconds` (except in the histogram's iterator), `toDouble`, `fastModF` and the `double` setters are not modelled, nor is `getTimeString`. Scalar `*`, `/`, `*=`, `/=` are modelled in one place only: the median of an even series, `(a + b) / 2.0` turned into a time through `operator/` and `*= (1. / div)`, is `Statistics.MedianNanos`, the exact truncated half. That is exact only while the counters fit the 53-bit mantissa of a double. Elsewhere the values of scalar `*` and `/`, PT·PT, PT/PT and `sqrt` are not modelled; the products, quotients and roots keep only their exponent and flag bookkeeping, and their magnitudes are parameters (for PT·PT and PT/PT, with the hours not yet range-checked).
- Duration.Sqrt: the debug-build assertion of an even exponent is not a precondition; the model follows the release build. The static `sqrt` also overwrites its by-reference argument with the root, which the member `sqrt()` relies on; the model returns the root and leaves the replacement to the caller.
- The numeric mean and standard deviation of `getResult` (`setMean`, `setDeviation`) and Scott's rule are not modelled. They enter as `CollectingTimer.Estimates`: the spread test, the outlier bounds and the bucket size.
- The double pre-check of `+=`/`-=` on the hour sum is left out. For normal operands it agrees with the exact range test except within rounding distance of 2⁶³ hours.
- Duration.Add: saturation keeps the operands' exponent, unlike the code as written (see Findings); `Duration.AddAsWritten` keeps the code's behaviour. The debug-build assertion that both operands share an exponent is a precondition of `Duration.Add`, `Duration.Sub` and `Duration.AddAsWritten`; a release build would add, say, s and s² and keep the receiver's exponent, which is not modelled.
- Duration.Sub: saturation keeps the operands' exponent too, the same correction as for `Duration.Add`.
- Clock, I/O and presentation: `PrecisionClock`, `ScopedTimer`, `SingleTimer`, `FrameTimer`, file export, the terminal plots and the colour tiles.
- `CollectingTimer::start` is not modelled: the clock readings of started timers are a parameter of `CollectingTimer.Stop`.
- The triangle-distribution histogram test (19 buckets, largest count 273) is left out. Its input comes from a loop of floating-point arithmetic.
- Histogram.Size: a bucket size is an exact fraction of nanoseconds, and the iterator of `initBuckets` adds it without rounding. The C++ accumulates the sub-nanoseconds in a `double`, whose rounding error after many steps can move a boundary by one nanosecond; that drift is not modelled.
- Format.Blanks: for the hours of min(), the C++ takes `std::abs(INT64_MIN)`, which is undefined. The model pads them as any magnitude of 100 or more.
- Components.Convert: values whose conversion would overflow int64, which is undefined in the C++, are excluded by `ConvertFits`.
- `initBuckets` asserts max > min. The model yields no buckets in that case, as the release build does.
- Legacy.SanitizeFuel: the recursion of `sanitize()` is modelled with a fuel bound and `None` when the fuel runs out. `Legacy.StuckDiverges` shows the stuck inputs never return for any fuel; `Legacy.Settles` shows two rounds suffice for all others.
- Legacy `tool::Timer`: the average, the standard deviation and the destructor's printing are not modelled. The running sum is modelled on its own as `Legacy.RunningSum`, which only feeds the average.
- Legacy.GetResult: the model always returns. The code's running sum can get stuck in `sanitize()`, and then `getResult` never returns (`Legacy.RunningSumStops`). Measurements come from `high_resolution_clock`, which need not be steady, so one can be negative; `Legacy.NegativeMeasurementHangs` gives such a series. For non-negative measurements the sum always returns (`Legacy.NonNegativeSeriesSums`).
- The legacy carries of `sanitizeNS`/`sanitizeS` go through `double` and are treated as exact. The int64 wrap of legacy hours is not modelled.
- Legacy.GetResult: as in the code, the cached min/max are not reset before a recount. The reported extremes bracket the series and may come from earlier measurements.
- The legacy constructors other than nanoseconds are not modelled. The timer only builds values from nanosecond counts.
- Measurements of `CollectingTimer` are whole nanoseconds, compared by total. `Duration.LessMatchesTotal` justifies this for normal values.

## Findings

| source | as written | input that shows it | evidently intended | confidence | as-written member | corrected member |
|---|---|---|---|---|---|---|
| src/timer/include/timer/precise_time.hpp:602-607 | `convert<minutes>` computes (seconds + hours·60)/60, converting hours to minutes and adding them to seconds | 2 h 3 min 44 s: 5 minutes | total minutes, 123 as documented | not executed | Components.ConvertMinutesAsWritten, Components.MinutesConversionMiscounts | Components.Convert |
| src/timer/include/timer/precise_time.hpp:919-951 | saturation assigns `max()`/`min()` with the default exponent 1 | max<2>() + 1 ns has exponent 1 | the sentinel of the operands' exponent | not executed | Duration.AddAsWritten, Duration.SaturatedSumLosesUnit | Duration.Add |
| src/timer/include/timer/precise_time.hpp:1187-1188 | PT/PT divides the argument's seconds by the receiver's | s(2)/s(1) = 0.5 | 2 | not executed | Duration.QuotientSecondsAsWritten, Duration.QuotientInverted | Duration.QuotientSeconds |
| include/timer/timer.hpp:512-518 | `sanitizeSign` folds zero seconds into nanoseconds and re-runs `sanitize()` on the unchanged state | h(1) -= ns(1), state (1, 0, -1): never returns | borrow one hour: (0, 3599, 999999999) | not executed | Legacy.SanitizeFuel, Legacy.StuckDiverges, Legacy.SignRepairLoops | Legacy.Repaired, Legacy.SanitizeTerminatesIff |
| include/timer/timer.hpp:117-125 | binary `-` copies the argument and subtracts the receiver | s(10) - ns(10) = (0, -9, -999999990) | receiver minus argument, like `-=` | not executed | Legacy.MinusAsWritten, Legacy.MinusReversed, Legacy.MinusExample | Legacy.Minus |
| src/timer/include/timer/precise_time.hpp:1136-1149 | PT·PT and PT/PT raise the flag on saturation, but `setNanoseconds` passes the value on to `setHours`, whose `*this = max()`/`min()` clears it again | max()·max(): the unflagged max() in s^2 | the flagged sentinel | not executed | Duration.MultiplyAsWritten, Duration.DivideAsWritten, Duration.MaxSquaredUnflagged | Duration.Multiply, Duration.Divide, Duration.FlagSticky |
| src/timer/include/timer/collecting_timer.hpp:746-750 | for even n the second `nth_element` runs over the whole series and may move the element at n/2 | [1, 2, 3, 4] left as [1, 2, 4, 3]: median 3 instead of 2.5 | restrict the second selection to the lower half | not executed | Statistics.MedianAsWritten, Statistics.MedianAsWrittenMisses | Statistics.MedianCorrected |
| src/timer/include/timer/collecting_timer.hpp:117-128, 576-589 | a reused `Result` keeps its buckets (initBuckets only appends) and, with deviation ≤ 1 ns, its old outlier count | calling getResult twice on one Result: histogram counts sum to 2n | histogram and outlier count start afresh | not executed | CollectingTimer.GetResultAsWritten, CollectingTimer.ReusedResultCountsTwice, CollectingTimer.StaleOutlierCount | CollectingTimer.GetResult, CollectingTimer.HistogramCoversKept |

=== FILE: collecting_timer.dfy ===
/**
 * `CollectingTimer`: named series of measured durations and the statistics
 * `getResult` derives from one series. Measurements are whole nanoseconds
 * (the clock difference is cast to `std::chrono::nanoseconds`); on such
 * normalised durations `PreciseTime`'s comparisons agree with the order of
 * their nanosecond totals (`Duration.LessMatchesTotal`), so the series is a
 * `seq<int>` of totals here.
 *
 * The floating-point quantities of `getResult` (mean, standard deviation,
 * the outlier bounds mean -/+ range * deviation and the bucket size from
 * Scott's rule) enter as `Estimates`; what the model states is everything
 * `getResult` does with them.
 */
module CollectingTimer {
  import opened Common
  import opened Duration
  import opened Statistics
  import opened Histogram

  /**
   * Clock differences cast to `std::chrono::nanoseconds`, whose count is an
   * int64: always within the range of `PreciseTime`.
   */
  predicate Measured(xs: seq<int>) {
    forall i :: 0 <= i < |xs| ==> IsInt64(xs[i])
  }

  /** The series recorded under each timer name. */
  type Store = map<string, seq<int>>

  /** The series of `name`, empty when nothing was recorded under it. */
  function Series(store: Store, name: string): seq<int> {
    if name in store then store[name] else []
  }

  /**
   * `stop(name)`: a timer that was started gets the time since its start
   * appended to its series; stopping a timer that was never started does
   * nothing. `now` and the start times stand for the clock readings.
   */
  function Stop(store: Store, started: map<string, int>, name: string, now: int): (r: Store)
    ensures name !in started ==> r == store
    ensures name in started ==>
      name in r && |r[name]| == |Series(store, name)| + 1
      && r[name][..|Series(store, name)|] == Series(store, name)
      && r[name][|Series(store, name)|] == now - started[name]
    ensures forall other :: other != name ==> (other in r <==> other in store)
    ensures forall other :: other != name && other in r ==> r[other] == Series(store, other)
  {
    if name !in started then store
    else store[name := Series(store, name) + [now - started[name]]]
  }

  /**
   * What the floating-point part of `getResult` hands on: whether the first
   * standard deviation exceeds 1 ns; the outlier bounds, as the whole
   * nanoseconds `PreciseTime`'s comparisons look at; and the bucket size
   * Scott's rule asks for, sub-nanoseconds included.
   */
  datatype Estimates = Estimates(spread: bool, bottom: int, top: int, bucketSize: Size)

  datatype Hist = Hist(buckets: seq<Bucket>, bucketSize: Size, maxNum: nat)

  /** The fields of `CollectingTimer::Result` that are not floating point. */
  datatype Result = Result(
    timerName: string,
    minMeasurement: int,
    maxMeasurement: int,
    median: int,
    numberMeasurements: nat,
    numberOutliers: nat,
    isOutlier: seq<bool>,
    h: Hist)

  /** A freshly constructed `Result`: the sentinels `max()`/`min()` as minimum/maximum. */
  const DEFAULT_RESULT: Result := Result("", MAX_TOTAL, MIN_TOTAL, 0, 0, 0, [], Hist([], ZERO_SIZE, 0))

  /** What `getResult` returns, leaves in the result and leaves in the timer's store. */
  datatype Outcome = Outcome(found: bool, result: Result, stored: Store)

  /** Whether a measurement lies outside the bounds `setOutliners` draws. */
  predicate Outside(x: int, est: Estimates) {
    x < est.bottom || est.top < x
  }

  /** The outlier flags: all cleared, then set by `setOutliners` when the deviation gate is open. */
  function Flags(xs: seq<int>, est: Estimates): (flags: seq<bool>)
    ensures |flags| == |xs|
    ensures forall i :: 0 <= i < |xs| ==> (flags[i] <==> est.spread && Outside(xs[i], est))
  {
    seq(|xs|, i requires 0 <= i < |xs| => est.spread && Outside(xs[i], est))
  }

  /** `setMinMax`, minimum half: the least kept measurement, `max()` when none is below it. */
  function KeptMin(xs: seq<int>, outlier: seq<bool>): (m: int)
    requires |outlier| == |xs|
    ensures m <= MAX_TOTAL
    ensures forall i :: 0 <= i < |xs| && !outlier[i] && xs[i] <= MAX_TOTAL ==> m <= xs[i]
    ensures m == MAX_TOTAL || exists i :: 0 <= i < |xs| && !outlier[i] && xs[i] == m
    decreases |xs|
  {
    if |xs| == 0 then MAX_TOTAL
    else
      var m := KeptMin(xs[..|xs| - 1], outlier[..|xs| - 1]);
      if !outlier[|xs| - 1] && xs[|xs| - 1] < m then xs[|xs| - 1] else m
  }

  /** `setMinMax`, maximum half: the greatest kept measurement, `min()` when none is above it. */
  function KeptMax(xs: seq<int>, outlier: seq<bool>): (m: int)
    requires |outlier| == |xs|
    ensures m >= MIN_TOTAL
    ensures forall i :: 0 <= i < |xs| && !outlier[i] && xs[i] >= MIN_TOTAL ==> xs[i] <= m
    ensures m == MIN_TOTAL || exists i :: 0 <= i < |xs| && !outlier[i] && xs[i] == m
    decreases |xs|
  {
    if |xs| == 0 then MIN_TOTAL
    else
      var m := KeptMax(xs[..|xs| - 1], outlier[..|xs| - 1]);
      if !outlier[|xs| - 1] && m < xs[|xs| - 1] then xs[|xs| - 1] else m
  }

  /** `KeptMin` is the least kept measurement whenever that is below the sentinel. */
  lemma KeptMinIs(xs: seq<int>, outlier: seq<bool>, i: nat)
    requires |outlier| == |xs| && i < |xs| && !outlier[i] && xs[i] < MAX_TOTAL
    requires forall j :: 0 <= j < |xs| && !outlier[j] ==> xs[i] <= xs[j]
    ensures KeptMin(xs, outlier) == xs[i]
  {
  }

  /** `KeptMax` is the greatest kept measurement whenever that is above the sentinel. */
  lemma KeptMaxIs(xs: seq<int>, outlier: seq<bool>, i: nat)
    requires |outlier| == |xs| && i < |xs| && !outlier[i] && xs[i] > MIN_TOTAL
    requires forall j :: 0 <= j < |xs| && !outlier[j] ==> xs[j] <= xs[i]
    ensures KeptMax(xs, outlier) == xs[i]
  {
  }

  /** The series of the timer test: without outliers it spans 1 to 20 ns. */
  lemma TestSeriesRange()
    ensures KeptMin([5, 1, 7, 6, 8, 4, 2, 20], [false, false, false, false, false, false, false, false]) == 1
    ensures KeptMax([5, 1, 7, 6, 8, 4, 2, 20], [false, false, false, false, false, false, false, false]) == 20
  {
    KeptMinIs([5, 1, 7, 6, 8, 4, 2, 20], [false, false, false, false, false, false, false, false], 1);
    KeptMaxIs([5, 1, 7, 6, 8, 4, 2, 20], [false, false, false, false, false, false, false, false], 7);
  }

  /** With its last measurement (20 ns) flagged, the kept range is 1 to 8 ns. */
  lemma TestSeriesRangeWithoutOutlier()
    ensures KeptMin([5, 1, 7, 6, 8, 4, 2, 20], [false, false, false, false, false, false, false, true]) == 1
    ensures KeptMax([5, 1, 7, 6, 8, 4, 2, 20], [false, false, false, false, false, false, false, true]) == 8
  {
    KeptMinIs([5, 1, 7, 6, 8, 4, 2, 20], [false, false, false, false, false, false, false, true], 1);
    KeptMaxIs([5, 1, 7, 6, 8, 4, 2, 20], [false, false, false, false, false, false, false, true], 4);
  }

  /**
   * Everything `getResult` computes once the median is known, on the series
   * as it stands after the median search. `staleOutliers` and `stale` are
   * what the caller's `Result` held before: the code as written starts from
   * them, the corrected version from an empty histogram and no outliers.
   */
  function Summarize(name: string, series: seq<int>, median: int, est: Estimates,
                     staleOutliers: nat, stale: Hist): (r: Result)
    ensures r.timerName == name && r.median == median && r.numberMeasurements == |series|
    ensures |r.isOutlier| == |series|
    ensures forall i :: 0 <= i < |series| ==> (r.isOutlier[i] <==> est.spread && Outside(series[i], est))
    ensures !est.spread ==> Kept(r.isOutlier) == |series| && r.numberOutliers == staleOutliers
    ensures est.spread ==> r.numberOutliers + Kept(r.isOutlier) == |series|
    ensures r.isOutlier == Flags(series, est)
    ensures r.minMeasurement == KeptMin(series, r.isOutlier) && r.maxMeasurement == KeptMax(series, r.isOutlier)
    ensures r.h.bucketSize == EffectiveSize(est.bucketSize)
    ensures r.h.buckets == Counted(stale.buckets + Tiling(r.minMeasurement, r.maxMeasurement, r.h.bucketSize), series, r.isOutlier)
    ensures TotalNum(r.h.buckets) == TotalNum(stale.buckets)
      + Placed(stale.buckets + Tiling(r.minMeasurement, r.maxMeasurement, r.h.bucketSize), series, r.isOutlier)
    ensures staleOutliers == 0 && stale == Hist([], ZERO_SIZE, 0) && Measured(series) ==> Accounts(r)
    ensures r.h.maxNum == MaxNum(stale.maxNum, r.h.buckets)
  {
    var flags := Flags(series, est);
    var outliers := if est.spread then |series| - Kept(flags) else staleOutliers;
    var lo := KeptMin(series, flags);
    var hi := KeptMax(series, flags);
    var step := EffectiveSize(est.bucketSize);
    var tiles := Tiling(lo, hi, step);
    var buckets := Counted(stale.buckets + tiles, series, flags);
    AllKept(series, est);
    StackedTotal(stale.buckets, lo, hi, step, series, flags);
    assert staleOutliers == 0 && stale == Hist([], ZERO_SIZE, 0) && Measured(series) && lo < hi ==>
        TotalNum(buckets) == Kept(flags) && |buckets| == BucketCount(lo, hi, step) by {
      if staleOutliers == 0 && stale == Hist([], ZERO_SIZE, 0) && Measured(series) && lo < hi {
        FreshTotal(series, flags, step);
      }
    }
    Result(name, lo, hi, median, |series|, outliers, flags, Hist(buckets, step, MaxNum(stale.maxNum, buckets)))
  }

  /** Counting into a fresh tiling behind `stale` adds one count per placed measurement. */
  lemma StackedTotal(stale: seq<Bucket>, lo: int, hi: int, s: Size, xs: seq<int>, flags: seq<bool>)
    requires s.num > 0 && |flags| == |xs|
    ensures TotalNum(Counted(stale + Tiling(lo, hi, s), xs, flags))
      == TotalNum(stale) + Placed(stale + Tiling(lo, hi, s), xs, flags)
  {
    CountedTotal(stale + Tiling(lo, hi, s), xs, flags);
    TotalNumConcat(stale, Tiling(lo, hi, s));
    TilingTotal(lo, hi, s);
  }

  /** A fresh tiling of a spread-out kept range counts every kept measurement with the fewest buckets. */
  lemma FreshTotal(xs: seq<int>, flags: seq<bool>, s: Size)
    requires Measured(xs) && |flags| == |xs| && s.num > 0
    requires KeptMin(xs, flags) < KeptMax(xs, flags)
    ensures var lo, hi := KeptMin(xs, flags), KeptMax(xs, flags);
      var b := Counted([] + Tiling(lo, hi, s), xs, flags);
      TotalNum(b) == Kept(flags) && |b| == BucketCount(lo, hi, s)
  {
    var lo, hi := KeptMin(xs, flags), KeptMax(xs, flags);
    assert [] + Tiling(lo, hi, s) == Tiling(lo, hi, s);
    KeptInRange(xs, flags);
    TiledCount(lo, hi, s, xs, flags);
  }

  /** The arrangements the median search may leave behind (corrected search). */
  predicate Selections(values: seq<int>, first: seq<int>, lower: seq<int>) {
    |values| > 0 && IsNthElement(values, first, |values| / 2)
    && (|values| % 2 == 0 ==> IsNthElement(first[..|values| / 2], lower, |values| / 2 - 1))
  }

  /** The series after the corrected median search sorted it in place. */
  function Arranged(values: seq<int>, first: seq<int>, lower: seq<int>): (r: seq<int>)
    requires Selections(values, first, lower)
    ensures |r| == |values| && multiset(r) == multiset(values)
  {
    var h := |values| / 2;
    assert |first| == |multiset(first)| == |multiset(values)| == |values|;
    if |values| % 2 == 1 then first
    else
      assert first[..h] + first[h..] == first;
      assert |lower| == |multiset(lower)| == |multiset(first[..h])| == h;
      lower + first[h..]
  }

  /**
   * The series the statistics run on and the store left behind: with
   * `sort` the median search reorders the stored series, without it the
   * search runs on a copy.
   */
  function Reported(store: Store, name: string, series: seq<int>): Store {
    store[name := series]
  }

  /**
   * What a successful call reports about the series `values` of `name`,
   * apart from the median and the parts the as-written code takes over
   * from the previous `Result`.
   */
  predicate Describes(r: Result, stored: Store, store: Store, name: string, sort: bool, est: Estimates)
    requires name in store
  {
    var values := store[name];
    name in stored && stored.Keys == store.Keys
    && (forall other :: other in store && other != name ==> stored[other] == store[other])
    && |stored[name]| == |values| && multiset(stored[name]) == multiset(values) && (!sort ==> stored[name] == values)
    && r.timerName == name && r.numberMeasurements == |values|
    && |r.isOutlier| == |values|
    && (forall i :: 0 <= i < |values| ==> (r.isOutlier[i] <==> est.spread && Outside(stored[name][i], est)))
    && r.minMeasurement == KeptMin(stored[name], r.isOutlier)
    && r.maxMeasurement == KeptMax(stored[name], r.isOutlier)
    && r.h.bucketSize == EffectiveSize(est.bucketSize)
  }

  /**
   * What a successful corrected call reports: the true median, an outlier
   * count that matches the flags, and a histogram that tiles the kept range
   * afresh with every kept measurement counted in the first bucket holding it.
   */
  predicate Fresh(r: Result, stored: Store, store: Store, name: string, sort: bool, est: Estimates)
    requires name in store
  {
    |store[name]| > 0 && Describes(r, stored, store, name, sort, est)
    && r.median == MedianNanos(MedianOf(store[name]))
    && r.numberOutliers == |store[name]| - Kept(r.isOutlier)
    && r.h.buckets == Counted(Tiling(r.minMeasurement, r.maxMeasurement, r.h.bucketSize), stored[name], r.isOutlier)
    && r.h.maxNum == MaxNum(0, r.h.buckets)
  }

  /**
   * `getResult` with the median search corrected and the histogram and
   * outlier count started afresh. `first` and `lower` are the arrangements
   * `std::nth_element` leaves (its choice among equally valid ones is the
   * library's).
   */
  function GetResult(store: Store, name: string, prev: Result, sort: bool, est: Estimates,
                     first: seq<int>, lower: seq<int>): (o: Outcome)
    requires name in store && |store[name]| >= 3 ==> Selections(store[name], first, lower)
    ensures name !in store ==> o == Outcome(false, prev, store)
    ensures name in store && |store[name]| < 3 ==>
      o == Outcome(false, prev.(numberMeasurements := |store[name]|), store)
    ensures name in store && |store[name]| >= 3 ==> o.found && Fresh(o.result, o.stored, store, name, sort, est)
  {
    if name !in store then Outcome(false, prev, store)
    else
      var values := store[name];
      if |values| < 3 then Outcome(false, prev.(numberMeasurements := |values|), store)
      else Found(store, name, sort, est, first, lower)
  }

  /** The statistics of a series with at least three measurements. */
  function Found(store: Store, name: string, sort: bool, est: Estimates, first: seq<int>, lower: seq<int>): (o: Outcome)
    requires name in store && |store[name]| >= 3 && Selections(store[name], first, lower)
    ensures o.found && Fresh(o.result, o.stored, store, name, sort, est)
    ensures o.result == Summarize(name, o.stored[name], o.result.median, est, 0, Hist([], ZERO_SIZE, 0))
  {
    var values := store[name];
    var median := MedianNanos(MedianCorrected(values, first, lower));
    var series := if sort then Arranged(values, first, lower) else values;
    FreshSummary(store, name, series, sort, est, median);
    Outcome(true, Summarize(name, series, median, est, 0, Hist([], ZERO_SIZE, 0)), Reported(store, name, series))
  }

  lemma FreshSummary(store: Store, name: string, series: seq<int>, sort: bool, est: Estimates, median: int)
    requires name in store && |store[name]| >= 3
    requires |series| == |store[name]| && multiset(series) == multiset(store[name])
    requires !sort ==> series == store[name]
    requires median == MedianNanos(MedianOf(store[name]))
    ensures Fresh(Summarize(name, series, median, est, 0, Hist([], ZERO_SIZE, 0)), Reported(store, name, series), store, name, sort, est)
  {
    var r := Summarize(name, series, median, est, 0, Hist([], ZERO_SIZE, 0));
    AllKept(series, est);
    assert [] + Tiling(r.minMeasurement, r.maxMeasurement, r.h.bucketSize)
      == Tiling(r.minMeasurement, r.maxMeasurement, r.h.bucketSize);
    SummaryDescribes(store, name, series, sort, est, r);
  }

  /** The parts of `Describes` every summary of a rearranged series has. */
  lemma SummaryDescribes(store: Store, name: string, series: seq<int>, sort: bool, est: Estimates, r: Result)
    requires name in store && |series| == |store[name]| && multiset(series) == multiset(store[name])
    requires !sort ==> series == store[name]
    requires r.timerName == name && r.numberMeasurements == |series| && r.isOutlier == Flags(series, est)
    requires r.minMeasurement == KeptMin(series, r.isOutlier) && r.maxMeasurement == KeptMax(series, r.isOutlier)
    requires r.h.bucketSize == EffectiveSize(est.bucketSize)
    ensures Describes(r, Reported(store, name, series), store, name, sort, est)
  {
    var stored := Reported(store, name, series);
    assert stored.Keys == store.Keys;
  }

  /** With the gate closed nothing is flagged, so the fresh outlier count is zero. */
  lemma AllKept(xs: seq<int>, est: Estimates)
    ensures !est.spread ==> Kept(Flags(xs, est)) == |xs|
  {
    if !est.spread {
      NoneFlagged(Flags(xs, est));
    }
  }

  lemma {:induction false} NoneFlagged(flags: seq<bool>)
    requires forall i :: 0 <= i < |flags| ==> !flags[i]
    ensures Kept(flags) == |flags|
  {
    if |flags| > 0 {
      NoneFlagged(flags[..|flags| - 1]);
    }
  }

  /**
   * The histogram of a successful corrected call accounts for every kept
   * measurement exactly once and spans the kept range with the fewest
   * buckets of the effective size; its peak is the fullest bucket.
   */
  lemma HistogramCoversKept(store: Store, name: string, prev: Result, sort: bool, est: Estimates,
                            first: seq<int>, lower: seq<int>)
    requires name in store && |store[name]| >= 3 && Selections(store[name], first, lower)
    requires Measured(store[name])
    ensures Accounts(GetResult(store, name, prev, sort, est, first, lower).result)
  {
    var o := GetResult(store, name, prev, sort, est, first, lower);
    assert o == Found(store, name, sort, est, first, lower);
    var xs := o.stored[name];
    assert |xs| == |store[name]| && multiset(xs) == multiset(store[name]);
    MeasuredPermutation(store[name], xs);
    assert o.result == Summarize(name, xs, o.result.median, est, 0, Hist([], ZERO_SIZE, 0));
  }

  /**
   * A histogram that accounts for every kept measurement exactly once and
   * has as many buckets as it takes to span the kept range, whenever that
   * range is not a single point.
   */
  predicate Accounts(r: Result) {
    r.minMeasurement < r.maxMeasurement && r.h.bucketSize.num > 0 ==>
      TotalNum(r.h.buckets) == r.numberMeasurements - r.numberOutliers
      && |r.h.buckets| == BucketCount(r.minMeasurement, r.maxMeasurement, r.h.bucketSize)
  }

  /** Every kept measurement lies between `KeptMin` and `KeptMax`. */
  lemma KeptInRange(xs: seq<int>, outlier: seq<bool>)
    requires Measured(xs) && |outlier| == |xs|
    ensures forall i :: 0 <= i < |xs| && !outlier[i] ==> KeptMin(xs, outlier) <= xs[i] <= KeptMax(xs, outlier)
  {
    forall i | 0 <= i < |xs| && !outlier[i]
      ensures KeptMin(xs, outlier) <= xs[i] <= KeptMax(xs, outlier)
    {
      assert IsInt64(xs[i]);
    }
  }

  lemma MeasuredPermutation(a: seq<int>, b: seq<int>)
    requires Measured(a) && multiset(a) == multiset(b)
    ensures Measured(b)
  {
    forall i | 0 <= i < |b|
      ensures IsInt64(b[i])
    {
      assert b[i] in multiset(a);
    }
  }

  /** A fresh tiling holds no counts yet. */
  lemma TilingTotal(lo: int, hi: int, s: Size)
    requires s.num > 0
    ensures TotalNum(Tiling(lo, hi, s)) == 0
  {
    EmptyTotal(Tiling(lo, hi, s));
  }

  // ---------------------------------------------------------------------
  // `getResult` as written: the median search of `findMedian` and a
  // `Result` whose histogram and outlier count carry over from its last use.
  // ---------------------------------------------------------------------

  /** The arrangements the two `std::nth_element` calls of `findMedian` may leave behind. */
  predicate SelectionsAsWritten(values: seq<int>, first: seq<int>, second: seq<int>) {
    |values| > 0 && IsNthElement(values, first, |values| / 2)
    && (|values| % 2 == 0 ==> IsNthElement(first, second, (|values| - 1) / 2))
  }

  /** The series after `findMedian` reordered it in place. */
  function ArrangedAsWritten(values: seq<int>, first: seq<int>, second: seq<int>): (r: seq<int>)
    requires SelectionsAsWritten(values, first, second)
    ensures |r| == |values| && multiset(r) == multiset(values)
  {
    assert |first| == |multiset(first)| == |multiset(values)| == |values|;
    if |values| % 2 == 1 then first
    else
      assert |second| == |multiset(second)| == |multiset(first)|;
      second
  }

  /**
   * What a successful call as written reports: the fields `Describes`
   * covers, the median of `findMedian`, and an outlier count and histogram
   * that start from whatever `prev` held.
   */
  predicate Stale(r: Result, stored: Store, store: Store, name: string, sort: bool, est: Estimates, prev: Result)
    requires name in store
  {
    |store[name]| > 0 && Describes(r, stored, store, name, sort, est)
    && (|store[name]| % 2 == 1 ==> r.median == MedianNanos(MedianOf(store[name])))
    && r.numberOutliers == (if est.spread then |store[name]| - Kept(r.isOutlier) else prev.numberOutliers)
    && r.h.buckets == Counted(prev.h.buckets + Tiling(r.minMeasurement, r.maxMeasurement, r.h.bucketSize),
                              stored[name], r.isOutlier)
    && r.h.maxNum == MaxNum(prev.h.maxNum, r.h.buckets)
  }

  /**
   * `getResult` as written. `prev` is the `Result` the caller passes in;
   * `first` and `second` are the arrangements `std::nth_element` leaves.
   */
  function GetResultAsWritten(store: Store, name: string, prev: Result, sort: bool, est: Estimates,
                              first: seq<int>, second: seq<int>): (o: Outcome)
    requires name in store && |store[name]| >= 3 ==> SelectionsAsWritten(store[name], first, second)
    ensures name !in store ==> o == Outcome(false, prev, store)
    ensures name in store && |store[name]| < 3 ==>
      o == Outcome(false, prev.(numberMeasurements := |store[name]|), store)
    ensures name in store && |store[name]| >= 3 ==> o.found && Stale(o.result, o.stored, store, name, sort, est, prev)
  {
    if name !in store then Outcome(false, prev, store)
    else
      var values := store[name];
      if |values| < 3 then Outcome(false, prev.(numberMeasurements := |values|), store)
      else FoundAsWritten(store, name, prev, sort, est, first, second)
  }

  function FoundAsWritten(store: Store, name: string, prev: Result, sort: bool, est: Estimates,
                          first: seq<int>, second: seq<int>): (o: Outcome)
    requires name in store && |store[name]| >= 3 && SelectionsAsWritten(store[name], first, second)
    ensures o.found && Stale(o.result, o.stored, store, name, sort, est, prev)
    ensures o.result == Summarize(name, o.stored[name], o.result.median, est, prev.numberOutliers, prev.h)
    ensures !sort ==> o.stored == store
  {
    var values := store[name];
    var median := MedianNanos(MedianAsWritten(values, first, second));
    var series := if sort then ArrangedAsWritten(values, first, second) else values;
    StaleSummary(store, name, series, sort, est, median, prev);
    Outcome(true, Summarize(name, series, median, est, prev.numberOutliers, prev.h), Reported(store, name, series))
  }

  lemma StaleSummary(store: Store, name: string, series: seq<int>, sort: bool, est: Estimates, median: int, prev: Result)
    requires name in store && |store[name]| >= 3
    requires |series| == |store[name]| && multiset(series) == multiset(store[name])
    requires !sort ==> series == store[name]
    requires |store[name]| % 2 == 1 ==> median == MedianNanos(MedianOf(store[name]))
    ensures Stale(Summarize(name, series, median, est, prev.numberOutliers, prev.h), Reported(store, name, series),
                  store, name, sort, est, prev)
  {
    var r := Summarize(name, series, median, est, prev.numberOutliers, prev.h);
    SummaryDescribes(store, name, series, sort, est, r);
  }

  /**
   * When the deviation gate stays closed, the reused `Result` reports the
   * outlier count of its previous use although no measurement is flagged.
   */
  lemma StaleOutlierCount(store: Store, name: string, prev: Result, sort: bool, est: Estimates,
                          first: seq<int>, second: seq<int>)
    requires name in store && |store[name]| >= 3 && SelectionsAsWritten(store[name], first, second)
    requires !est.spread
    ensures var r := GetResultAsWritten(store, name, prev, sort, est, first, second).result;
      r.numberOutliers == prev.numberOutliers && Kept(r.isOutlier) == r.numberMeasurements
  {
    var o := FoundAsWritten(store, name, prev, sort, est, first, second);
    AllKept(o.stored[name], est);
  }

  /**
   * `initBuckets` appends to the buckets already in the `Result`, and each
   * measurement is counted in the first bucket holding it: once the old
   * buckets cover the series (the `Result` was last used on the same
   * timer, say), the new buckets all stay empty and every count lands in
   * the old ones, on top of their old counts.
   */
  lemma StaleBucketsAbsorbCounts(store: Store, name: string, prev: Result, sort: bool, est: Estimates,
                                 first: seq<int>, second: seq<int>)
    requires name in store && |store[name]| >= 3 && SelectionsAsWritten(store[name], first, second)
    requires Covers(prev.h.buckets, store[name])
    ensures Absorbed(GetResultAsWritten(store, name, prev, sort, est, first, second).result, prev.h.buckets)
  {
    var o := GetResultAsWritten(store, name, prev, sort, est, first, second);
    assert o == FoundAsWritten(store, name, prev, sort, est, first, second);
    assert |o.stored[name]| == |store[name]| && multiset(o.stored[name]) == multiset(store[name]);
    CoversPermutation(prev.h.buckets, store[name], o.stored[name]);
    assert o.result == Summarize(name, o.stored[name], o.result.median, est, prev.numberOutliers, prev.h);
    SummaryAbsorbs(name, o.stored[name], o.result.median, est, prev.numberOutliers, prev.h);
  }

  /**
   * The buckets of `r` are the old ones, with counts never lower than
   * before, followed by a fresh tiling whose buckets all stay empty.
   */
  predicate Absorbed(r: Result, before: seq<Bucket>) {
    r.h.bucketSize.num > 0 && AppendedEmpty(r.h.buckets, before, Tiling(r.minMeasurement, r.maxMeasurement, r.h.bucketSize))
  }

  /** `StaleBucketsAbsorbCounts` for the summary of one series. */
  lemma SummaryAbsorbs(name: string, xs: seq<int>, median: int, est: Estimates, staleOutliers: nat, stale: Hist)
    requires Covers(stale.buckets, xs)
    ensures Absorbed(Summarize(name, xs, median, est, staleOutliers, stale), stale.buckets)
  {
    var r := Summarize(name, xs, median, est, staleOutliers, stale);
    var added := Tiling(r.minMeasurement, r.maxMeasurement, r.h.bucketSize);
    CountedBehind(stale.buckets, added, xs, r.isOutlier);
  }

  lemma CoversPermutation(buckets: seq<Bucket>, a: seq<int>, b: seq<int>)
    requires Covers(buckets, a) && multiset(a) == multiset(b)
    ensures Covers(buckets, b)
  {
    forall i | 0 <= i < |b|
      ensures Covered(buckets, b[i])
    {
      assert b[i] in multiset(a);
      var p :| 0 <= p < |a| && a[p] == b[i];
      assert Covered(buckets, a[p]);
    }
  }

  /**
   * With old buckets that cover the series, the histogram's total is the
   * old total plus one count per kept measurement.
   */
  lemma SummaryStaleTotal(name: string, xs: seq<int>, median: int, est: Estimates, staleOutliers: nat, stale: Hist)
    requires Covers(stale.buckets, xs)
    ensures var r := Summarize(name, xs, median, est, staleOutliers, stale);
      TotalNum(r.h.buckets) == TotalNum(stale.buckets) + Kept(r.isOutlier)
  {
    var r := Summarize(name, xs, median, est, staleOutliers, stale);
    var added := Tiling(r.minMeasurement, r.maxMeasurement, r.h.bucketSize);
    var all := stale.buckets + added;
    forall i | 0 <= i < |xs| && !r.isOutlier[i]
      ensures FirstBucket(all, xs[i]).Some?
    {
      assert Covered(stale.buckets, xs[i]);
      var k :| 0 <= k < |stale.buckets| && Holds(stale.buckets[k], xs[i]);
      FirstBucketInFront(stale.buckets, added, xs[i], k);
    }
    PlacedWhenHeld(all, xs, r.isOutlier);
    CountedTotal(all, xs, r.isOutlier);
    TotalNumConcat(stale.buckets, added);
    TilingTotal(r.minMeasurement, r.maxMeasurement, r.h.bucketSize);
  }

  /** A fresh histogram over a spread-out series without outliers covers the whole series. */
  lemma FreshSummaryCoversSeries(name: string, xs: seq<int>, median: int, est: Estimates)
    requires Measured(xs) && !est.spread
    ensures var r := Summarize(name, xs, median, est, 0, Hist([], ZERO_SIZE, 0));
      r.minMeasurement < r.maxMeasurement ==> Covers(r.h.buckets, xs)
  {
    var r := Summarize(name, xs, median, est, 0, Hist([], ZERO_SIZE, 0));
    if r.minMeasurement < r.maxMeasurement {
      UnflaggedCovered(xs, r.isOutlier, r.h.bucketSize);
    }
  }

  /** With nothing flagged, a fresh tiling of a spread-out kept range holds every measurement. */
  lemma UnflaggedCovered(xs: seq<int>, flags: seq<bool>, s: Size)
    requires Measured(xs) && |flags| == |xs| && s.num > 0
    requires forall i :: 0 <= i < |flags| ==> !flags[i]
    requires KeptMin(xs, flags) < KeptMax(xs, flags)
    ensures Covers(Counted([] + Tiling(KeptMin(xs, flags), KeptMax(xs, flags), s), xs, flags), xs)
  {
    var lo, hi := KeptMin(xs, flags), KeptMax(xs, flags);
    assert [] + Tiling(lo, hi, s) == Tiling(lo, hi, s);
    KeptInRange(xs, flags);
    TilingHoldsAll(lo, hi, s, xs, flags);
  }

  /**
   * Passing the same `Result` to `getResult` twice for an unchanged timer
   * counts every measurement twice: the second histogram holds 2n counts
   * for n measurements (the first call starts from a fresh `Result`, no
   * measurement is an outlier and the series is not constant).
   */
  lemma ReusedResultCountsTwice(store: Store, name: string, est: Estimates, first: seq<int>, second: seq<int>)
    requires name in store && |store[name]| >= 3 && SelectionsAsWritten(store[name], first, second)
    requires Measured(store[name]) && !est.spread
    ensures var o1 := GetResultAsWritten(store, name, DEFAULT_RESULT, false, est, first, second);
      var o2 := GetResultAsWritten(o1.stored, name, o1.result, false, est, first, second);
      o1.result.minMeasurement < o1.result.maxMeasurement ==>
        o2.found && o2.result.numberMeasurements == |store[name]|
        && TotalNum(o1.result.h.buckets) == |store[name]|
        && TotalNum(o2.result.h.buckets) == 2 * |store[name]|
  {
    var values := store[name];
    var o1 := GetResultAsWritten(store, name, DEFAULT_RESULT, false, est, first, second);
    assert o1 == FoundAsWritten(store, name, DEFAULT_RESULT, false, est, first, second);
    assert o1.stored == store;
    var r1 := o1.result;
    assert r1 == Summarize(name, values, r1.median, est, 0, Hist([], ZERO_SIZE, 0));
    var o2 := GetResultAsWritten(o1.stored, name, r1, false, est, first, second);
    assert o2 == FoundAsWritten(store, name, r1, false, est, first, second);
    assert o2.stored == store;
    assert o2.result == Summarize(name, values, o2.result.median, est, r1.numberOutliers, r1.h);
    if r1.minMeasurement < r1.maxMeasurement {
      AllKept(values, est);
      FreshSummaryCoversSeries(name, values, r1.median, est);
      SummaryStaleTotal(name, values, o2.result.median, est, r1.numberOutliers, r1.h);
    }
  }
}

=== FILE: common.dfy ===
/**
 * Definitions shared by the model: the int64 range of `std::chrono`
 * counters, C++'s truncating integer division and an optional value.
 * Dafny's own `/` and `%` are Euclidean, so every division the C++ code
 * performs on a possibly negative operand goes through `TDiv`/`TRem` below.
 */
module Common {

  datatype Option<T> = None | Some(value: T)

  const INT64_MAX: int := 0x7fff_ffff_ffff_ffff
  const INT64_MIN: int := -0x8000_0000_0000_0000

  predicate IsInt64(x: int) {
    INT64_MIN <= x <= INT64_MAX
  }

  /** C++ integer `/`: the quotient rounded toward zero. */
  function TDiv(x: int, d: int): (q: int)
    requires d > 0
    ensures x >= 0 ==> 0 <= q * d <= x < q * d + d
    ensures x < 0 ==> q * d - d < x <= q * d <= 0
  {
    if x >= 0 then
      var q := x / d;
      EuclidNonNegative(x, d);
      q
    else
      var q := (-x) / d;
      EuclidNonNegative(-x, d);
      assert (-q) * d == -(q * d);
      -q
  }

  lemma EuclidNonNegative(x: int, d: int)
    requires x >= 0 && d > 0
    ensures 0 <= (x / d) * d <= x < (x / d) * d + d
  {
    assert x == d * (x / d) + x % d;
    assert x / d >= 0;
    MulMonotone(0, x / d, d);
  }

  /** C++ integer `%`: the remainder carries the sign of the dividend. */
  function TRem(x: int, d: int): (r: int)
    requires d > 0
    ensures x == TDiv(x, d) * d + r
    ensures x >= 0 ==> 0 <= r < d
    ensures x <= 0 ==> -d < r <= 0
  {
    x - TDiv(x, d) * d
  }

  /**
   * A quotient is pinned down by the truncation window it lies in: this is
   * how the proofs recognise `TDiv` of a sum they built themselves.
   */
  lemma TDivUnique(x: int, d: int, q: int)
    requires d > 0
    requires (x >= 0 && 0 <= q * d <= x < q * d + d) || (x < 0 && q * d - d < x <= q * d <= 0)
    ensures TDiv(x, d) == q
  {
    var t := TDiv(x, d);
    if t < q {
      MulMonotone(t + 1, q, d);
    } else if q < t {
      MulMonotone(q + 1, t, d);
    }
  }

  lemma MulMonotone(a: int, b: int, d: int)
    requires a <= b && d > 0
    ensures a * d <= b * d
  {
    assert b * d - a * d == (b - a) * d;
  }
}

=== FILE: components.dfy ===
/**
 * Reading a `PreciseTime` back: `get<unit>()` yields one digit of the
 * mixed-radix rendering h : min : s : ms : us : ns, and `convert<unit>()`
 * yields the whole duration counted in that unit, truncated toward zero.
 */
module Components {
  import opened Common
  import opened Duration

  /** How many of a unit make up the next larger one (hours have no bound). */
  function Radix(u: Unit): int
    requires u != Hours
  {
    match u
    case Nanoseconds => 1000
    case Microseconds => 1000
    case Milliseconds => 1000
    case Seconds => 60
    case Minutes => 60
  }

  /** Position of a unit from the smallest (ns = 0) to the largest (h = 5). */
  function Rank(u: Unit): nat {
    match u
    case Nanoseconds => 0
    case Microseconds => 1
    case Milliseconds => 2
    case Seconds => 3
    case Minutes => 4
    case Hours => 5
  }

  /**
   * get<unit>(): the digit of `u` — the counters modulo the next unit, with
   * C++'s truncating `/`, so a negative duration has non-positive digits.
   */
  function Get(d: Duration, u: Unit): (c: int)
    ensures u != Hours ==> -Radix(u) < c < Radix(u)
    ensures SignCoherent(d) && Total(d) >= 0 ==> c >= 0
    ensures SignCoherent(d) && Total(d) <= 0 ==> c <= 0
  {
    match u
    case Nanoseconds => TRem(d.nanos, 1000)
    case Microseconds => TRem(TDiv(d.nanos, 1000), 1000)
    case Milliseconds => TRem(TDiv(d.nanos, 1_000_000), 1000)
    case Seconds => TRem(d.seconds, 60)
    case Minutes => TRem(TDiv(d.seconds, 60), 60)
    case Hours => d.hours
  }

  /** Two truncating divisions by 1000 are one by a million. */
  lemma NestedThousands(x: int)
    ensures TDiv(TDiv(x, 1000), 1000) == TDiv(x, 1_000_000)
  {
    var y := TDiv(x, 1000);
    TDivUnique(x, 1_000_000, TDiv(y, 1000));
  }

  /** A truncating division by a billion, then by sixty, is one by sixty billion. */
  lemma NestedMinutes(x: int)
    ensures TDiv(TDiv(x, NS_PER_S), 60) == TDiv(x, NS_PER_MIN)
  {
    var y := TDiv(x, NS_PER_S);
    TDivUnique(x, NS_PER_MIN, TDiv(y, 60));
  }

  /** The six digits put back together give the duration: get<> loses nothing. */
  lemma {:induction false} ComponentsRecompose(d: Duration)
    requires IsNormal(d)
    ensures Total(d) == Get(d, Hours) * NS_PER_H + Get(d, Minutes) * NS_PER_MIN
                        + Get(d, Seconds) * NS_PER_S + Get(d, Milliseconds) * NS_PER_MS
                        + Get(d, Microseconds) * NS_PER_US + Get(d, Nanoseconds)
  {
    var us := TDiv(d.nanos, 1000);
    NestedThousands(d.nanos);
    assert d.nanos == us * 1000 + Get(d, Nanoseconds);
    assert us == TDiv(us, 1000) * 1000 + Get(d, Microseconds);
    assert TDiv(us, 1000) == Get(d, Milliseconds);
    var m := TDiv(d.seconds, 60);
    assert d.seconds == m * 60 + Get(d, Seconds);
    assert TDiv(m, 60) == 0;
    assert m == Get(d, Minutes);
  }

  /** getSeperatedTimeComponents(): the digits in the order ns, us, ms, s, min, h. */
  function SeparatedComponents(d: Duration): (c: seq<int>)
    ensures |c| == 6
    ensures forall u :: c[Rank(u)] == Get(d, u)
    ensures IsNormal(d) ==> Total(d) == c[5] * NS_PER_H + c[4] * NS_PER_MIN + c[3] * NS_PER_S
                                        + c[2] * NS_PER_MS + c[1] * NS_PER_US + c[0]
  {
    var c := [Get(d, Nanoseconds), Get(d, Microseconds), Get(d, Milliseconds),
              Get(d, Seconds), Get(d, Minutes), Get(d, Hours)];
    if IsNormal(d) then ComponentsRecompose(d); c else c
  }

  /**
   * convert<minutes>() as written: the hours are scaled to minutes but added
   * to the seconds counter before the division by sixty.
   */
  function ConvertMinutesAsWritten(d: Duration): (c: int)
    requires IsInt64(d.hours * 60) && IsInt64(d.seconds + d.hours * 60)
    ensures d.hours == 0 && IsNormal(d) ==> c == TDiv(Total(d), NS_PER_MIN)
  {
    var c := TDiv(d.seconds + d.hours * 60, 60);
    if d.hours == 0 && IsNormal(d) then NestedMinutes(Total(d)); c else c
  }

  /**
   * convert<unit>(): the whole duration counted in `u`, truncated toward
   * zero. The minutes are counted from all the seconds (hours included).
   * The C++ forms its products and sums in int64, so the value must be
   * small enough for them.
   */
  function Convert(d: Duration, u: Unit): (c: int)
    requires ConvertFits(d, u)
    ensures IsInt64(c)
    ensures IsNormal(d) ==> c == TDiv(Total(d), NanosPer(u))
  {
    if IsNormal(d) then ConvertIsTruncatedQuotient(d, u); ConvertBody(d, u) else ConvertBody(d, u)
  }

  /**
   * Every int64 product and partial sum convert<u>() forms is in range; the
   * C++ has undefined behaviour otherwise.
   */
  predicate ConvertFits(d: Duration, u: Unit) {
    match u
    case Nanoseconds =>
      IsInt64(d.hours * NS_PER_H) && IsInt64(d.seconds * NS_PER_S)
      && IsInt64(d.hours * NS_PER_H + d.seconds * NS_PER_S) && IsInt64(ConvertBody(d, u))
    case Microseconds =>
      IsInt64(d.hours * 3_600_000_000) && IsInt64(d.seconds * 1_000_000)
      && IsInt64(d.hours * 3_600_000_000 + d.seconds * 1_000_000) && IsInt64(ConvertBody(d, u))
    case Milliseconds =>
      IsInt64(d.hours * 3_600_000) && IsInt64(d.seconds * 1000)
      && IsInt64(d.hours * 3_600_000 + d.seconds * 1000) && IsInt64(ConvertBody(d, u))
    case Seconds => IsInt64(d.hours * S_PER_H) && IsInt64(ConvertBody(d, u))
    case Minutes => IsInt64(d.hours * S_PER_H) && IsInt64(d.seconds + d.hours * S_PER_H)
    case Hours => IsInt64(d.hours)
  }

  function ConvertBody(d: Duration, u: Unit): int {
    match u
    case Nanoseconds => d.hours * NS_PER_H + d.seconds * NS_PER_S + d.nanos
    case Microseconds => d.hours * 3_600_000_000 + d.seconds * 1_000_000 + TDiv(d.nanos, 1000)
    case Milliseconds => d.hours * 3_600_000 + d.seconds * 1000 + TDiv(d.nanos, 1_000_000)
    case Seconds => d.hours * S_PER_H + d.seconds
    case Minutes => TDiv(d.seconds + d.hours * S_PER_H, 60)
    case Hours => d.hours
  }

  lemma ConvertIsTruncatedQuotient(d: Duration, u: Unit)
    requires IsNormal(d)
    ensures ConvertBody(d, u) == TDiv(Total(d), NanosPer(u))
  {
    match u
    case Nanoseconds =>
      TDivUnique(Total(d), 1, Total(d));
    case Microseconds =>
      TDivUnique(Total(d), NS_PER_US, ConvertBody(d, u));
    case Milliseconds =>
      TDivUnique(Total(d), NS_PER_MS, ConvertBody(d, u));
    case Seconds =>
      TDivUnique(Total(d), NS_PER_S, ConvertBody(d, u));
    case Minutes =>
      TDivUnique(Total(d), NS_PER_S, d.hours * S_PER_H + d.seconds);
      NestedMinutes(Total(d));
    case Hours =>
      TDivUnique(Total(d), NS_PER_H, d.hours);
  }
  /**
   * For a normal value, convert<u>() to ns, µs, ms or s stays within int64
   * exactly when its result does: the hour and second terms carry the
   * result's sign and are no larger than it.
   */
  lemma ConvertFitsIffResultFits(d: Duration, u: Unit)
    requires IsNormal(d) && IsInt64(d.hours) && u != Minutes && u != Hours
    ensures ConvertFits(d, u) <==> IsInt64(TDiv(Total(d), NanosPer(u)))
  {
    ConvertIsTruncatedQuotient(d, u);
  }

  /**
   * convert<nanoseconds>() is defined up to 2^63 - 1 ns, that is 2 562 047 h
   * 2836 s 854 775 807 ns, and overflows from one nanosecond more on, max()
   * and min() included.
   */
  lemma NanosecondsOverflow()
    ensures ConvertFits(Duration(2_562_047, 2836, 854_775_807, 1, false), Nanoseconds)
    ensures !ConvertFits(Duration(2_562_047, 2836, 854_775_808, 1, false), Nanoseconds)
    ensures !ConvertFits(MaxValue(1), Nanoseconds) && !ConvertFits(MinValue(1), Nanoseconds)
  {
  }


  /**
   * The documented example 2h 3m 44s 40ms 66us 12ns: convert<minutes>()
   * is documented as 123 but the code computes (224 + 120) / 60 = 5.
   */
  lemma MinutesConversionMiscounts()
    ensures ConvertMinutesAsWritten(Duration(2, 224, 40_066_012, 1, false)) == 5
    ensures Convert(Duration(2, 224, 40_066_012, 1, false), Minutes) == 123
  {
  }

  /**
   * The same example for every unit, following the formulas documented next
   * to convert<> and get<> (the totals printed there start from 7364 s,
   * whereas 3600 * 2 + 60 * 3 + 44 is 7424 s).
   */
  lemma DocumentedExample()
    ensures var d := Duration(2, 224, 40_066_012, 1, false);
      && Convert(d, Nanoseconds) == 7_424_040_066_012
      && Convert(d, Microseconds) == 7_424_040_066
      && Convert(d, Milliseconds) == 7_424_040
      && Convert(d, Seconds) == 7424
      && Convert(d, Hours) == 2
      && SeparatedComponents(d) == [12, 66, 40, 44, 3, 2]
  {
    var d := Duration(2, 224, 40_066_012, 1, false);
    assert Total(d) == 7_424_040_066_012;
  }

  /** Construction from a nanosecond count splits it into the six digits. */
  lemma ConstructionExamples()
    ensures SeparatedComponents(FromCount(98_788_987_654_321, Nanoseconds)) == [321, 654, 987, 28, 26, 27]
    ensures SeparatedComponents(FromCount(-98_788_987_654_321, Nanoseconds)) == [-321, -654, -987, -28, -26, -27]
    ensures SeparatedComponents(FromCount(-95_667_013_653_679, Nanoseconds)) == [-679, -653, -13, -27, -34, -26]
  {
    PositiveCountDigits();
    NegativeCountDigits();
    MixedCountDigits();
  }

  /**
   * The same values built as the tests build them: unit constructors chained
   * left to right with `+` and `-`, every partial sum in range.
   */
  lemma ChainedConstructionExamples()
    ensures var ns, us, ms := FromCount(321, Nanoseconds), FromCount(654, Microseconds), FromCount(987, Milliseconds);
      var s, m, h := FromCount(28, Seconds), FromCount(26, Minutes), FromCount(27, Hours);
      SeparatedComponents(Add(Add(Add(Add(Add(ns, us), ms), s), m), h)) == [321, 654, 987, 28, 26, 27]
    ensures var ns, us, ms := FromCount(321, Nanoseconds), FromCount(654, Microseconds), FromCount(987, Milliseconds);
      var s, m, h := FromCount(28, Seconds), FromCount(26, Minutes), FromCount(27, Hours);
      SeparatedComponents(Sub(Add(Sub(Add(Sub(ns, us), ms), s), m), h)) == [-679, -653, -13, -27, -34, -26]
  {
    PositiveChain();
    MixedChain();
  }

  lemma PositiveChain()
    ensures var ns, us, ms := FromCount(321, Nanoseconds), FromCount(654, Microseconds), FromCount(987, Milliseconds);
      var s, m, h := FromCount(28, Seconds), FromCount(26, Minutes), FromCount(27, Hours);
      SeparatedComponents(Add(Add(Add(Add(Add(ns, us), ms), s), m), h)) == [321, 654, 987, 28, 26, 27]
  {
    var ns, us, ms := FromCount(321, Nanoseconds), FromCount(654, Microseconds), FromCount(987, Milliseconds);
    var s, m, h := FromCount(28, Seconds), FromCount(26, Minutes), FromCount(27, Hours);
    var p1 := InRangeSum(ns, us);
    var p2 := InRangeSum(p1, ms);
    var p3 := InRangeSum(p2, s);
    var p4 := InRangeSum(p3, m);
    var p5 := InRangeSum(p4, h);
    SameNormalForm(p5, FromCount(98_788_987_654_321, Nanoseconds));
    PositiveCountDigits();
  }

  lemma MixedChain()
    ensures var ns, us, ms := FromCount(321, Nanoseconds), FromCount(654, Microseconds), FromCount(987, Milliseconds);
      var s, m, h := FromCount(28, Seconds), FromCount(26, Minutes), FromCount(27, Hours);
      SeparatedComponents(Sub(Add(Sub(Add(Sub(ns, us), ms), s), m), h)) == [-679, -653, -13, -27, -34, -26]
  {
    var ns, us, ms := FromCount(321, Nanoseconds), FromCount(654, Microseconds), FromCount(987, Milliseconds);
    var s, m, h := FromCount(28, Seconds), FromCount(26, Minutes), FromCount(27, Hours);
    var m1 := InRangeDifference(ns, us);
    var m2 := InRangeSum(m1, ms);
    var m3 := InRangeDifference(m2, s);
    var m4 := InRangeSum(m3, m);
    var m5 := InRangeDifference(m4, h);
    SameNormalForm(m5, FromCount(-95_667_013_653_679, Nanoseconds));
    MixedCountDigits();
  }

  lemma PositiveCountDigits()
    ensures SeparatedComponents(FromCount(98_788_987_654_321, Nanoseconds)) == [321, 654, 987, 28, 26, 27]
  {
    CountSplits(98_788_987_654_321, Duration(27, 1588, 987_654_321, 1, false), [321, 654, 987, 28, 26, 27]);
  }

  lemma NegativeCountDigits()
    ensures SeparatedComponents(FromCount(-98_788_987_654_321, Nanoseconds)) == [-321, -654, -987, -28, -26, -27]
  {
    CountSplits(-98_788_987_654_321, Duration(-27, -1588, -987_654_321, 1, false), [-321, -654, -987, -28, -26, -27]);
  }

  lemma MixedCountDigits()
    ensures SeparatedComponents(FromCount(-95_667_013_653_679, Nanoseconds)) == [-679, -653, -13, -27, -34, -26]
  {
    CountSplits(-95_667_013_653_679, Duration(-26, -2067, -13_653_679, 1, false), [-679, -653, -13, -27, -34, -26]);
  }

  /** A nanosecond count becomes the sanitised value of that total. */
  lemma CountSplits(n: int, d: Duration, c: seq<int>)
    requires IsInt64(n) && IsNormal(d) && Total(d) == n && d.exponent == 1 && !d.rolledOver
    requires |c| == 6
    requires Get(d, Nanoseconds) == c[0] && Get(d, Microseconds) == c[1] && Get(d, Milliseconds) == c[2]
    requires Get(d, Seconds) == c[3] && Get(d, Minutes) == c[4] && d.hours == c[5]
    ensures SeparatedComponents(FromCount(n, Nanoseconds)) == c
  {
    NormalFormUnique(FromCount(n, Nanoseconds), d);
    DigitsOf(d, c);
  }

  /** Checks a concrete digit sequence one digit at a time. */
  lemma DigitsOf(d: Duration, c: seq<int>)
    requires |c| == 6
    requires Get(d, Nanoseconds) == c[0] && Get(d, Microseconds) == c[1] && Get(d, Milliseconds) == c[2]
    requires Get(d, Seconds) == c[3] && Get(d, Minutes) == c[4] && d.hours == c[5]
    ensures SeparatedComponents(d) == c
  {
  }

  /** The digits of the sentinels. */
  lemma SentinelComponents()
    ensures SeparatedComponents(MaxValue(1)) == [999, 999, 999, 59, 59, INT64_MAX]
    ensures SeparatedComponents(MinValue(1)) == [-999, -999, -999, -59, -59, INT64_MIN]
  {
    MaxComponents();
    MinComponents();
  }

  lemma MaxComponents()
    ensures SeparatedComponents(MaxValue(1)) == [999, 999, 999, 59, 59, INT64_MAX]
  {
    var m := MaxValue(1);
    TDivUnique(999_999_999, 1000, 999_999);
    TDivUnique(999_999_999, 1_000_000, 999);
    TDivUnique(3599, 60, 59);
    assert Get(m, Nanoseconds) == 999 && Get(m, Microseconds) == 999 && Get(m, Milliseconds) == 999;
    assert Get(m, Seconds) == 59 && Get(m, Minutes) == 59;
    DigitsOf(m, [999, 999, 999, 59, 59, INT64_MAX]);
  }

  lemma MinComponents()
    ensures SeparatedComponents(MinValue(1)) == [-999, -999, -999, -59, -59, INT64_MIN]
  {
    DigitsOf(MinValue(1), [-999, -999, -999, -59, -59, INT64_MIN]);
  }

  /**
   * Overflowing additions end at max()/min(): ms(i) + max() + ns(i) shows
   * the digits of max() for every i the roll-over test walks through.
   */
  lemma RolloverExamples(i: int)
    requires 0 <= i < 1000
    ensures SeparatedComponents(Add(Add(FromCount(i, Milliseconds), MaxValue(1)), FromCount(i, Nanoseconds)))
            == SeparatedComponents(MaxValue(1))
    ensures SeparatedComponents(Add(MaxValue(1), MaxValue(1))) == SeparatedComponents(MaxValue(1))
    ensures SeparatedComponents(Add(MinValue(1), MinValue(1))) == SeparatedComponents(MinValue(1))
  {
    var first := Add(FromCount(i, Milliseconds), MaxValue(1));
    if i == 0 {
      assert Total(FromCount(i, Milliseconds)) == 0;
      NormalFormUnique(first, MaxValue(1));
      assert Total(FromCount(i, Nanoseconds)) == 0;
      NormalFormUnique(Add(first, FromCount(i, Nanoseconds)), MaxValue(1));
    } else {
      assert Total(FromCount(i, Milliseconds)) == i * NS_PER_MS;
      assert first.rolledOver;
    }
  }

  // ---------------------------------------------------------------------
  // getMayorTime()
  // ---------------------------------------------------------------------

  /** The units from the largest down, the order getMayorTime() tries them in. */
  const UNITS_DESCENDING: seq<Unit> := [Hours, Minutes, Seconds, Milliseconds, Microseconds, Nanoseconds]

  /** The largest unit whose digit is positive, if any. */
  function MayorUnit(d: Duration): (u: Option<Unit>)
    ensures u.Some? ==> Get(d, u.value) > 0 && forall v :: Rank(v) > Rank(u.value) ==> Get(d, v) <= 0
    ensures u.None? ==> forall v :: Get(d, v) <= 0
  {
    if Get(d, Hours) > 0 then Some(Hours)
    else if Get(d, Minutes) > 0 then Some(Minutes)
    else if Get(d, Seconds) > 0 then Some(Seconds)
    else if Get(d, Milliseconds) > 0 then Some(Milliseconds)
    else if Get(d, Microseconds) > 0 then Some(Microseconds)
    else if Get(d, Nanoseconds) > 0 then Some(Nanoseconds)
    else None
  }

  /**
   * getMayorTime(): the duration cut down to its largest positive digit,
   * rebuilt through the chrono constructor of that unit; zero() otherwise.
   * For a positive duration this is the duration truncated to that unit.
   */
  function MayorTime(d: Duration): (r: Duration)
    ensures IsNormal(r) && !r.rolledOver && r.exponent == 1
    ensures MayorUnit(d).None? ==> Total(r) == 0
    ensures MayorUnit(d).Some? ==> Total(r) == Get(d, MayorUnit(d).value) * NanosPer(MayorUnit(d).value)
  {
    match MayorUnit(d)
    case None => ZeroValue(1)
    case Some(Hours) => Duration(d.hours, 0, 0, 1, false)
    case Some(u) => FromCount(Get(d, u), u)
  }

  /** For a sanitised value, getMayorTime() is the value truncated to its largest positive unit. */
  lemma MayorTimeTruncates(d: Duration)
    requires IsNormal(d) && MayorUnit(d).Some?
    ensures 0 <= Total(d) - Total(MayorTime(d)) < NanosPer(MayorUnit(d).value)
  {
    var u := MayorUnit(d).value;
    assert Total(d) >= 0 by {
      if Total(d) < 0 {
        assert false;
      }
    }
    TruncatesAt(d, u);
  }

  /**
   * A non-negative sanitised value whose digits above `u` are zero lies
   * within one `u` above its `u` digit.
   */
  lemma TruncatesAt(d: Duration, u: Unit)
    requires IsNormal(d) && Total(d) >= 0
    requires forall v :: Rank(v) > Rank(u) ==> Get(d, v) <= 0
    ensures 0 <= Total(d) - Get(d, u) * NanosPer(u) < NanosPer(u)
  {
    var c := SeparatedComponents(d);
    assert 0 <= c[0] < 1000 && 0 <= c[1] < 1000 && 0 <= c[2] < 1000 by {
      assert c[Rank(Nanoseconds)] == Get(d, Nanoseconds) && c[Rank(Microseconds)] == Get(d, Microseconds);
      assert c[Rank(Milliseconds)] == Get(d, Milliseconds);
    }
    assert 0 <= c[3] < 60 && 0 <= c[4] < 60 && 0 <= c[5] by {
      assert c[Rank(Seconds)] == Get(d, Seconds) && c[Rank(Minutes)] == Get(d, Minutes);
      assert c[Rank(Hours)] == Get(d, Hours);
    }
    assert forall v :: Rank(v) > Rank(u) ==> c[Rank(v)] == 0;
    DigitWindow(c, Rank(u));
    WeightOfRank(u);
  }

  /** How many nanoseconds one unit of each rank stands for. */
  const WEIGHTS: seq<int> := [1, NS_PER_US, NS_PER_MS, NS_PER_S, NS_PER_MIN, NS_PER_H]

  lemma WeightOfRank(u: Unit)
    ensures Rank(u) < 6 && WEIGHTS[Rank(u)] == NanosPer(u)
  {
  }

  /** Six digits in their ranges, zero above rank `k`, keep the value within one weight of digit `k`. */
  lemma DigitWindow(c: seq<int>, k: nat)
    requires |c| == 6 && k < 6
    requires 0 <= c[0] < 1000 && 0 <= c[1] < 1000 && 0 <= c[2] < 1000
    requires 0 <= c[3] < 60 && 0 <= c[4] < 60 && 0 <= c[5]
    requires forall v :: Rank(v) > k ==> c[Rank(v)] == 0
    ensures var t := c[5] * NS_PER_H + c[4] * NS_PER_MIN + c[3] * NS_PER_S + c[2] * NS_PER_MS + c[1] * NS_PER_US + c[0];
      0 <= t - c[k] * WEIGHTS[k] < WEIGHTS[k]
  {
    LowDigits(c[4], c[3], c[2], c[1], c[0]);
    if k < 5 { assert Rank(Hours) > k; }
    if k < 4 { assert Rank(Minutes) > k; }
    if k < 3 { assert Rank(Seconds) > k; }
    if k < 2 { assert Rank(Milliseconds) > k; }
    if k < 1 { assert Rank(Microseconds) > k; }
  }

  /** The digits below a unit add up to less than one of that unit. */
  lemma LowDigits(min: int, sec: int, ms: int, us: int, ns: int)
    requires 0 <= ns < 1000 && 0 <= us < 1000 && 0 <= ms < 1000 && 0 <= sec < 60 && 0 <= min < 60
    ensures 0 <= us * NS_PER_US + ns < NS_PER_MS
    ensures 0 <= ms * NS_PER_MS + us * NS_PER_US + ns < NS_PER_S
    ensures 0 <= sec * NS_PER_S + ms * NS_PER_MS + us * NS_PER_US + ns < NS_PER_MIN
    ensures 0 <= min * NS_PER_MIN + sec * NS_PER_S + ms * NS_PER_MS + us * NS_PER_US + ns < NS_PER_H
  {
  }
}

=== FILE: duration.dfy ===
/**
 * `PreciseTime` (version 3, and version 2, which differs only by casts
 * through double that are exact below 2^53): a duration held as three
 * integer counters — hours, seconds and nanoseconds — plus the
 * exponent of the unit (s, s^2, ...) and a sticky roll-over flag.
 *
 * The counters are unbounded here. Every operation first computes the exact
 * mixed-radix result with the same carries and sign repairs as the C++
 * `sanitize()`, and only then checks the int64 range of the hours counter,
 * which is where the C++ overflow protection replaces the value by the
 * `max()`/`min()` sentinel and raises the roll-over flag.
 */
module Duration {
  import opened Common

  const NS_PER_US: int := 1000
  const NS_PER_MS: int := 1_000_000
  const NS_PER_S: int := 1_000_000_000
  const S_PER_MIN: int := 60
  const S_PER_H: int := 3600
  const NS_PER_MIN: int := 60_000_000_000
  const NS_PER_H: int := 3_600_000_000_000
  /** Largest magnitude of a sanitised nanosecond counter (MAX_VALIDE_NS). */
  const MAX_VALID_NS: int := 999_999_999
  /** Largest magnitude of a sanitised second counter (MAX_VALIDE_S). */
  const MAX_VALID_S: int := 3599

  /** Total nanoseconds of `max()` and `min()`: the representable range. */
  const MAX_TOTAL: int := INT64_MAX * NS_PER_H + MAX_VALID_S * NS_PER_S + MAX_VALID_NS
  const MIN_TOTAL: int := INT64_MIN * NS_PER_H - MAX_VALID_S * NS_PER_S - MAX_VALID_NS

  /**
   * The fractional `sub_nano_seconds` counter of the C++ class is not part
   * of this model: it only ever holds the floating-point remainder of a
   * scalar multiplication.
   */
  datatype Duration = Duration(hours: int, seconds: int, nanos: int, exponent: int, rolledOver: bool)

  /** The chrono units the class is constructed from and converted to. */
  datatype Unit = Nanoseconds | Microseconds | Milliseconds | Seconds | Minutes | Hours

  function NanosPer(u: Unit): nat {
    match u
    case Nanoseconds => 1
    case Microseconds => NS_PER_US
    case Milliseconds => NS_PER_MS
    case Seconds => NS_PER_S
    case Minutes => NS_PER_MIN
    case Hours => NS_PER_H
  }

  /** The value a duration stands for, in nanoseconds of its unit. */
  function Total(d: Duration): int {
    d.hours * NS_PER_H + d.seconds * NS_PER_S + d.nanos
  }

  predicate InBounds(d: Duration) {
    -MAX_VALID_NS <= d.nanos <= MAX_VALID_NS && -MAX_VALID_S <= d.seconds <= MAX_VALID_S
  }

  /** No counter carries a sign opposite to another one. */
  predicate SignCoherent(d: Duration) {
    (d.hours >= 0 && d.seconds >= 0 && d.nanos >= 0) || (d.hours <= 0 && d.seconds <= 0 && d.nanos <= 0)
  }

  /** The shape `sanitize()` leaves a value in. */
  predicate IsNormal(d: Duration) {
    InBounds(d) && SignCoherent(d)
  }

  /** A value the C++ class can hold: sanitised, with an int64 hours counter. */
  predicate Valid(d: Duration) {
    IsNormal(d) && IsInt64(d.hours)
  }

  predicate InRange(t: int) {
    MIN_TOTAL <= t <= MAX_TOTAL
  }

  // ---------------------------------------------------------------------
  // sanitize()
  // ---------------------------------------------------------------------

  /** sanitizeNS: moves whole seconds out of an oversized nanosecond counter. */
  function SanitizeNanos(d: Duration): (r: Duration)
    ensures Total(r) == Total(d)
    ensures -MAX_VALID_NS <= r.nanos <= MAX_VALID_NS
    ensures r.hours == d.hours && r.exponent == d.exponent && r.rolledOver == d.rolledOver
    ensures -MAX_VALID_NS <= d.nanos <= MAX_VALID_NS ==> r == d
  {
    if d.nanos > MAX_VALID_NS || d.nanos < -MAX_VALID_NS then
      var carry := TDiv(d.nanos, NS_PER_S);
      d.(nanos := d.nanos - carry * NS_PER_S, seconds := d.seconds + carry)
    else
      d
  }

  /** sanitizeS: moves whole hours out of an oversized second counter. */
  function SanitizeSeconds(d: Duration): (r: Duration)
    ensures Total(r) == Total(d)
    ensures -MAX_VALID_S <= r.seconds <= MAX_VALID_S
    ensures r.nanos == d.nanos && r.exponent == d.exponent && r.rolledOver == d.rolledOver
    ensures -MAX_VALID_S <= d.seconds <= MAX_VALID_S ==> r == d
  {
    if d.seconds > MAX_VALID_S || d.seconds < -MAX_VALID_S then
      var carry := TDiv(d.seconds, S_PER_H);
      d.(seconds := d.seconds - carry * S_PER_H, hours := d.hours + carry)
    else
      d
  }

  /** The `sameSign` lambda of sanitizeSign: zero agrees with every sign. */
  predicate SameSign(a: int, b: int) {
    a == 0 || b == 0 || (a > 0 <==> b > 0)
  }

  /**
   * sanitizeSign: borrows one hour for the seconds, then one second for the
   * nanoseconds, or — when the seconds are zero — one hour for both.
   */
  function SanitizeSign(d: Duration): (r: Duration)
    requires InBounds(d)
    ensures IsNormal(r)
    ensures Total(r) == Total(d)
    ensures r.exponent == d.exponent && r.rolledOver == d.rolledOver
    ensures SignCoherent(d) ==> r == d
  {
    var d1 :=
      if SameSign(d.seconds, d.hours) then d
      else if d.hours < 0 then d.(hours := d.hours + 1, seconds := d.seconds - S_PER_H)
      else d.(hours := d.hours - 1, seconds := S_PER_H + d.seconds);
    if !SameSign(d1.nanos, d1.seconds) then
      if d1.seconds < 0 then d1.(seconds := d1.seconds + 1, nanos := d1.nanos - NS_PER_S)
      else d1.(seconds := d1.seconds - 1, nanos := NS_PER_S + d1.nanos)
    else if !SameSign(d1.nanos, d1.hours) then
      if d1.hours < 0 then d1.(hours := d1.hours + 1, seconds := -S_PER_H + 1, nanos := d1.nanos - NS_PER_S)
      else d1.(hours := d1.hours - 1, seconds := S_PER_H - 1, nanos := NS_PER_S + d1.nanos)
    else
      d1
  }

  /** sanitize(): the three repairs in the order the C++ code runs them. */
  function Normalize(d: Duration): (r: Duration)
    ensures IsNormal(r)
    ensures Total(r) == Total(d)
    ensures r.exponent == d.exponent && r.rolledOver == d.rolledOver
    ensures IsNormal(d) ==> r == d
  {
    SanitizeSign(SanitizeSeconds(SanitizeNanos(d)))
  }

  // ---------------------------------------------------------------------
  // Comparisons (operator== ... operator>=)
  // ---------------------------------------------------------------------

  /** operator<: lexicographic on hours, seconds, nanoseconds; the exponent is ignored. */
  predicate Less(a: Duration, b: Duration) {
    (a.hours == b.hours && a.seconds == b.seconds && a.nanos != b.nanos && a.nanos < b.nanos)
    || (a.hours == b.hours && a.seconds != b.seconds && a.seconds < b.seconds)
    || (a.hours != b.hours && a.hours < b.hours)
  }

  /** operator==: the exponent and the three counters agree. */
  predicate Equal(a: Duration, b: Duration) {
    a.exponent == b.exponent && a.nanos == b.nanos && a.seconds == b.seconds && a.hours == b.hours
  }

  predicate NotEqual(a: Duration, b: Duration) {
    !Equal(a, b)
  }

  predicate Greater(a: Duration, b: Duration) {
    !Less(a, b) && NotEqual(a, b)
  }

  predicate LessOrEqual(a: Duration, b: Duration) {
    !Greater(a, b)
  }

  predicate GreaterOrEqual(a: Duration, b: Duration) {
    !Less(a, b)
  }

  /** Between sanitised values a smaller hours counter means a smaller duration. */
  lemma HoursDominate(a: Duration, b: Duration)
    requires IsNormal(a) && IsNormal(b) && a.hours < b.hours
    ensures Total(a) < Total(b)
  {
    if a.hours >= 0 {
      assert Total(a) <= a.hours * NS_PER_H + NS_PER_H - 1;
      assert Total(b) >= b.hours * NS_PER_H;
    } else if b.hours <= 0 {
      assert Total(a) <= a.hours * NS_PER_H;
      assert Total(b) >= b.hours * NS_PER_H - NS_PER_H + 1;
    }
  }

  /** With equal hours, a smaller seconds counter means a smaller duration. */
  lemma SecondsDominate(a: Duration, b: Duration)
    requires IsNormal(a) && IsNormal(b) && a.hours == b.hours && a.seconds < b.seconds
    ensures Total(a) < Total(b)
  {
  }

  /**
   * On sanitised values operator< is exactly the order of the durations
   * they stand for; this is what lets the statistics work on nanoseconds.
   */
  lemma LessMatchesTotal(a: Duration, b: Duration)
    requires IsNormal(a) && IsNormal(b)
    ensures Less(a, b) <==> Total(a) < Total(b)
  {
    if a.hours < b.hours {
      HoursDominate(a, b);
    } else if b.hours < a.hours {
      HoursDominate(b, a);
    } else if a.seconds < b.seconds {
      SecondsDominate(a, b);
    } else if b.seconds < a.seconds {
      SecondsDominate(b, a);
    }
  }

  /** A sanitised value is determined by the duration it stands for. */
  lemma NormalFormUnique(a: Duration, b: Duration)
    requires IsNormal(a) && IsNormal(b) && Total(a) == Total(b)
    ensures a.hours == b.hours && a.seconds == b.seconds && a.nanos == b.nanos
  {
    LessMatchesTotal(a, b);
    LessMatchesTotal(b, a);
  }

  /** sanitize() therefore yields the one sanitised value of a duration. */
  lemma NormalizeCanonical(d: Duration, e: Duration)
    requires Total(d) == Total(e) && d.exponent == e.exponent && d.rolledOver == e.rolledOver
    ensures Normalize(d) == Normalize(e)
  {
    NormalFormUnique(Normalize(d), Normalize(e));
  }

  /** The other comparison operators, for values of one unit. */
  lemma ComparisonsMatchTotal(a: Duration, b: Duration)
    requires IsNormal(a) && IsNormal(b) && a.exponent == b.exponent
    ensures Equal(a, b) <==> Total(a) == Total(b)
    ensures Greater(a, b) <==> Total(a) > Total(b)
    ensures LessOrEqual(a, b) <==> Total(a) <= Total(b)
    ensures GreaterOrEqual(a, b) <==> Total(a) >= Total(b)
  {
    LessMatchesTotal(a, b);
    if Total(a) == Total(b) {
      NormalFormUnique(a, b);
    }
  }

  /**
   * Values that differ only in their unit are each "greater" than the
   * other: operator> is operator!= minus operator<, and operator!= sees the
   * exponent while operator< does not.
   */
  lemma GreaterAcrossUnits(a: Duration, b: Duration)
    requires a.hours == b.hours && a.seconds == b.seconds && a.nanos == b.nanos
    requires a.exponent != b.exponent
    ensures Greater(a, b) && Greater(b, a)
    ensures !LessOrEqual(a, b) && GreaterOrEqual(a, b)
  {
  }

  // ---------------------------------------------------------------------
  // Sentinels and sign
  // ---------------------------------------------------------------------

  /** max<EXPO>(): the greatest value the class can hold. */
  function MaxValue(exponent: int): (r: Duration)
    ensures Valid(r) && !r.rolledOver && r.exponent == exponent
    ensures Total(r) == MAX_TOTAL
  {
    Duration(INT64_MAX, MAX_VALID_S, MAX_VALID_NS, exponent, false)
  }

  /** min<EXPO>(): the smallest value the class can hold. */
  function MinValue(exponent: int): (r: Duration)
    ensures Valid(r) && !r.rolledOver && r.exponent == exponent
    ensures Total(r) == MIN_TOTAL
  {
    Duration(INT64_MIN, -MAX_VALID_S, -MAX_VALID_NS, exponent, false)
  }

  /** zero<EXPO>(). */
  function ZeroValue(exponent: int): (r: Duration)
    ensures Valid(r) && !r.rolledOver && r.exponent == exponent
    ensures Total(r) == 0
  {
    Duration(0, 0, 0, exponent, false)
  }

  /** Every value the class can hold lies between min() and max(). */
  lemma SentinelsBound(d: Duration)
    requires Valid(d)
    ensures InRange(Total(d))
    ensures LessOrEqual(d, MaxValue(d.exponent)) && GreaterOrEqual(d, MinValue(d.exponent))
  {
    ComparisonsMatchTotal(d, MaxValue(d.exponent));
    ComparisonsMatchTotal(d, MinValue(d.exponent));
  }

  /** A sanitised value fits the int64 hours counter iff it lies in range. */
  lemma HoursFitIffInRange(n: Duration)
    requires IsNormal(n)
    ensures n.hours > INT64_MAX <==> Total(n) > MAX_TOTAL
    ensures n.hours < INT64_MIN <==> Total(n) < MIN_TOTAL
  {
    if n.hours > INT64_MAX {
      HoursDominate(MaxValue(1), n);
    } else {
      if n.hours < INT64_MAX {
        HoursDominate(n, MaxValue(1));
      } else {
        LessMatchesTotal(n, MaxValue(1));
      }
    }
    if n.hours < INT64_MIN {
      HoursDominate(n, MinValue(1));
    } else {
      if n.hours > INT64_MIN {
        HoursDominate(MinValue(1), n);
      } else {
        LessMatchesTotal(MinValue(1), n);
      }
    }
  }

  /** isPositive(): the sign of the highest non-zero counter; zero counts as positive. */
  predicate IsPositive(d: Duration) {
    if d.hours != 0 then 0 < d.hours
    else if d.seconds != 0 then 0 < d.seconds
    else if d.nanos != 0 then 0 < d.nanos
    else true
  }

  lemma IsPositiveMatchesTotal(d: Duration)
    requires IsNormal(d)
    ensures IsPositive(d) <==> Total(d) >= 0
  {
  }

  // ---------------------------------------------------------------------
  // Construction
  // ---------------------------------------------------------------------

  /** The int64 arithmetic of the constructor for unit `u` does not overflow. */
  predicate ConstructorFits(count: int, u: Unit) {
    IsInt64(count)
    && (u == Microseconds ==> IsInt64(count * NS_PER_US))
    && (u == Milliseconds ==> IsInt64(count * NS_PER_MS))
    && (u == Minutes ==> IsInt64(count * S_PER_MIN))
  }

  /**
   * The chrono constructors: the count is scaled into the nanosecond (ns,
   * us, ms) or the second (s, min) counter and sanitised; an hours count is
   * stored as it is.
   */
  function FromCount(count: int, u: Unit): (r: Duration)
    requires ConstructorFits(count, u)
    ensures Valid(r) && !r.rolledOver && r.exponent == 1
    ensures Total(r) == count * NanosPer(u)
  {
    match u
    case Nanoseconds => SanitizedCount(0, count)
    case Microseconds => SanitizedCount(0, count * NS_PER_US)
    case Milliseconds => SanitizedCount(0, count * NS_PER_MS)
    case Seconds => SanitizedCount(count, 0)
    case Minutes => SanitizedCount(count * S_PER_MIN, 0)
    case Hours => Duration(count, 0, 0, 1, false)
  }

  /** A seconds and a nanoseconds counter, each int64, sanitised. */
  function SanitizedCount(seconds: int, nanos: int): (r: Duration)
    requires IsInt64(seconds) && IsInt64(nanos)
    ensures Valid(r) && !r.rolledOver && r.exponent == 1
    ensures Total(r) == seconds * NS_PER_S + nanos
  {
    var d := Duration(0, seconds, nanos, 1, false);
    assert Total(d) == seconds * NS_PER_S + nanos;
    var r := Normalize(d);
    HoursFitIffInRange(r);
    r
  }

  // ---------------------------------------------------------------------
  // operator+= / operator-=
  // ---------------------------------------------------------------------

  /**
   * The overflow protection applied to an exact sanitised result: hours
   * beyond int64 become the max()/min() sentinel with the roll-over flag,
   * carrying `saturatedExponent`.
   */
  function Saturate(n: Duration, saturatedExponent: int): Duration {
    if n.hours > INT64_MAX then MaxValue(saturatedExponent).(rolledOver := true)
    else if n.hours < INT64_MIN then MinValue(saturatedExponent).(rolledOver := true)
    else n
  }

  /** Field-wise sum or difference of two counters, sanitised. */
  function Combine(a: Duration, b: Duration, subtract: bool): Duration {
    var sign := if subtract then -1 else 1;
    Normalize(Duration(a.hours + sign * b.hours, a.seconds + sign * b.seconds,
                       a.nanos + sign * b.nanos, a.exponent, false))
  }

  /**
   * operator+= exactly as written: a saturated result is assigned
   * `max()`/`min()` with their default exponent template argument, so it
   * loses the unit of the operands.
   */
  function AddAsWritten(a: Duration, b: Duration): (r: Duration)
    requires a.exponent == b.exponent
    ensures a.rolledOver ==> r == a
    ensures !a.rolledOver && b.rolledOver ==> r == b
    ensures !a.rolledOver && !b.rolledOver && Total(a) + Total(b) > MAX_TOTAL ==> r == MaxValue(1).(rolledOver := true)
    ensures !a.rolledOver && !b.rolledOver && Total(a) + Total(b) < MIN_TOTAL ==> r == MinValue(1).(rolledOver := true)
    ensures !a.rolledOver && !b.rolledOver && InRange(Total(a) + Total(b)) ==> r == Add(a, b)
    ensures a.exponent == 1 ==> r == Add(a, b)
  {
    if a.rolledOver then a
    else if b.rolledOver then b
    else
      var n := Combine(a, b, false);
      HoursFitIffInRange(n);
      Saturate(n, 1)
  }

  /**
   * operator+= / operator+: the exact sum when it is representable,
   * otherwise the sentinel on the side it overflowed, flagged as rolled over
   * and in the operands' unit. A rolled-over receiver stays as it is; a
   * rolled-over argument is copied.
   */
  function Add(a: Duration, b: Duration): (r: Duration)
    requires a.exponent == b.exponent
    ensures r.exponent == a.exponent
    ensures a.rolledOver ==> r == a
    ensures !a.rolledOver && b.rolledOver ==> r == b
    ensures !a.rolledOver && !b.rolledOver ==>
      Valid(r) && r.exponent == a.exponent && (r.rolledOver <==> !InRange(Total(a) + Total(b)))
    ensures !a.rolledOver && !b.rolledOver && InRange(Total(a) + Total(b)) ==> Total(r) == Total(a) + Total(b)
    ensures !a.rolledOver && !b.rolledOver && Total(a) + Total(b) > MAX_TOTAL ==> r == MaxValue(a.exponent).(rolledOver := true)
    ensures !a.rolledOver && !b.rolledOver && Total(a) + Total(b) < MIN_TOTAL ==> r == MinValue(a.exponent).(rolledOver := true)
  {
    if a.rolledOver then a
    else if b.rolledOver then b
    else
      var n := Combine(a, b, false);
      HoursFitIffInRange(n);
      Saturate(n, a.exponent)
  }

  /** operator-= / operator-: as `Add`, for the difference. */
  function Sub(a: Duration, b: Duration): (r: Duration)
    requires a.exponent == b.exponent
    ensures r.exponent == a.exponent
    ensures a.rolledOver ==> r == a
    ensures !a.rolledOver && b.rolledOver ==> r == b
    ensures !a.rolledOver && !b.rolledOver ==>
      Valid(r) && r.exponent == a.exponent && (r.rolledOver <==> !InRange(Total(a) - Total(b)))
    ensures !a.rolledOver && !b.rolledOver && InRange(Total(a) - Total(b)) ==> Total(r) == Total(a) - Total(b)
    ensures !a.rolledOver && !b.rolledOver && Total(a) - Total(b) > MAX_TOTAL ==> r == MaxValue(a.exponent).(rolledOver := true)
    ensures !a.rolledOver && !b.rolledOver && Total(a) - Total(b) < MIN_TOTAL ==> r == MinValue(a.exponent).(rolledOver := true)
  {
    if a.rolledOver then a
    else if b.rolledOver then b
    else
      var n := Combine(a, b, true);
      HoursFitIffInRange(n);
      Saturate(n, a.exponent)
  }

  /** The as-written saturation drops the unit: max<2>() + 1ns^2 comes back as s^1. */
  lemma SaturatedSumLosesUnit()
    ensures AddAsWritten(MaxValue(2), Duration(0, 0, 1, 2, false)).exponent == 1
    ensures Add(MaxValue(2), Duration(0, 0, 1, 2, false)).exponent == 2
  {
  }

  /** Addition commutes, overflow included, as long as neither operand has rolled over. */
  lemma AddCommutes(a: Duration, b: Duration)
    requires a.exponent == b.exponent && !a.rolledOver && !b.rolledOver
    ensures Add(a, b) == Add(b, a)
  {
    if InRange(Total(a) + Total(b)) {
      NormalFormUnique(Add(a, b), Add(b, a));
    }
  }

  /** Addition associates while no partial sum overflows. */
  lemma AddAssociates(a: Duration, b: Duration, c: Duration)
    requires a.exponent == b.exponent == c.exponent
    requires !a.rolledOver && !b.rolledOver && !c.rolledOver
    requires InRange(Total(a) + Total(b)) && InRange(Total(b) + Total(c))
    requires InRange(Total(a) + Total(b) + Total(c))
    ensures Add(Add(a, b), c) == Add(a, Add(b, c))
  {
    var ab := InRangeSum(a, b);
    var bc := InRangeSum(b, c);
    var left := InRangeSum(ab, c);
    var right := InRangeSum(a, bc);
    NormalFormUnique(left, right);
  }

  /** The facts about an in-range sum that `AddAssociates` chains. */
  lemma InRangeSum(a: Duration, b: Duration) returns (r: Duration)
    requires a.exponent == b.exponent && !a.rolledOver && !b.rolledOver
    requires InRange(Total(a) + Total(b))
    ensures r == Add(a, b)
    ensures IsNormal(r) && !r.rolledOver && r.exponent == a.exponent && Total(r) == Total(a) + Total(b)
  {
    r := Add(a, b);
  }

  /** `InRangeSum` for an in-range difference. */
  lemma InRangeDifference(a: Duration, b: Duration) returns (r: Duration)
    requires a.exponent == b.exponent && !a.rolledOver && !b.rolledOver
    requires InRange(Total(a) - Total(b))
    ensures r == Sub(a, b)
    ensures IsNormal(r) && !r.rolledOver && r.exponent == a.exponent && Total(r) == Total(a) - Total(b)
  {
    r := Sub(a, b);
  }

  /** Subtraction undoes addition while nothing overflows. */
  lemma SubUndoesAdd(a: Duration, b: Duration)
    requires a.exponent == b.exponent && Valid(a) && !a.rolledOver && !b.rolledOver
    requires InRange(Total(a) + Total(b))
    ensures Sub(Add(a, b), b) == a
  {
    SentinelsBound(a);
    NormalFormUnique(Sub(Add(a, b), b), a);
  }

  /** A value minus itself is zero of its unit. */
  lemma SubSelfIsZero(a: Duration)
    requires Valid(a) && !a.rolledOver
    ensures Sub(a, a) == ZeroValue(a.exponent)
  {
    NormalFormUnique(Sub(a, a), ZeroValue(a.exponent));
  }

  /** The borrow step of sanitizeSign: s(3) - ns(333) is ns(2999999667). */
  lemma BorrowIntoNanos()
    ensures Sub(FromCount(3, Seconds), FromCount(333, Nanoseconds)) == FromCount(2_999_999_667, Nanoseconds)
  {
    SameNormalForm(Sub(FromCount(3, Seconds), FromCount(333, Nanoseconds)), FromCount(2_999_999_667, Nanoseconds));
  }

  /** h(3) - s(333) is h(2) + s(3267). */
  lemma BorrowIntoSeconds()
    ensures Sub(FromCount(3, Hours), FromCount(333, Seconds)) == Add(FromCount(2, Hours), FromCount(3267, Seconds))
  {
    var sum := InRangeSum(FromCount(2, Hours), FromCount(3267, Seconds));
    SameNormalForm(Sub(FromCount(3, Hours), FromCount(333, Seconds)), sum);
  }

  /** h(3) - ns(1) borrows through both lower counters: (2 h, 3599 s, 999999999 ns). */
  lemma BorrowAcrossBoth()
    ensures Sub(FromCount(3, Hours), FromCount(1, Nanoseconds)) == Duration(2, 3599, 999_999_999, 1, false)
  {
    SameNormalForm(Sub(FromCount(3, Hours), FromCount(1, Nanoseconds)), Duration(2, 3599, 999_999_999, 1, false));
  }

  /** The documented sanitizeSign example: {10 s} - {10 ns} is {9 s, 999999990 ns}. */
  lemma TenSecondsLessTenNanos()
    ensures Sub(FromCount(10, Seconds), FromCount(10, Nanoseconds)) == Duration(0, 9, 999_999_990, 1, false)
  {
    SameNormalForm(Sub(FromCount(10, Seconds), FromCount(10, Nanoseconds)), Duration(0, 9, 999_999_990, 1, false));
  }

  /** Two normal values of one unit and flag that stand for the same nanoseconds are equal. */
  lemma SameNormalForm(a: Duration, b: Duration)
    requires IsNormal(a) && IsNormal(b) && Total(a) == Total(b)
    requires a.exponent == b.exponent && a.rolledOver == b.rolledOver
    ensures a == b
  {
    NormalFormUnique(a, b);
  }

  // ---------------------------------------------------------------------
  // Products, quotients and roots of units
  // ---------------------------------------------------------------------

  /** toDouble<seconds>() without rounding. */
  function SecondsOf(d: Duration): real {
    Total(d) as real / NS_PER_S as real
  }

  /**
   * The result of operator*(PreciseTime) or operator/(PreciseTime) for two
   * unflagged operands, as written. `magnitude` is the value the floating
   * point computation works out to, with its hours not yet range-checked.
   * Beyond the int64 hours the code assigns max()/min() and raises the flag,
   * but `setNanoseconds` then passes the out-of-range value on through
   * `setSeconds` to `setHours`, whose own `*this = max()`/`min()` resets the
   * flag to its default: the sentinel comes back unflagged.
   */
  function ProductAsWritten(magnitude: Duration, exponent: int): (r: Duration)
    ensures !r.rolledOver && r.exponent == exponent
    ensures IsInt64(magnitude.hours) ==> Total(r) == Total(magnitude)
    ensures magnitude.hours > INT64_MAX ==> r == MaxValue(exponent)
    ensures magnitude.hours < INT64_MIN ==> r == MinValue(exponent)
  {
    if magnitude.hours > INT64_MAX then MaxValue(exponent)
    else if magnitude.hours < INT64_MIN then MinValue(exponent)
    else magnitude.(exponent := exponent, rolledOver := false)
  }

  /** The same result with the roll-over flag the code evidently means to raise. */
  function Product(magnitude: Duration, exponent: int): (r: Duration)
    ensures r.exponent == exponent && (r.rolledOver <==> !IsInt64(magnitude.hours))
    ensures IsInt64(magnitude.hours) ==> Total(r) == Total(magnitude)
    ensures r.rolledOver ==> r == ProductAsWritten(magnitude, exponent).(rolledOver := true)
    ensures !r.rolledOver ==> r == ProductAsWritten(magnitude, exponent)
  {
    Saturate(magnitude.(exponent := exponent, rolledOver := false), exponent)
  }

  /** operator*(PreciseTime) as written: rolled-over operands absorb, a saturated product is unflagged. */
  function MultiplyAsWritten(a: Duration, b: Duration, magnitude: Duration): (r: Duration)
    ensures a.rolledOver ==> r == a
    ensures !a.rolledOver && b.rolledOver ==> r == b
    ensures !a.rolledOver && !b.rolledOver ==> !r.rolledOver && r.exponent == a.exponent + b.exponent
    ensures !a.rolledOver && !b.rolledOver && IsInt64(magnitude.hours) ==> Total(r) == Total(magnitude)
  {
    if a.rolledOver then a
    else if b.rolledOver then b
    else ProductAsWritten(magnitude, a.exponent + b.exponent)
  }

  /**
   * operator*(PreciseTime), corrected: the units add, and the result is
   * flagged exactly when the product leaves the int64 hours.
   */
  function Multiply(a: Duration, b: Duration, magnitude: Duration): (r: Duration)
    ensures a.rolledOver ==> r == a
    ensures !a.rolledOver && b.rolledOver ==> r == b
    ensures !a.rolledOver && !b.rolledOver ==> r.exponent == a.exponent + b.exponent
    ensures !a.rolledOver && !b.rolledOver ==> (r.rolledOver <==> !IsInt64(magnitude.hours))
    ensures !a.rolledOver && !b.rolledOver && IsInt64(magnitude.hours) ==> Total(r) == Total(magnitude)
    ensures !a.rolledOver && !b.rolledOver && magnitude.hours > INT64_MAX ==> r == MaxValue(r.exponent).(rolledOver := true)
    ensures !a.rolledOver && !b.rolledOver && magnitude.hours < INT64_MIN ==> r == MinValue(r.exponent).(rolledOver := true)
  {
    if a.rolledOver then a
    else if b.rolledOver then b
    else Product(magnitude, a.exponent + b.exponent)
  }

  /** operator/(PreciseTime) as written, for the unit and the flag: the quotient's saturation is unflagged too. */
  function DivideAsWritten(a: Duration, b: Duration, magnitude: Duration): (r: Duration)
    ensures a.rolledOver ==> r == a
    ensures !a.rolledOver && b.rolledOver ==> r == b
    ensures !a.rolledOver && !b.rolledOver ==> !r.rolledOver && r.exponent == a.exponent - b.exponent
    ensures !a.rolledOver && !b.rolledOver && IsInt64(magnitude.hours) ==> Total(r) == Total(magnitude)
  {
    if a.rolledOver then a
    else if b.rolledOver then b
    else ProductAsWritten(magnitude, a.exponent - b.exponent)
  }

  /** operator/(PreciseTime), corrected: the unit of the receiver over the unit of the argument. */
  function Divide(a: Duration, b: Duration, magnitude: Duration): (r: Duration)
    ensures a.rolledOver ==> r == a
    ensures !a.rolledOver && b.rolledOver ==> r == b
    ensures !a.rolledOver && !b.rolledOver ==> r.exponent == a.exponent - b.exponent
    ensures !a.rolledOver && !b.rolledOver ==> (r.rolledOver <==> !IsInt64(magnitude.hours))
    ensures !a.rolledOver && !b.rolledOver && IsInt64(magnitude.hours) ==> Total(r) == Total(magnitude)
    ensures !a.rolledOver && !b.rolledOver && magnitude.hours > INT64_MAX ==> r == MaxValue(r.exponent).(rolledOver := true)
    ensures !a.rolledOver && !b.rolledOver && magnitude.hours < INT64_MIN ==> r == MinValue(r.exponent).(rolledOver := true)
  {
    if a.rolledOver then a
    else if b.rolledOver then b
    else Product(magnitude, a.exponent - b.exponent)
  }

  /**
   * The two differ only in the flag of a saturated result: as written, an
   * overflowing product or quotient of unflagged operands is the unflagged
   * sentinel, so nothing downstream can tell it from a genuine max()/min().
   */
  lemma SaturationFlagLost(a: Duration, b: Duration, magnitude: Duration)
    ensures MultiplyAsWritten(a, b, magnitude) == Multiply(a, b, magnitude).(rolledOver := MultiplyAsWritten(a, b, magnitude).rolledOver)
    ensures DivideAsWritten(a, b, magnitude) == Divide(a, b, magnitude).(rolledOver := DivideAsWritten(a, b, magnitude).rolledOver)
    ensures !a.rolledOver && !b.rolledOver && !IsInt64(magnitude.hours) ==>
      !MultiplyAsWritten(a, b, magnitude).rolledOver && Multiply(a, b, magnitude).rolledOver
      && !DivideAsWritten(a, b, magnitude).rolledOver && Divide(a, b, magnitude).rolledOver
  {
  }

  /** max() · max(): about 3.1 * 10^41 hours, far beyond int64; as written the sentinel is unflagged. */
  lemma MaxSquaredUnflagged(magnitude: Duration)
    requires magnitude.hours > INT64_MAX
    ensures MultiplyAsWritten(MaxValue(1), MaxValue(1), magnitude) == MaxValue(2)
    ensures Multiply(MaxValue(1), MaxValue(1), magnitude) == MaxValue(2).(rolledOver := true)
  {
  }

  /**
   * The seconds operator/(PreciseTime) feeds into its magnitude as written:
   * the argument's seconds over the receiver's, the reciprocal of what the
   * exponent `a.exponent - b.exponent` says was computed.
   */
  function QuotientSecondsAsWritten(a: Duration, b: Duration): (q: Option<real>)
    ensures q.Some? <==> SecondsOf(a) != 0.0
    ensures q.Some? ==> q.value * SecondsOf(a) == SecondsOf(b)
  {
    if SecondsOf(a) == 0.0 then None else Some(SecondsOf(b) / SecondsOf(a))
  }

  /** The quotient the unit bookkeeping of operator/ describes: receiver over argument. */
  function QuotientSeconds(a: Duration, b: Duration): (q: Option<real>)
    ensures q.Some? <==> SecondsOf(b) != 0.0
    ensures q.Some? ==> q.value * SecondsOf(b) == SecondsOf(a)
  {
    if SecondsOf(b) == 0.0 then None else Some(SecondsOf(a) / SecondsOf(b))
  }

  /** 2 s / 1 s is 0.5 as written and 2 as intended. */
  lemma QuotientInverted()
    ensures QuotientSecondsAsWritten(FromCount(2, Seconds), FromCount(1, Seconds)) == Some(0.5)
    ensures QuotientSeconds(FromCount(2, Seconds), FromCount(1, Seconds)) == Some(2.0)
  {
    assert Total(FromCount(2, Seconds)) == 2 * NS_PER_S;
    assert Total(FromCount(1, Seconds)) == NS_PER_S;
  }

  /**
   * sqrt(): the unit is halved, the magnitude is computed in floating point
   * and the roll-over flag is cleared by starting from zero(). The code
   * asserts an even exponent in debug builds; a release build halves an odd
   * one with C++ integer division, truncating toward zero.
   */
  function Sqrt(d: Duration, magnitude: Duration): (r: Duration)
    ensures d.exponent % 2 == 0 ==> r.exponent + r.exponent == d.exponent
    ensures d.exponent % 2 == 1 && d.exponent > 0 ==> r.exponent + r.exponent == d.exponent - 1
    ensures d.exponent % 2 == 1 && d.exponent < 0 ==> r.exponent + r.exponent == d.exponent + 1
    ensures !r.rolledOver && Total(r) == Total(magnitude)
  {
    magnitude.(exponent := TDiv(d.exponent, 2), rolledOver := false)
  }

  /** In a release build the root of s^3 is taken in s^1, and that of s^-3 in s^-1. */
  lemma OddRootTruncates(magnitude: Duration)
    ensures Sqrt(Duration(0, 1, 0, 3, false), magnitude).exponent == 1
    ensures Sqrt(Duration(0, 1, 0, -3, false), magnitude).exponent == -1
  {
  }

  /** Units compose: a product divided by one factor has the other factor's unit. */
  lemma UnitsCancel(a: Duration, b: Duration, product: Duration, quotient: Duration)
    requires !a.rolledOver && !b.rolledOver && IsInt64(product.hours)
    ensures Divide(Multiply(a, b, product), b, quotient).exponent == a.exponent
    ensures DivideAsWritten(MultiplyAsWritten(a, b, product), b, quotient).exponent == a.exponent
  {
  }

  /**
   * The roll-over flag is sticky through `*` and `/`: corrected, a chain of
   * them is flagged exactly when an operand was or a computed magnitude left
   * the int64 hours; as written, exactly when an operand was.
   */
  lemma FlagSticky(a: Duration, b: Duration, c: Duration, product: Duration, quotient: Duration)
    ensures Divide(Multiply(a, b, product), c, quotient).rolledOver
      <==> a.rolledOver || b.rolledOver || c.rolledOver || !IsInt64(product.hours) || !IsInt64(quotient.hours)
    ensures DivideAsWritten(MultiplyAsWritten(a, b, product), c, quotient).rolledOver
      <==> a.rolledOver || b.rolledOver || c.rolledOver
  {
  }

  /** The root of a square has the unit of the squared value. */
  lemma SqrtOfSquare(a: Duration, square: Duration, root: Duration)
    requires !a.rolledOver
    ensures Sqrt(Multiply(a, a, square), root).exponent == a.exponent
  {
  }
}

=== FILE: format.dfy ===
/**
 * Text output of `PreciseTime`: `operator<<`/`toString()`, which prints
 * the six digits with aligning blanks, the exponent and a banner for a
 * rolled-over value, and `getMayorTimeString()`, which prints only the
 * largest positive digit with its unit.
 */
module Format {
  import opened Common
  import opened Duration
  import opened Components

  predicate IsDigit(c: char) {
    '0' <= c <= '9'
  }

  predicate AllDigits(s: string) {
    forall i :: 0 <= i < |s| ==> IsDigit(s[i])
  }

  function DigitChar(n: nat): (c: char)
    requires n < 10
    ensures IsDigit(c) && c as int - '0' as int == n
  {
    ('0' as int + n) as char
  }

  /** The decimal digits of `n`, most significant first, without leading zeros. */
  function NatToString(n: nat): (s: string)
    ensures 1 <= |s| && AllDigits(s)
    ensures n < 10 ==> |s| == 1
    ensures 10 <= n < 100 ==> |s| == 2
    ensures 100 <= n < 1000 ==> |s| == 3
  {
    if n < 10 then [DigitChar(n)] else NatToString(n / 10) + [DigitChar(n % 10)]
  }

  /** The number a string of decimal digits denotes. */
  function DigitsValue(s: string): nat
    requires AllDigits(s)
  {
    if |s| == 0 then 0 else DigitsValue(s[..|s| - 1]) * 10 + (s[|s| - 1] as int - '0' as int)
  }

  lemma {:induction false} NatToStringRoundTrip(n: nat)
    ensures DigitsValue(NatToString(n)) == n
  {
    if n >= 10 {
      NatToStringRoundTrip(n / 10);
      var s := NatToString(n);
      assert s[..|s| - 1] == NatToString(n / 10);
    }
  }

  /** Reads back what `IntToString` writes: an optional '-' and decimal digits. */
  function ParseInt(s: string): Option<int> {
    if 2 <= |s| && s[0] == '-' && AllDigits(s[1..]) then Some(0 - DigitsValue(s[1..]) as int)
    else if 1 <= |s| && AllDigits(s) then Some(DigitsValue(s))
    else None
  }

  /** How `operator<<` and `std::to_string` print an integer. */
  function IntToString(x: int): (s: string)
    ensures 1 <= |s|
    ensures forall i :: 0 <= i < |s| ==> IsDigit(s[i]) || s[i] == '-'
    ensures ParseInt(s) == Some(x)
  {
    if x < 0 then
      var s := "-" + NatToString(-x);
      NatToStringRoundTrip(-x);
      assert s[1..] == NatToString(-x);
      s
    else
      NatToStringRoundTrip(x);
      NatToString(x)
  }

  /**
   * The `blanks` lambda: pads a printed digit by its magnitude, so that the
   * following name starts in the same column for every value from 0 to
   * 999, and one column further for every value from -999 to -1, whose
   * sign takes a column of its own.
   */
  function Blanks(v: int): (b: string)
    ensures forall i :: 0 <= i < |b| ==> b[i] == ' '
    ensures 0 <= v < 1000 ==> |IntToString(v)| + |b| == 3
    ensures -1000 < v < 0 ==> |IntToString(v)| + |b| == 4
  {
    var magnitude := if v < 0 then -v else v;
    if magnitude < 10 then "  " else if magnitude < 100 then " " else ""
  }

  const BANNER_RULE: string := "+-----------------------------+"

  /** Printed after the exponent of a rolled-over value, starting on a new line. */
  const OVERFLOW_BANNER: string := "\n" + BANNER_RULE + "\n| Over- or Underflow detected |\n" + BANNER_RULE

  function Field(name: string, v: int): string {
    name + ": " + "[" + IntToString(v) + "]" + " " + Blanks(v)
  }

  /** The digits `operator<<` prints, hours first. */
  function Digits(d: Duration): (vs: seq<int>)
    ensures |vs| == 6
  {
    [Get(d, Hours), Get(d, Minutes), Get(d, Seconds), Get(d, Milliseconds), Get(d, Microseconds),
     Get(d, Nanoseconds)]
  }

  /** The names of the padded fields; the nanoseconds close the braces unpadded. */
  const FIELD_NAMES: seq<string> := ["h", "m", "s", "ms", "us"]

  function Fields(names: seq<string>, vs: seq<int>): string
    requires |names| == |vs|
  {
    if |vs| == 0 then "" else Field(names[0], vs[0]) + Fields(names[1..], vs[1..])
  }

  /** Everything `operator<<` prints before the exponent. */
  function Body(d: Duration): string {
    "{" + Fields(FIELD_NAMES, Digits(d)[..5]) + Closing(Digits(d)[5])
  }

  function Closing(ns: int): string {
    "ns: " + "[" + IntToString(ns) + "]" + "}"
  }

  /** What follows the '^': the exponent, then the banner of a rolled-over value. */
  function Suffix(exponent: int, rolledOver: bool): string {
    IntToString(exponent) + (if rolledOver then OVERFLOW_BANNER else "")
  }

  /** operator<< / toString(). */
  function ToString(d: Duration): string {
    Body(d) + "^" + Suffix(d.exponent, d.rolledOver)
  }

  // ---------------------------------------------------------------------
  // Reading the rendering back
  // ---------------------------------------------------------------------

  /** Position of the first `c` in `s`, or |s| when there is none. */
  function Find(s: string, c: char): (i: nat)
    ensures i <= |s|
    ensures i < |s| ==> s[i] == c
    ensures forall j :: 0 <= j < i ==> s[j] != c
  {
    if |s| == 0 then 0 else if s[0] == c then 0 else 1 + Find(s[1..], c)
  }

  lemma FindIs(s: string, c: char, k: nat)
    requires k <= |s| && (k < |s| ==> s[k] == c)
    requires forall j :: 0 <= j < k ==> s[j] != c
    ensures Find(s, c) == k
  {
  }

  /** The texts between each '[' and the following ']', left to right. */
  function Bracketed(s: string): seq<string>
    decreases |s|, 1
  {
    var i := Find(s, '[');
    if i == |s| then [] else UpToClose(s[i + 1..])
  }

  function UpToClose(rest: string): seq<string>
    decreases |rest|, 0
  {
    var j := Find(rest, ']');
    if j == |rest| then [] else [rest[..j]] + Bracketed(rest[j + 1..])
  }

  predicate Lacks(s: string, c: char) {
    forall i :: 0 <= i < |s| ==> s[i] != c
  }

  lemma BracketedSkip(p: string, t: string)
    requires Lacks(p, '[')
    ensures Bracketed(p + t) == Bracketed(t)
  {
    var k := Find(t, '[');
    FindIs(p + t, '[', |p| + k);
    if k < |t| {
      assert (p + t)[|p| + k + 1..] == t[k + 1..];
    }
  }

  lemma BracketedStep(p: string, x: string, q: string)
    requires Lacks(p, '[') && Lacks(x, ']')
    ensures Bracketed(p + "[" + x + "]" + q) == [x] + Bracketed(q)
  {
    var s := p + "[" + x + "]" + q;
    FindIs(s, '[', |p|);
    var rest := s[|p| + 1..];
    assert rest == x + "]" + q;
    FindIs(rest, ']', |x|);
    assert rest[..|x|] == x;
    assert rest[|x| + 1..] == q;
  }

  /** Characters `IntToString` and `Blanks` never produce. */
  predicate Plain(s: string) {
    Lacks(s, '[') && Lacks(s, ']') && Lacks(s, '^') && Lacks(s, '\n')
  }

  lemma PlainNumber(v: int)
    ensures Plain(IntToString(v)) && Plain(Blanks(v))
  {
  }

  lemma FieldStep(name: string, v: int, t: string)
    requires Plain(name)
    ensures Bracketed(Field(name, v) + t) == [IntToString(v)] + Bracketed(t)
  {
    var x := IntToString(v);
    var pad := " " + Blanks(v);
    var q := pad + t;
    var p := name + ": ";
    FieldParts(name, v);
    assert Field(name, v) + t == p + "[" + x + "]" + q;
    BracketedStep(p, x, q);
    BracketedSkip(pad, t);
  }

  /** The name with its colon, the number and the padding hold no brackets. */
  lemma FieldParts(name: string, v: int)
    requires Plain(name)
    ensures Lacks(name + ": ", '[') && Lacks(IntToString(v), ']') && Lacks(" " + Blanks(v), '[')
  {
    PlainNumber(v);
    var p := name + ": ";
    forall i | 0 <= i < |p| ensures p[i] != '[' {
      if i >= |name| { assert p[i] == ": "[i - |name|]; }
    }
    var pad := " " + Blanks(v);
    forall i | 0 <= i < |pad| ensures pad[i] != '[' {
      if i >= 1 { assert pad[i] == Blanks(v)[i - 1]; }
    }
  }

  lemma LacksConcat(a: string, b: string, c: char)
    requires Lacks(a, c) && Lacks(b, c)
    ensures Lacks(a + b, c)
  {
    forall i | 0 <= i < |a + b| ensures (a + b)[i] != c {
      if i >= |a| { assert (a + b)[i] == b[i - |a|]; }
    }
  }

  lemma FieldPlain(name: string, v: int)
    requires Lacks(name, '^')
    ensures Lacks(Field(name, v), '^')
  {
    PlainNumber(v);
    var x := IntToString(v);
    LacksConcat(name, ": ", '^');
    LacksConcat(name + ": ", "[", '^');
    LacksConcat(name + ": " + "[", x, '^');
    LacksConcat(name + ": " + "[" + x, "]", '^');
    LacksConcat(name + ": " + "[" + x + "]", " ", '^');
    LacksConcat(name + ": " + "[" + x + "]" + " ", Blanks(v), '^');
  }

  /** The printed digits in order. */
  function Printed(vs: seq<int>): (texts: seq<string>)
    ensures |texts| == |vs|
  {
    if |vs| == 0 then [] else [IntToString(vs[0])] + Printed(vs[1..])
  }

  lemma {:induction false} FieldsDigits(names: seq<string>, vs: seq<int>, t: string)
    requires |names| == |vs|
    requires forall i :: 0 <= i < |names| ==> Plain(names[i])
    ensures Bracketed(Fields(names, vs) + t) == Printed(vs) + Bracketed(t)
  {
    if |vs| > 0 {
      var x := IntToString(vs[0]);
      var rest := Fields(names[1..], vs[1..]) + t;
      assert forall i :: 0 <= i < |names[1..]| ==> Plain(names[1..][i]) by {
        forall i | 0 <= i < |names[1..]| ensures Plain(names[1..][i]) {
          assert names[1..][i] == names[i + 1];
        }
      }
      FieldsDigits(names[1..], vs[1..], t);
      FieldStep(names[0], vs[0], rest);
      FieldsCons(names, vs, t);
      Associates([x], Printed(vs[1..]), Bracketed(t));
    } else {
      assert Fields(names, vs) + t == t;
    }
  }

  lemma FieldsCons(names: seq<string>, vs: seq<int>, t: string)
    requires |names| == |vs| > 0
    ensures Fields(names, vs) + t == Field(names[0], vs[0]) + (Fields(names[1..], vs[1..]) + t)
  {
  }

  lemma Associates<T>(a: seq<T>, b: seq<T>, c: seq<T>)
    ensures a + (b + c) == (a + b) + c
  {
  }

  lemma {:induction false} FieldsPlain(names: seq<string>, vs: seq<int>)
    requires |names| == |vs|
    requires forall i :: 0 <= i < |names| ==> Plain(names[i])
    ensures Lacks(Fields(names, vs), '^')
  {
    if |vs| > 0 {
      FieldsPlain(names[1..], vs[1..]);
      FieldPlain(names[0], vs[0]);
      LacksConcat(Field(names[0], vs[0]), Fields(names[1..], vs[1..]), '^');
    }
  }

  lemma {:induction false} PrintedSnoc(vs: seq<int>, v: int)
    ensures Printed(vs + [v]) == Printed(vs) + [IntToString(v)]
  {
    if |vs| > 0 {
      PrintedSnoc(vs[1..], v);
      assert (vs + [v])[1..] == vs[1..] + [v];
    }
  }

  lemma ClosingDigits(v: int)
    ensures Bracketed(Closing(v)) == [IntToString(v)]
    ensures Lacks(Closing(v), '^')
  {
    var x := IntToString(v);
    PlainNumber(v);
    BracketedStep("ns: ", x, "}");
    assert Bracketed("}") == [];
    ClosingPlain(x);
  }

  lemma ClosingPlain(x: string)
    requires Lacks(x, '^')
    ensures Lacks("ns: " + "[" + x + "]" + "}", '^')
  {
    var s := "ns: " + "[" + x + "]" + "}";
    forall i | 0 <= i < |s| ensures s[i] != '^' {
      if 5 <= i < 5 + |x| {
        assert s[i] == x[i - 5];
      }
    }
  }

  lemma BodyDigits(d: Duration)
    ensures Bracketed(Body(d)) == Printed(Digits(d))
    ensures Lacks(Body(d), '^')
  {
    var vs := Digits(d);
    BodyBracketed(vs[..5], vs[5]);
    BodyPlain(vs[..5], vs[5]);
    assert vs == vs[..5] + [vs[5]];
  }

  lemma FieldNamesPlain()
    ensures forall i :: 0 <= i < |FIELD_NAMES| ==> Plain(FIELD_NAMES[i])
  {
    forall i | 0 <= i < |FIELD_NAMES| ensures Plain(FIELD_NAMES[i]) {
      var name := FIELD_NAMES[i];
      assert |name| <= 2;
      assert forall k :: 0 <= k < |name| ==> name[k] in "hmsu";
    }
  }

  /** The bracketed texts of a body are its printed digits. */
  lemma BodyBracketed(front: seq<int>, ns: int)
    requires |front| == 5
    ensures Bracketed("{" + Fields(FIELD_NAMES, front) + Closing(ns)) == Printed(front + [ns])
  {
    var fields := Fields(FIELD_NAMES, front);
    ClosingDigits(ns);
    FieldNamesPlain();
    FieldsDigits(FIELD_NAMES, front, Closing(ns));
    BracketedSkip("{", fields + Closing(ns));
    Associates("{", fields, Closing(ns));
    PrintedSnoc(front, ns);
  }

  /** A body holds no '^'. */
  lemma BodyPlain(front: seq<int>, ns: int)
    requires |front| == 5
    ensures Lacks("{" + Fields(FIELD_NAMES, front) + Closing(ns), '^')
  {
    var fields := Fields(FIELD_NAMES, front);
    ClosingDigits(ns);
    FieldNamesPlain();
    FieldsPlain(FIELD_NAMES, front);
    LacksConcat("{", fields, '^');
    LacksConcat("{" + fields, Closing(ns), '^');
  }

  /** What a rendering says: the printed digits (h first), the exponent and the banner. */
  datatype Rendered = Rendered(digits: seq<int>, exponent: int, rolledOver: bool)

  function ParseAll(texts: seq<string>): Option<seq<int>> {
    if |texts| == 0 then Some([])
    else
      match (ParseInt(texts[0]), ParseAll(texts[1..]))
      case (Some(v), Some(vs)) => Some([v] + vs)
      case _ => None
  }

  lemma {:induction false} ParsePrinted(vs: seq<int>)
    ensures ParseAll(Printed(vs)) == Some(vs)
  {
    if |vs| > 0 {
      ParsePrinted(vs[1..]);
      assert Printed(vs)[1..] == Printed(vs[1..]);
      assert vs == [vs[0]] + vs[1..];
    }
  }

  /** Reads a `toString()` rendering back into digits, exponent and roll-over flag. */
  function ParseRendering(s: string): Option<Rendered> {
    var k := Find(s, '^');
    if k == |s| then None
    else
      var tail := s[k + 1..];
      var j := Find(tail, '\n');
      var rolled := j < |tail|;
      var exponentText := tail[..j];
      match (ParseAll(Bracketed(s[..k])), ParseInt(exponentText))
      case (Some(digits), Some(e)) => Some(Rendered(digits, e, rolled))
      case _ => None
  }

  lemma SuffixSplits(exponent: int, rolledOver: bool)
    ensures var tail := Suffix(exponent, rolledOver);
      var j := Find(tail, '\n');
      j == |IntToString(exponent)| && tail[..j] == IntToString(exponent) && (j < |tail| <==> rolledOver)
  {
    var e := IntToString(exponent);
    var tail := Suffix(exponent, rolledOver);
    PlainNumber(exponent);
    assert tail[..|e|] == e;
    if rolledOver {
      assert OVERFLOW_BANNER[0] == '\n';
      assert tail[|e|] == OVERFLOW_BANNER[0];
    } else {
      assert tail == e;
    }
    FindIs(tail, '\n', |e|);
  }

  lemma SplitAt(head: string, c: char, tail: string)
    requires Lacks(head, c)
    ensures var s := head + [c] + tail;
      Find(s, c) == |head| && s[..|head|] == head && s[|head| + 1..] == tail
  {
    var s := head + [c] + tail;
    assert s[..|head|] == head;
    assert s[|head| + 1..] == tail;
    FindIs(s, c, |head|);
  }

  /** The rendering hides nothing: the digits, exponent and flag can be read back. */
  lemma ToStringRoundTrip(d: Duration)
    ensures ParseRendering(ToString(d)) == Some(Rendered(Digits(d), d.exponent, d.rolledOver))
  {
    BodyDigits(d);
    ParsePrinted(Digits(d));
    SuffixSplits(d.exponent, d.rolledOver);
    SplitAt(Body(d), '^', Suffix(d.exponent, d.rolledOver));
  }

  /** Two sanitised values print alike only when they are the same value. */
  lemma ToStringInjective(a: Duration, b: Duration)
    requires IsNormal(a) && IsNormal(b) && ToString(a) == ToString(b)
    ensures a == b
  {
    ToStringRoundTrip(a);
    ToStringRoundTrip(b);
    ComponentsRecompose(a);
    ComponentsRecompose(b);
    NormalFormUnique(a, b);
  }

  // ---------------------------------------------------------------------
  // getMayorTimeString()
  // ---------------------------------------------------------------------

  function UnitSuffix(u: Unit): string {
    match u
    case Nanoseconds => "ns"
    case Microseconds => "us"
    case Milliseconds => "ms"
    case Seconds => "s"
    case Minutes => "m"
    case Hours => "h"
  }

  datatype Quantity = Quantity(count: int, unit: Unit)

  /** Reads a count followed by one of the unit suffixes. */
  function ParseQuantity(s: string): Option<Quantity> {
    if 2 <= |s| && s[|s| - 1] == 's' && s[|s| - 2] in "mun" then
      var u := if s[|s| - 2] == 'm' then Milliseconds else if s[|s| - 2] == 'u' then Microseconds else Nanoseconds;
      match ParseInt(s[..|s| - 2])
      case Some(c) => Some(Quantity(c, u))
      case None => None
    else if 1 <= |s| && s[|s| - 1] in "hms" then
      var u := if s[|s| - 1] == 'h' then Hours else if s[|s| - 1] == 'm' then Minutes else Seconds;
      match ParseInt(s[..|s| - 1])
      case Some(c) => Some(Quantity(c, u))
      case None => None
    else None
  }

  /**
   * The fallback for a value without a positive digit prints the
   * sub-nanosecond counter with `std::to_string(double)`, which is 0.0 here.
   */
  const NO_MAYOR_TIME: string := "0.000000ns"

  /** A count printed with its unit suffix reads back as the same quantity. */
  lemma QuantityRoundTrip(c: int, u: Unit)
    ensures ParseQuantity(IntToString(c) + UnitSuffix(u)) == Some(Quantity(c, u))
  {
    SuffixedParses(IntToString(c), c, u);
  }

  lemma SuffixedParses(t: string, c: int, u: Unit)
    requires ParseInt(t) == Some(c) && 1 <= |t|
    requires forall i :: 0 <= i < |t| ==> IsDigit(t[i]) || t[i] == '-'
    ensures ParseQuantity(t + UnitSuffix(u)) == Some(Quantity(c, u))
  {
    assert IsDigit(t[|t| - 1]) || t[|t| - 1] == '-';
    var x := UnitSuffix(u);
    var s := t + x;
    SplitsBefore(t, x);
    if |x| == 2 {
      assert s[..|s| - 2] == t;
    } else {
      assert s[|s| - 2] !in "mun";
      assert s[..|s| - 1] == t;
    }
  }

  /** A number followed by a unit suffix splits back into the two. */
  lemma SplitsBefore(t: string, x: string)
    requires 1 <= |x| <= 2
    ensures (t + x)[..|t|] == t
    ensures (t + x)[|t + x| - 1] == x[|x| - 1]
    ensures |x| == 2 ==> (t + x)[|t + x| - 2] == x[0] && (t + x)[..|t + x| - 2] == t
    ensures |x| == 1 && |t| > 0 ==> (t + x)[|t + x| - 2] == t[|t| - 1] && (t + x)[..|t + x| - 1] == t
  {
  }

  /**
   * getMayorTimeString(): the largest positive digit and its unit; it reads
   * back as exactly the quantity getMayorTime() returns.
   */
  function MayorTimeString(d: Duration): (s: string)
    ensures MayorUnit(d).None? ==> s == NO_MAYOR_TIME
    ensures MayorUnit(d).Some? ==>
      ParseQuantity(s).Some? && ParseQuantity(s).value.unit == MayorUnit(d).value
      && ParseQuantity(s).value.count > 0
      && ParseQuantity(s).value.count * NanosPer(MayorUnit(d).value) == Total(MayorTime(d))
  {
    match MayorUnit(d)
    case None => NO_MAYOR_TIME
    case Some(u) =>
      QuantityRoundTrip(Get(d, u), u);
      IntToString(Get(d, u)) + UnitSuffix(u)
  }
}

=== FILE: histogram.dfy ===
/**
 * The histogram of `CollectingTimer::getResult`: `Histogram::initBuckets`
 * tiles [min, max] with buckets of one size, every kept measurement is
 * counted in the first bucket whose closed range holds it, and the largest
 * count is recorded. Times are integer nanoseconds; the bucket size may be
 * fractional.
 */
module Histogram {
  import opened Common

  /** A closed range [begin, end] and how many measurements were counted in it. */
  datatype Bucket = Bucket(begin: int, end: int, num: nat)

  type Pos = x: int | x > 0 witness 1

  /**
   * A bucket size of num/den nanoseconds. Scott's rule yields a `double`,
   * which is such a fraction; `PreciseTime` keeps its whole nanoseconds in
   * `nano_seconds` and the rest in `sub_nano_seconds`.
   */
  datatype Size = Size(num: int, den: Pos)

  /** A default-constructed `bucket_size`: zero. */
  const ZERO_SIZE: Size := Size(0, 1)

  /** `SMALLEST_BUCKET_SIZE`: one nanosecond. */
  const SMALLEST_BUCKET_SIZE: Size := Size(1, 1)

  /**
   * The size initBuckets() uses: the requested one, but at least one
   * nanosecond. The comparison `bucket_size < SMALLEST_BUCKET_SIZE` sees
   * whole nanoseconds only, which are below one exactly when the size is.
   */
  function EffectiveSize(requested: Size): (s: Size)
    ensures s.num >= s.den
    ensures requested.num >= requested.den ==> s == requested
    ensures requested.num < requested.den ==> s == SMALLEST_BUCKET_SIZE
  {
    if requested.num < requested.den then SMALLEST_BUCKET_SIZE else requested
  }

  /**
   * The k-th bucket boundary, in whole nanoseconds past the minimum: k sizes
   * added one by one, the sub-nanoseconds carried into the nanoseconds as
   * they complete one (sanitizeSubNs).
   */
  function Edge(k: nat, s: Size): (e: int)
    requires s.num > 0
    ensures 0 <= e && e * s.den <= k * s.num < e * s.den + s.den
  {
    MulMonotone(0, k, s.num);
    var e := TDiv(k * s.num, s.den);
    if e < 0 then MulMonotone(e, -1, s.den); e else e
  }

  /** A boundary is pinned down by the whole nanoseconds and remainder it splits into. */
  lemma EdgeExact(k: nat, s: Size, e: int, rest: int)
    requires s.num > 0 && 0 <= rest < s.den && e * s.den + rest == k * s.num
    ensures Edge(k, s) == e
  {
    var f := Edge(k, s);
    if f < e {
      MulMonotone(f + 1, e, s.den);
    } else if e < f {
      MulMonotone(e + 1, f, s.den);
    }
  }

  lemma EdgeZero(s: Size)
    requires s.num > 0
    ensures Edge(0, s) == 0
  {
    EdgeExact(0, s, 0, 0);
  }

  /** Boundaries never move backwards. */
  lemma EdgeMonotone(j: nat, k: nat, s: Size)
    requires s.num > 0 && j <= k
    ensures Edge(j, s) <= Edge(k, s)
  {
    MulMonotone(j, k, s.num);
    EdgeReaches(k, s, Edge(j, s));
  }

  /** k sizes reach x whole nanoseconds exactly when k times the size is at least x. */
  lemma EdgeReaches(k: nat, s: Size, x: int)
    requires s.num > 0
    ensures Edge(k, s) >= x <==> k * s.num >= x * s.den
  {
    var e := Edge(k, s);
    if e >= x {
      MulMonotone(x, e, s.den);
    } else {
      MulMonotone(e + 1, x, s.den);
      assert (e + 1) * s.den == e * s.den + s.den;
    }
  }

  /** ceil(x / d) for a positive range x. */
  function CeilDiv(x: int, d: int): (q: int)
    requires x > 0 && d > 0
    ensures (q - 1) * d < x <= q * d
    ensures q >= 1
  {
    var q := TDiv(x + d - 1, d);
    assert (q - 1) * d == q * d - d;
    if q < 1 then
      MulMonotone(q, 0, d);
      q
    else q
  }

  /** Bucket i spans the i-th to the (i+1)-th boundary past lo and is still empty. */
  predicate Tiles(buckets: seq<Bucket>, lo: int, s: Size) {
    s.num > 0 && forall i :: 0 <= i < |buckets| ==> buckets[i] == Bucket(lo + Edge(i, s), lo + Edge(i + 1, s), 0)
  }

  /** The number of buckets it takes to span [lo, hi]: ceil((hi - lo) / size). */
  function BucketCount(lo: int, hi: int, s: Size): (n: nat)
    requires s.num > 0
    ensures lo < hi ==> n >= 1 && lo + Edge(n - 1, s) < hi <= lo + Edge(n, s)
    ensures hi <= lo ==> n == 0
  {
    if lo < hi then
      MulMonotone(1, hi - lo, s.den);
      var n := CeilDiv((hi - lo) * s.den, s.num);
      assert (n - 1) * s.num < (hi - lo) * s.den <= n * s.num;
      EdgeReaches(n, s, hi - lo);
      EdgeReaches(n - 1, s, hi - lo);
      n
    else 0
  }

  /** The buckets initBuckets() produces, by definition. */
  function Tiling(lo: int, hi: int, s: Size): (buckets: seq<Bucket>)
    requires s.num > 0
    ensures Tiles(buckets, lo, s)
    ensures |buckets| == BucketCount(lo, hi, s)
  {
    var n := BucketCount(lo, hi, s);
    seq(n, i requires 0 <= i < n => Bucket(lo + Edge(i, s), lo + Edge(i + 1, s), 0))
  }

  /**
   * initBuckets(): starting at `lo`, appends buckets of the effective size
   * until one reaches `hi`. The iterator is a `PreciseTime`: its whole
   * nanoseconds and, in units of 1/den ns, its sub-nanoseconds, which carry
   * into the nanoseconds whenever they add up to one. `<` looks at the whole
   * nanoseconds only. The range assertion `max > min` is a debug check only;
   * for `hi <= lo` the loop appends nothing.
   */
  method InitBuckets(requested: Size, lo: int, hi: int) returns (size: Size, buckets: seq<Bucket>)
    ensures size == EffectiveSize(requested)
    ensures buckets == Tiling(lo, hi, size)
    ensures hi <= lo ==> |buckets| == 0
    ensures lo < hi ==> buckets[0].begin == lo && buckets[|buckets| - 1].begin < hi <= buckets[|buckets| - 1].end
  {
    size := EffectiveSize(requested);
    buckets := [];
    var whole, sub := lo, 0;
    EdgeZero(size);
    while whole < hi
      invariant Building(buckets, lo, hi, whole, sub, size)
      decreases hi - whole
    {
      var next := Advance(whole, sub, size);
      BuildStep(buckets, lo, hi, whole, sub, size);
      buckets := buckets + [Bucket(whole, next.0, 0)];
      whole, sub := next.0, next.1;
    }
    BuildDone(buckets, lo, hi, whole, sub, size);
  }

  /**
   * The loop's state: the buckets so far are the first ones of the tiling,
   * the last starting below `hi`, and the iterator sits on the next boundary.
   */
  predicate Building(buckets: seq<Bucket>, lo: int, hi: int, whole: int, sub: int, s: Size) {
    At(|buckets|, lo, whole, sub, s) && Tiles(buckets, lo, s)
    && (|buckets| > 0 ==> lo + Edge(|buckets| - 1, s) < hi)
    && (hi <= lo ==> |buckets| == 0)
  }

  lemma BuildStep(buckets: seq<Bucket>, lo: int, hi: int, whole: int, sub: int, s: Size)
    requires Building(buckets, lo, hi, whole, sub, s) && whole < hi && s.num >= s.den
    ensures var next := Advance(whole, sub, s);
      Building(buckets + [Bucket(whole, next.0, 0)], lo, hi, next.0, next.1, s) && next.0 > whole
  {
    NextEdge(|buckets|, lo, whole, sub, s);
    EdgeZero(s);
    EdgeMonotone(0, |buckets|, s);
  }

  lemma BuildDone(buckets: seq<Bucket>, lo: int, hi: int, whole: int, sub: int, s: Size)
    requires Building(buckets, lo, hi, whole, sub, s) && whole >= hi
    ensures buckets == Tiling(lo, hi, s)
    ensures lo < hi ==> buckets[0].begin == lo && buckets[|buckets| - 1].begin < hi <= buckets[|buckets| - 1].end
  {
    TilingReached(buckets, lo, hi, s);
    EdgeZero(s);
  }

  /**
   * `iterator + bucket_size`: the whole nanoseconds and the sub-nanoseconds
   * (in units of 1/den ns) of the sum, the sub-nanoseconds carried into the
   * nanoseconds once they add up to one, as sanitizeSubNs does.
   */
  function Advance(whole: int, sub: int, s: Size): (next: (int, int))
    requires 0 <= sub < s.den && s.num >= 0
    ensures 0 <= next.1 < s.den
    ensures next.0 * s.den + next.1 == whole * s.den + sub + s.num
    ensures s.num >= s.den ==> next.0 > whole
  {
    var q, r := s.num / s.den, s.num % s.den;
    assert q * s.den + r == s.num;
    assert s.num >= s.den ==> q >= 1 by {
      if q < 1 { MulMonotone(q, 0, s.den); }
    }
    if sub + r >= s.den then
      assert (whole + q + 1) * s.den == whole * s.den + q * s.den + s.den;
      (whole + q + 1, sub + r - s.den)
    else
      assert (whole + q) * s.den == whole * s.den + q * s.den;
      (whole + q, sub + r)
  }

  /**
   * The iterator after k sizes: `whole` nanoseconds and `sub` 1/den-ths of
   * one, which is exactly k sizes past lo, and so sits on boundary k.
   */
  predicate At(k: nat, lo: int, whole: int, sub: int, s: Size) {
    s.num > 0 && 0 <= sub < s.den && whole * s.den + sub == lo * s.den + k * s.num && whole == lo + Edge(k, s)
  }

  /** After k sizes, one more advance lands on boundary k + 1. */
  lemma NextEdge(k: nat, lo: int, whole: int, sub: int, s: Size)
    requires At(k, lo, whole, sub, s) && s.num >= s.den
    ensures var next := Advance(whole, sub, s);
      At(k + 1, lo, next.0, next.1, s) && next.0 > whole
  {
    var next := Advance(whole, sub, s);
    assert (k + 1) * s.num == k * s.num + s.num;
    assert (next.0 - lo) * s.den == next.0 * s.den - lo * s.den;
    EdgeExact(k + 1, s, next.0 - lo, next.1);
  }

  /** The bucket count is the ceiling of the range over the size, as the `reserve` call computes it. */
  lemma CountIsCeiling(lo: int, hi: int, s: Size)
    requires s.num > 0 && lo < hi
    ensures (hi - lo) * s.den > 0 && BucketCount(lo, hi, s) == CeilDiv((hi - lo) * s.den, s.num)
  {
    MulMonotone(1, hi - lo, s.den);
    var n := BucketCount(lo, hi, s);
    EdgeReaches(n, s, hi - lo);
    EdgeReaches(n - 1, s, hi - lo);
    CeilDivUnique((hi - lo) * s.den, s.num, n);
  }

  /**
   * A fractional size: 2.5 ns over [0, 10] gives four buckets of widths 2,
   * 3, 2 and 3, the half nanoseconds completing one every second step.
   */
  lemma FractionalSizeTiling()
    ensures Tiling(0, 10, Size(5, 2)) == [Bucket(0, 2, 0), Bucket(2, 5, 0), Bucket(5, 7, 0), Bucket(7, 10, 0)]
  {
    var s := Size(5, 2);
    CountIsCeiling(0, 10, s);
    CeilDivUnique(20, 5, 4);
    EdgeZero(s);
    EdgeExact(1, s, 2, 1);
    EdgeExact(2, s, 5, 0);
    EdgeExact(3, s, 7, 1);
    EdgeExact(4, s, 10, 0);
  }

  /** Once the cursor passes `hi`, the buckets appended so far are exactly the tiling. */
  lemma TilingReached(buckets: seq<Bucket>, lo: int, hi: int, s: Size)
    requires s.num > 0 && Tiles(buckets, lo, s) && lo + Edge(|buckets|, s) >= hi
    requires |buckets| > 0 ==> lo + Edge(|buckets| - 1, s) < hi
    requires hi <= lo ==> |buckets| == 0
    ensures buckets == Tiling(lo, hi, s)
  {
    var n := |buckets|;
    if lo < hi {
      EdgeZero(s);
      assert n > 0;
      var m := BucketCount(lo, hi, s);
      if m < n {
        EdgeMonotone(m, n - 1, s);
      } else if n < m {
        EdgeMonotone(n, m - 1, s);
      }
    }
    TilesUnique(buckets, Tiling(lo, hi, s), lo, s);
  }

  lemma TilesUnique(a: seq<Bucket>, b: seq<Bucket>, lo: int, s: Size)
    requires Tiles(a, lo, s) && Tiles(b, lo, s) && |a| == |b|
    ensures a == b
  {
    forall i | 0 <= i < |a|
      ensures a[i] == b[i]
    {
      assert a[i] == Bucket(lo + Edge(i, s), lo + Edge(i + 1, s), 0);
    }
  }

  lemma CeilDivUnique(x: int, d: int, q: int)
    requires x > 0 && d > 0 && (q - 1) * d < x <= q * d
    ensures CeilDiv(x, d) == q
  {
    var c := CeilDiv(x, d);
    if c < q {
      MulMonotone(c, q - 1, d);
    } else if q < c {
      MulMonotone(q, c - 1, d);
    }
  }

  // ---------------------------------------------------------------------
  // Finding the bucket of a measurement
  // ---------------------------------------------------------------------

  predicate Holds(b: Bucket, m: int) {
    b.begin <= m <= b.end
  }

  predicate Covered(buckets: seq<Bucket>, m: int) {
    exists k :: 0 <= k < |buckets| && Holds(buckets[k], m)
  }

  /** Every measurement of `xs` lies in one of `buckets`. */
  predicate Covers(buckets: seq<Bucket>, xs: seq<int>) {
    forall i :: 0 <= i < |xs| ==> Covered(buckets, xs[i])
  }

  /** The bucket the inner loop of setHistogram stops at: the first that holds `m`. */
  function FirstBucket(buckets: seq<Bucket>, m: int): (r: Option<nat>)
    ensures r.Some? ==> r.value < |buckets| && Holds(buckets[r.value], m)
    ensures r.Some? ==> forall j :: 0 <= j < r.value ==> !Holds(buckets[j], m)
    ensures r.None? ==> forall j :: 0 <= j < |buckets| ==> !Holds(buckets[j], m)
  {
    if |buckets| == 0 then None
    else if Holds(buckets[0], m) then Some(0)
    else
      match FirstBucket(buckets[1..], m)
      case None => None
      case Some(j) => Some(j + 1)
  }

  lemma {:induction false} FirstBucketIs(buckets: seq<Bucket>, m: int, k: nat)
    requires k < |buckets| && Holds(buckets[k], m)
    requires forall j :: 0 <= j < k ==> !Holds(buckets[j], m)
    ensures FirstBucket(buckets, m) == Some(k)
  {
    if k > 0 {
      FirstBucketIs(buckets[1..], m, k - 1);
    }
  }

  /**
   * Where a value of the tiled range lands: in the bucket whose end is the
   * first boundary at or past it, so a value on a shared boundary goes to
   * the lower of the two buckets.
   */
  lemma TiledBucket(buckets: seq<Bucket>, lo: int, s: Size, m: int)
    requires Tiles(buckets, lo, s) && |buckets| > 0
    requires lo <= m <= lo + Edge(|buckets|, s)
    ensures FirstBucket(buckets, m).Some?
    ensures var k := FirstBucket(buckets, m).value;
      m <= lo + Edge(k + 1, s) && (k == 0 || lo + Edge(k, s) < m)
  {
    var n := |buckets|;
    var k := 0;
    while m > lo + Edge(k + 1, s)
      invariant 0 <= k < n
      invariant k == 0 || lo + Edge(k, s) < m
      decreases n - k
    {
      k := k + 1;
    }
    EdgeZero(s);
    forall j | 0 <= j < k
      ensures !Holds(buckets[j], m)
    {
      EdgeMonotone(j + 1, k, s);
    }
    FirstBucketIs(buckets, m, k);
  }

  /** A tiling of [lo, hi] holds every value of [lo, hi]. */
  lemma InTiling(lo: int, hi: int, s: Size, m: int)
    requires s.num > 0 && lo <= m <= hi && lo < hi
    ensures FirstBucket(Tiling(lo, hi, s), m).Some?
  {
    TiledBucket(Tiling(lo, hi, s), lo, s, m);
  }

  // ---------------------------------------------------------------------
  // Counting the kept measurements
  // ---------------------------------------------------------------------

  /** How many kept measurements land first in bucket j. */
  function Hits(buckets: seq<Bucket>, xs: seq<int>, outlier: seq<bool>, j: nat): nat
    requires |outlier| == |xs|
  {
    if |xs| == 0 then 0
    else
      Hits(buckets, xs[..|xs| - 1], outlier[..|xs| - 1], j)
      + (if !outlier[|xs| - 1] && FirstBucket(buckets, xs[|xs| - 1]) == Some(j) then 1 else 0)
  }

  /** How many kept measurements land in some bucket. */
  function Placed(buckets: seq<Bucket>, xs: seq<int>, outlier: seq<bool>): nat
    requires |outlier| == |xs|
  {
    if |xs| == 0 then 0
    else
      Placed(buckets, xs[..|xs| - 1], outlier[..|xs| - 1])
      + (if !outlier[|xs| - 1] && FirstBucket(buckets, xs[|xs| - 1]).Some? then 1 else 0)
  }

  /** How many measurements are not outliers. */
  function Kept(outlier: seq<bool>): (n: nat)
    ensures n <= |outlier|
  {
    if |outlier| == 0 then 0 else Kept(outlier[..|outlier| - 1]) + (if outlier[|outlier| - 1] then 0 else 1)
  }

  function TotalNum(buckets: seq<Bucket>): nat {
    if |buckets| == 0 then 0 else TotalNum(buckets[..|buckets| - 1]) + buckets[|buckets| - 1].num
  }

  lemma {:induction false} TotalNumBump(buckets: seq<Bucket>, j: nat)
    requires j < |buckets|
    ensures TotalNum(buckets[j := buckets[j].(num := buckets[j].num + 1)]) == TotalNum(buckets) + 1
  {
    var bumped := buckets[j := buckets[j].(num := buckets[j].num + 1)];
    var n := |buckets|;
    if j < n - 1 {
      assert bumped[..n - 1] == buckets[..n - 1][j := buckets[j].(num := buckets[j].num + 1)];
      TotalNumBump(buckets[..n - 1], j);
    } else {
      assert bumped[..n - 1] == buckets[..n - 1];
    }
  }

  /** The buckets after counting, by definition. */
  function Counted(buckets: seq<Bucket>, xs: seq<int>, outlier: seq<bool>): (r: seq<Bucket>)
    requires |outlier| == |xs|
    ensures |r| == |buckets|
  {
    seq(|buckets|, j requires 0 <= j < |buckets| =>
      buckets[j].(num := buckets[j].num + Hits(buckets, xs, outlier, j)))
  }

  /** Counting one more measurement bumps at most one bucket, the first that holds it. */
  lemma CountedStep(buckets: seq<Bucket>, xs: seq<int>, outlier: seq<bool>)
    requires |outlier| == |xs| && |xs| > 0
    ensures var n := |xs|;
      var before := Counted(buckets, xs[..n - 1], outlier[..n - 1]);
      var fb := FirstBucket(buckets, xs[n - 1]);
      Counted(buckets, xs, outlier)
        == if !outlier[n - 1] && fb.Some? then before[fb.value := before[fb.value].(num := before[fb.value].num + 1)]
           else before
  {
  }

  lemma {:induction false} CountedTotal(buckets: seq<Bucket>, xs: seq<int>, outlier: seq<bool>)
    requires |outlier| == |xs|
    ensures TotalNum(Counted(buckets, xs, outlier)) == TotalNum(buckets) + Placed(buckets, xs, outlier)
  {
    var n := |xs|;
    if n == 0 {
      assert Counted(buckets, xs, outlier) == buckets;
    } else {
      var xs', outlier' := xs[..n - 1], outlier[..n - 1];
      var before := Counted(buckets, xs', outlier');
      CountedTotal(buckets, xs', outlier');
      CountedStep(buckets, xs, outlier);
      var fb := FirstBucket(buckets, xs[n - 1]);
      var after := Counted(buckets, xs, outlier);
      if !outlier[n - 1] && fb.Some? {
        var j := fb.value;
        assert Placed(buckets, xs, outlier) == Placed(buckets, xs', outlier') + 1;
        assert after == before[j := before[j].(num := before[j].num + 1)];
        TotalNumBump(before, j);
      } else {
        assert Placed(buckets, xs, outlier) == Placed(buckets, xs', outlier');
        assert after == before;
      }
    }
  }

  /**
   * The counting loop of setHistogram: each kept measurement increments the
   * first bucket that holds it; a measurement no bucket holds is dropped.
   */
  method CountMeasurements(buckets: seq<Bucket>, xs: seq<int>, outlier: seq<bool>) returns (filled: seq<Bucket>)
    requires |outlier| == |xs|
    ensures filled == Counted(buckets, xs, outlier)
    ensures TotalNum(filled) == TotalNum(buckets) + Placed(buckets, xs, outlier)
  {
    CountedTotal(buckets, xs, outlier);
    filled := buckets;
    assert Counted(buckets, xs[..0], outlier[..0]) == buckets;
    var i := 0;
    while i < |xs|
      invariant 0 <= i <= |xs|
      invariant filled == Counted(buckets, xs[..i], outlier[..i])
    {
      CountedStep(buckets, xs[..i + 1], outlier[..i + 1]);
      assert xs[..i + 1][..i] == xs[..i] && outlier[..i + 1][..i] == outlier[..i];
      if !outlier[i] {
        match FirstBucket(buckets, xs[i])
        case Some(j) =>
          filled := filled[j := filled[j].(num := filled[j].num + 1)];
        case None =>
      }
      i := i + 1;
    }
    assert xs[..i] == xs && outlier[..i] == outlier;
  }

  /** Every kept measurement some bucket holds is counted. */
  lemma {:induction false} PlacedWhenHeld(buckets: seq<Bucket>, xs: seq<int>, outlier: seq<bool>)
    requires |outlier| == |xs|
    requires forall i :: 0 <= i < |xs| && !outlier[i] ==> FirstBucket(buckets, xs[i]).Some?
    ensures Placed(buckets, xs, outlier) == Kept(outlier)
  {
    if |xs| > 0 {
      PlacedWhenHeld(buckets, xs[..|xs| - 1], outlier[..|xs| - 1]);
    }
  }

  /** Over a tiling of [lo, hi], every kept measurement in [lo, hi] is counted. */
  lemma AllPlaced(lo: int, hi: int, s: Size, xs: seq<int>, outlier: seq<bool>)
    requires s.num > 0 && lo < hi && |outlier| == |xs|
    requires forall i :: 0 <= i < |xs| && !outlier[i] ==> lo <= xs[i] <= hi
    ensures Placed(Tiling(lo, hi, s), xs, outlier) == Kept(outlier)
  {
    var buckets := Tiling(lo, hi, s);
    forall i | 0 <= i < |xs| && !outlier[i]
      ensures FirstBucket(buckets, xs[i]).Some?
    {
      InTiling(lo, hi, s, xs[i]);
    }
    PlacedWhenHeld(buckets, xs, outlier);
  }

  lemma {:induction false} TotalNumConcat(a: seq<Bucket>, b: seq<Bucket>)
    ensures TotalNum(a + b) == TotalNum(a) + TotalNum(b)
  {
    if |b| > 0 {
      assert (a + b)[..|a + b| - 1] == a + b[..|b| - 1];
      TotalNumConcat(a, b[..|b| - 1]);
    } else {
      assert a + b == a;
    }
  }

  /** max_num_in_bucket: the largest count, never below the value it starts from. */
  function MaxNum(start: nat, buckets: seq<Bucket>): (r: nat)
    ensures r >= start && forall j :: 0 <= j < |buckets| ==> buckets[j].num <= r
    ensures r == start || exists j :: 0 <= j < |buckets| && buckets[j].num == r
    decreases |buckets|
  {
    if |buckets| == 0 then start
    else
      var m := if buckets[0].num > start then buckets[0].num else start;
      var r := MaxNum(m, buckets[1..]);
      assert forall j :: 1 <= j < |buckets| ==> buckets[j] == buckets[1..][j - 1];
      r
  }

  /** Buckets in front win: a value some earlier bucket holds never reaches the later ones. */
  lemma FirstBucketInFront(front: seq<Bucket>, rest: seq<Bucket>, m: int, k: nat)
    requires k < |front| && Holds(front[k], m)
    ensures FirstBucket(front + rest, m).Some? && FirstBucket(front + rest, m).value <= k
  {
    assert (front + rest)[k] == front[k];
  }

  /** A bucket that is never the first to hold a kept value counts nothing. */
  lemma {:induction false} NoHits(buckets: seq<Bucket>, xs: seq<int>, outlier: seq<bool>, j: nat)
    requires |outlier| == |xs|
    requires forall i :: 0 <= i < |xs| && !outlier[i] ==> FirstBucket(buckets, xs[i]) != Some(j)
    ensures Hits(buckets, xs, outlier, j) == 0
  {
    if |xs| > 0 {
      NoHits(buckets, xs[..|xs| - 1], outlier[..|xs| - 1], j);
    }
  }

  /**
   * `buckets` are `front`, with counts never lower, followed by as many
   * buckets as `added` has, all empty.
   */
  predicate AppendedEmpty(buckets: seq<Bucket>, front: seq<Bucket>, added: seq<Bucket>) {
    |buckets| == |front| + |added|
    && (forall j :: 0 <= j < |front| ==> buckets[j].num >= front[j].num)
    && (forall j :: |front| <= j < |buckets| ==> buckets[j].num == 0)
  }

  /**
   * Counting into buckets appended behind others: when the front buckets
   * hold every kept value, the appended ones receive nothing and the front
   * ones keep their old counts plus the new.
   */
  lemma CountedBehind(front: seq<Bucket>, added: seq<Bucket>, xs: seq<int>, outlier: seq<bool>)
    requires |outlier| == |xs|
    requires forall i :: 0 <= i < |xs| && !outlier[i] ==> exists k :: 0 <= k < |front| && Holds(front[k], xs[i])
    requires forall j :: 0 <= j < |added| ==> added[j].num == 0
    ensures AppendedEmpty(Counted(front + added, xs, outlier), front, added)
  {
    var all := front + added;
    forall j | |front| <= j < |all|
      ensures Hits(all, xs, outlier, j) == 0
    {
      forall i | 0 <= i < |xs| && !outlier[i]
        ensures FirstBucket(all, xs[i]) != Some(j)
      {
        var k :| 0 <= k < |front| && Holds(front[k], xs[i]);
        FirstBucketInFront(front, added, xs[i], k);
      }
      NoHits(all, xs, outlier, j);
    }
  }

  /** After counting into a tiling of [lo, hi], some bucket still holds each value of [lo, hi]. */
  lemma TilingHoldsAll(lo: int, hi: int, s: Size, xs: seq<int>, outlier: seq<bool>)
    requires s.num > 0 && lo < hi && |outlier| == |xs|
    requires forall i :: 0 <= i < |xs| ==> lo <= xs[i] <= hi
    ensures Covers(Counted(Tiling(lo, hi, s), xs, outlier), xs)
  {
    var t := Tiling(lo, hi, s);
    var b := Counted(t, xs, outlier);
    forall i | 0 <= i < |xs|
      ensures Covered(b, xs[i])
    {
      InTiling(lo, hi, s, xs[i]);
      var k := FirstBucket(t, xs[i]).value;
      assert b[k].begin == t[k].begin && b[k].end == t[k].end;
      assert Holds(b[k], xs[i]);
    }
  }

  /**
   * A fresh tiling of [lo, hi] counts every kept measurement in [lo, hi]
   * exactly once and reaches from lo to at least hi.
   */
  lemma TiledCount(lo: int, hi: int, s: Size, xs: seq<int>, outlier: seq<bool>)
    requires s.num > 0 && lo < hi && |outlier| == |xs|
    requires forall i :: 0 <= i < |xs| && !outlier[i] ==> lo <= xs[i] <= hi
    ensures var b := Counted(Tiling(lo, hi, s), xs, outlier);
      TotalNum(b) == Kept(outlier) && |b| == BucketCount(lo, hi, s) && |b| > 0
      && b[0].begin == lo && hi <= b[|b| - 1].end
  {
    var t := Tiling(lo, hi, s);
    AllPlaced(lo, hi, s, xs, outlier);
    CountedTotal(t, xs, outlier);
    EmptyTotal(t);
    EdgeZero(s);
  }

  lemma {:induction false} EmptyTotal(buckets: seq<Bucket>)
    requires forall j :: 0 <= j < |buckets| ==> buckets[j].num == 0
    ensures TotalNum(buckets) == 0
  {
    if |buckets| > 0 {
      EmptyTotal(buckets[..|buckets| - 1]);
    }
  }
}

=== FILE: legacy.dfy ===
/**
 * The older `tool::PreciseTime` and `tool::Timer`: a duration of hours,
 * seconds and nanoseconds without exponent or roll-over flag, whose
 * `sanitize()` repairs mixed signs by folding one counter into the next
 * smaller one and sanitising again, and a timer that caches its result
 * until a new measurement arrives.
 *
 * The recursion of `sanitize()` is modelled with fuel: `SanitizeFuel`
 * returns `None` when the fuel runs out, and the lemmas below show that
 * two calls settle every input that settles at all, while the inputs
 * described by `Stuck` re-enter `sanitize()` with the same state forever.
 */
module Legacy {
  import opened Common
  import opened Duration
  import V3 = Duration

  datatype Time = Time(hours: int, seconds: int, nanos: int)

  /** The same counters read as a (version 3) duration of exponent 1. */
  function AsDuration(t: Time): Duration {
    Duration(t.hours, t.seconds, t.nanos, 1, false)
  }

  /** The nanoseconds a value stands for. */
  function Value(t: Time): int {
    Total(AsDuration(t))
  }

  predicate Sanitized(t: Time) {
    IsNormal(AsDuration(t))
  }

  // ---------------------------------------------------------------------
  // sanitize()
  // ---------------------------------------------------------------------

  /**
   * sanitizeNS then sanitizeS: the carries of an oversized counter into
   * the next unit, the same truncated quotients as in version 3 (the
   * legacy code takes them through `double`, exact below 2^53).
   */
  function Carry(t: Time): (c: Time)
    ensures InBounds(AsDuration(c)) && Value(c) == Value(t)
  {
    var d := SanitizeSeconds(SanitizeNanos(AsDuration(t)));
    Time(d.hours, d.seconds, d.nanos)
  }

  /**
   * The sign sanitizeSign settles on: that of the hours, else that of the
   * seconds; 0 when both are zero, where sanitizeSign returns at once.
   */
  function SignOf(t: Time): (sg: int)
    ensures sg == 0 <==> t.hours == 0 && t.seconds == 0
    ensures sg == 1 || sg == -1 || sg == 0
    ensures t.hours != 0 ==> sg * t.hours > 0
    ensures t.hours == 0 && t.seconds != 0 ==> sg * t.seconds > 0
  {
    if t.hours < 0 then -1
    else if t.hours > 0 then 1
    else if t.seconds < 0 then -1
    else if t.seconds > 0 then 1
    else 0
  }

  /** The `pos`/`neg` lambdas: zero is accepted by both signs. */
  predicate Accepts(sg: int, x: int) {
    if sg > 0 then x >= 0 else x <= 0
  }

  /**
   * sanitize(): carry, then repair the sign. A nanosecond counter of the
   * wrong sign absorbs the seconds and everything is sanitised again; else
   * a second counter of the wrong sign absorbs the hours and everything is
   * sanitised again.
   */
  function SanitizeFuel(t: Time, fuel: nat): (r: Option<Time>)
    ensures r.Some? ==> Sanitized(r.value) && Value(r.value) == Value(t)
    decreases fuel
  {
    if fuel == 0 then None
    else
      var c := Carry(t);
      var sg := SignOf(c);
      if sg == 0 then Some(c)
      else if !Accepts(sg, c.nanos) then SanitizeFuel(FoldSeconds(c), fuel - 1)
      else if !Accepts(sg, c.seconds) then SanitizeFuel(FoldHours(c), fuel - 1)
      else Some(c)
  }

  /** The seconds folded into the nanoseconds, the seconds zeroed. */
  function FoldSeconds(c: Time): (r: Time)
    ensures Value(r) == Value(c)
  {
    Time(c.hours, 0, c.seconds * NS_PER_S + c.nanos)
  }

  /** The hours folded into the seconds, the hours zeroed. */
  function FoldHours(c: Time): (r: Time)
    ensures Value(r) == Value(c)
  {
    Time(0, c.hours * S_PER_H + c.seconds, c.nanos)
  }

  /** How many nested calls of sanitize() every settling input needs. */
  const SANITIZE_DEPTH: nat := 2

  function Sanitize(t: Time): Option<Time> {
    SanitizeFuel(t, SANITIZE_DEPTH)
  }

  /**
   * The carried counters sanitizeSign cannot repair: the nanoseconds
   * oppose non-zero hours and the seconds do not side with the hours, so
   * folding the seconds into the nanoseconds and carrying them back out
   * restores the very same counters.
   */
  predicate Stuck(c: Time) {
    c.hours != 0 && c.nanos != 0 && (c.nanos > 0 <==> c.hours < 0)
    && (c.seconds == 0 || (c.seconds > 0 <==> c.nanos > 0))
  }

  /** Folding agreeing seconds into the nanoseconds is undone by the carry. */
  lemma FoldCarriesBack(c: Time)
    requires InBounds(AsDuration(c))
    requires c.seconds == 0 || c.nanos == 0 || (c.seconds > 0 <==> c.nanos > 0)
    ensures Carry(FoldSeconds(c)) == c
  {
    var x := c.seconds * NS_PER_S + c.nanos;
    if c.seconds != 0 {
      if x >= 0 {
        assert c.seconds > 0;
        TDivUnique(x, NS_PER_S, c.seconds);
      } else {
        assert c.seconds < 0;
        TDivUnique(x, NS_PER_S, c.seconds);
      }
    }
  }

  /** The stuck counters never leave sanitize(), whatever the fuel. */
  lemma {:induction false} StuckDiverges(t: Time, fuel: nat)
    requires Stuck(Carry(t))
    ensures SanitizeFuel(t, fuel) == None
    decreases fuel
  {
    if fuel > 0 {
      var c := Carry(t);
      FoldCarriesBack(c);
      StuckDiverges(FoldSeconds(c), fuel - 1);
    }
  }

  /** Counters that are coherent once carried come back from the first call. */
  lemma CoherentReturns(t: Time, fuel: nat)
    requires fuel >= 1 && Sanitized(Carry(t))
    ensures SanitizeFuel(t, fuel) == Some(Carry(t))
  {
  }

  /** A non-negative (or non-positive) count of nanoseconds below 3600 s carries into coherent counters. */
  lemma FoldedCoherent(c: Time)
    requires c.hours >= 0 && c.seconds * NS_PER_S + c.nanos >= 0
    requires -MAX_VALID_S <= c.seconds <= MAX_VALID_S && -MAX_VALID_NS <= c.nanos <= MAX_VALID_NS
    ensures Sanitized(Carry(FoldSeconds(c)))
  {
    var x := c.seconds * NS_PER_S + c.nanos;
    var q := TDiv(x, NS_PER_S);
    assert q * NS_PER_S <= x < 3600 * NS_PER_S;
    if q >= 3600 {
      MulMonotone(3600, q, NS_PER_S);
    }
  }

  lemma FoldedCoherentNegative(c: Time)
    requires c.hours <= 0 && c.seconds * NS_PER_S + c.nanos <= 0
    requires -MAX_VALID_S <= c.seconds <= MAX_VALID_S && -MAX_VALID_NS <= c.nanos <= MAX_VALID_NS
    ensures Sanitized(Carry(FoldSeconds(c)))
  {
    var x := c.seconds * NS_PER_S + c.nanos;
    var q := TDiv(x, NS_PER_S);
    assert -3600 * NS_PER_S < x <= q * NS_PER_S;
    if q <= -3600 {
      MulMonotone(q, -3600, NS_PER_S);
    }
  }

  /** Hours folded into seconds of the opposite sign carry into coherent counters. */
  lemma FoldedHoursCoherent(c: Time)
    requires InBounds(AsDuration(c)) && c.hours != 0
    requires c.seconds != 0 && (c.seconds > 0 <==> c.hours < 0)
    requires Accepts(SignOf(c), c.nanos)
    ensures Sanitized(Carry(FoldHours(c)))
  {
    var y := c.hours * S_PER_H + c.seconds;
    if c.hours > 0 {
      MulMonotone(1, c.hours, S_PER_H);
      assert y > 0;
    } else {
      MulMonotone(c.hours, -1, S_PER_H);
      assert y < 0;
    }
  }

  /** Every input that is not stuck settles within `SANITIZE_DEPTH` calls, and more fuel changes nothing. */
  lemma Settles(t: Time, fuel: nat)
    requires fuel >= SANITIZE_DEPTH && !Stuck(Carry(t))
    ensures Sanitize(t).Some? && SanitizeFuel(t, fuel) == Sanitize(t)
  {
    var c := Carry(t);
    var sg := SignOf(c);
    if sg != 0 && !Accepts(sg, c.nanos) {
      if sg > 0 {
        assert c.seconds * NS_PER_S + c.nanos >= 0;
        FoldedCoherent(c);
      } else {
        assert c.seconds * NS_PER_S + c.nanos <= 0;
        FoldedCoherentNegative(c);
      }
      CoherentReturns(FoldSeconds(c), fuel - 1);
      CoherentReturns(FoldSeconds(c), SANITIZE_DEPTH - 1);
    } else if sg != 0 && !Accepts(sg, c.seconds) {
      FoldedHoursCoherent(c);
      CoherentReturns(FoldHours(c), fuel - 1);
      CoherentReturns(FoldHours(c), SANITIZE_DEPTH - 1);
    }
  }

  /**
   * sanitize() returns exactly for the counters that are not stuck once
   * carried; whenever it returns, its result is the version 3 normal form.
   */
  lemma SanitizeTerminatesIff(t: Time)
    ensures Sanitize(t).Some? <==> !Stuck(Carry(t))
    ensures Sanitize(t).Some? ==> Sanitize(t).value == Repaired(t)
  {
    if Stuck(Carry(t)) {
      StuckDiverges(t, SANITIZE_DEPTH);
    } else {
      Settles(t, SANITIZE_DEPTH);
      NormalFormUnique(AsDuration(Sanitize(t).value), AsDuration(Repaired(t)));
    }
  }

  /**
   * What sanitize() is meant to produce, as version 3 computes it by
   * borrowing one unit instead of folding whole counters.
   */
  function Repaired(t: Time): (r: Time)
    ensures Sanitized(r) && Value(r) == Value(t)
  {
    var d := Normalize(AsDuration(t));
    Time(d.hours, d.seconds, d.nanos)
  }

  /** h(1) -= ns(1): the counters (1 h, 0 s, -1 ns) never leave sanitize(). */
  lemma SignRepairLoops()
    ensures forall fuel: nat :: SanitizeFuel(Time(1, 0, -1), fuel) == None
    ensures Repaired(Time(1, 0, -1)) == Time(0, 3599, 999_999_999)
  {
    forall fuel: nat ensures SanitizeFuel(Time(1, 0, -1), fuel) == None {
      StuckDiverges(Time(1, 0, -1), fuel);
    }
    NormalFormUnique(AsDuration(Repaired(Time(1, 0, -1))), Duration(0, 3599, 999_999_999, 1, false));
  }

  // ---------------------------------------------------------------------
  // Arithmetic
  // ---------------------------------------------------------------------

  function Sum(a: Time, b: Time): Time {
    Time(a.hours + b.hours, a.seconds + b.seconds, a.nanos + b.nanos)
  }

  function Difference(a: Time, b: Time): Time {
    Time(a.hours - b.hours, a.seconds - b.seconds, a.nanos - b.nanos)
  }

  /** operator+ and operator+=: field-wise sum, sanitised. */
  function Plus(a: Time, b: Time): (r: Option<Time>)
    ensures r.Some? ==> Sanitized(r.value) && Value(r.value) == Value(a) + Value(b)
  {
    Sanitize(Sum(b, a))
  }

  /** operator-=: the argument subtracted from the receiver, sanitised. */
  function Minus(a: Time, b: Time): (r: Option<Time>)
    ensures r.Some? ==> Sanitized(r.value) && Value(r.value) == Value(a) - Value(b)
  {
    Sanitize(Difference(a, b))
  }

  /** operator- as written: a copy of the argument minus the receiver. */
  function MinusAsWritten(a: Time, b: Time): (r: Option<Time>)
    ensures r.Some? ==> Sanitized(r.value) && Value(r.value) == Value(b) - Value(a)
  {
    Sanitize(Difference(b, a))
  }

  /** Addition settles exactly when the carried sum is not stuck, and then it is the normal form of the sum. */
  lemma PlusSettles(a: Time, b: Time)
    ensures Plus(a, b).Some? <==> !Stuck(Carry(Sum(a, b)))
    ensures Plus(a, b).Some? ==> Plus(a, b).value == Repaired(Sum(a, b))
    ensures Plus(a, b) == Plus(b, a)
  {
    assert Sum(b, a) == Sum(a, b);
    SanitizeTerminatesIff(Sum(a, b));
  }

  /** Two non-negative sanitised values always add up. */
  lemma NonNegativeSumSettles(a: Time, b: Time)
    requires Sanitized(a) && Sanitized(b) && Value(a) >= 0 && Value(b) >= 0
    ensures Plus(a, b).Some?
  {
    NonNegativeCounters(a);
    NonNegativeCounters(b);
    SanitizeTerminatesIff(Sum(b, a));
  }

  lemma NonNegativeCounters(t: Time)
    requires Sanitized(t) && Value(t) >= 0
    ensures t.hours >= 0 && t.seconds >= 0 && t.nanos >= 0
  {
  }

  /** Binary operator- yields the negation of what operator-= yields. */
  lemma MinusReversed(a: Time, b: Time)
    ensures MinusAsWritten(a, b) == Minus(b, a)
    ensures MinusAsWritten(a, b).Some? && Minus(a, b).Some? && Value(a) != Value(b) ==>
      MinusAsWritten(a, b) != Minus(a, b)
  {
  }

  /** {10 s} - {10 ns}: the binary operator gives minus 9.99999999 s, the compound one plus. */
  lemma MinusExample()
    ensures MinusAsWritten(Time(0, 10, 0), Time(0, 0, 10)) == Some(Time(0, -9, -999_999_990))
    ensures Minus(Time(0, 10, 0), Time(0, 0, 10)) == Some(Time(0, 9, 999_999_990))
  {
    var back := Difference(Time(0, 0, 10), Time(0, 10, 0));
    SanitizeTerminatesIff(back);
    NormalFormUnique(AsDuration(Repaired(back)), Duration(0, -9, -999_999_990, 1, false));
    var forth := Difference(Time(0, 10, 0), Time(0, 0, 10));
    SanitizeTerminatesIff(forth);
    NormalFormUnique(AsDuration(Repaired(forth)), Duration(0, 9, 999_999_990, 1, false));
  }

  // ---------------------------------------------------------------------
  // Comparisons and sentinels
  // ---------------------------------------------------------------------

  /** operator<: lexicographic on hours, seconds, nanoseconds. */
  predicate Less(a: Time, b: Time) {
    V3.Less(AsDuration(a), AsDuration(b))
  }

  /** operator==: the three counters agree (there is no exponent). */
  predicate Equal(a: Time, b: Time) {
    a.nanos == b.nanos && a.seconds == b.seconds && a.hours == b.hours
  }

  predicate Greater(a: Time, b: Time) {
    !Less(a, b) && !Equal(a, b)
  }

  predicate LessOrEqual(a: Time, b: Time) {
    !Greater(a, b)
  }

  predicate GreaterOrEqual(a: Time, b: Time) {
    !Less(a, b)
  }

  /** On sanitised values the comparisons are those of the durations the values stand for. */
  lemma ComparisonsMatchValue(a: Time, b: Time)
    requires Sanitized(a) && Sanitized(b)
    ensures Less(a, b) <==> Value(a) < Value(b)
    ensures Equal(a, b) <==> Value(a) == Value(b)
    ensures Greater(a, b) <==> Value(a) > Value(b)
    ensures LessOrEqual(a, b) <==> Value(a) <= Value(b)
    ensures GreaterOrEqual(a, b) <==> Value(a) >= Value(b)
  {
    LessMatchesTotal(AsDuration(a), AsDuration(b));
    if Value(a) == Value(b) {
      NormalFormUnique(AsDuration(a), AsDuration(b));
    }
  }

  const MAX_TIME: Time := Time(INT64_MAX, MAX_VALID_S, MAX_VALID_NS)
  const MIN_TIME: Time := Time(INT64_MIN, -MAX_VALID_S, -MAX_VALID_NS)
  const ZERO_TIME: Time := Time(0, 0, 0)

  /** max() and min() bound every sanitised value with an int64 hours counter. */
  lemma SentinelsBound(t: Time)
    requires Sanitized(t) && IsInt64(t.hours)
    ensures LessOrEqual(t, MAX_TIME) && GreaterOrEqual(t, MIN_TIME)
    ensures Value(MAX_TIME) == MAX_TOTAL && Value(MIN_TIME) == MIN_TOTAL && Value(ZERO_TIME) == 0
  {
    ComparisonsMatchValue(t, MAX_TIME);
    ComparisonsMatchValue(t, MIN_TIME);
    if t.hours < INT64_MAX {
      HoursDominate(AsDuration(t), AsDuration(MAX_TIME));
    }
    if t.hours > INT64_MIN {
      HoursDominate(AsDuration(MIN_TIME), AsDuration(t));
    }
  }

  // ---------------------------------------------------------------------
  // Timer
  // ---------------------------------------------------------------------

  /**
   * The nanoseconds constructor: the count in the nanosecond counter,
   * sanitised. It is written as the normal form here; `FromNanosSettles`
   * shows that the legacy sanitize() returns exactly that.
   */
  function FromNanos(n: int): (t: Time)
    ensures Sanitized(t) && Value(t) == n
  {
    Repaired(Time(0, 0, n))
  }

  /** The constructor's sanitize() always returns, with the normal form of the count. */
  lemma FromNanosSettles(n: int)
    ensures Sanitize(Time(0, 0, n)) == Some(FromNanos(n))
    ensures FromNanos(n) == Repaired(Time(0, 0, n))
  {
    CountNotStuck(n);
    SanitizeTerminatesIff(Time(0, 0, n));
  }

  /** The carries of a bare nanosecond count keep one sign, so it never gets stuck. */
  lemma CountNotStuck(n: int)
    ensures !Stuck(Carry(Time(0, 0, n)))
  {
    var q := TDiv(n, NS_PER_S);
    var h := TDiv(q, S_PER_H);
    if n >= 0 {
      if q < 0 {
        MulMonotone(q, -1, NS_PER_S);
      }
      if h < 0 {
        MulMonotone(h, -1, S_PER_H);
      }
    } else {
      if q > 0 {
        MulMonotone(1, q, NS_PER_S);
      }
      if h > 0 {
        MulMonotone(1, h, S_PER_H);
      }
    }
  }

  /** The cached statistics of one name; the average and deviation are left out. */
  datatype TimerResult = TimerResult(minMeasurement: Time, maxMeasurement: Time, numberMeasurements: int, needsUpdate: bool)

  /** A value-initialised Result: min() above max(), no measurements, update pending. */
  const DEFAULT_TIMER_RESULT: TimerResult := TimerResult(MAX_TIME, MIN_TIME, 0, true)

  /** Start times (clock readings in nanoseconds), measurements and cached results by name. */
  datatype Timer = Timer(begins: map<string, int>, measurements: map<string, seq<Time>>, results: map<string, TimerResult>)

  function CachedResult(timer: Timer, name: string): TimerResult {
    if name in timer.results then timer.results[name] else DEFAULT_TIMER_RESULT
  }

  function StoredSeries(timer: Timer, name: string): seq<Time> {
    if name in timer.measurements then timer.measurements[name] else []
  }

  /** Timer::start: remembers the clock reading under the name. */
  function Start(timer: Timer, name: string, now: int): (r: Timer)
    ensures r.begins == timer.begins[name := now]
    ensures r.measurements == timer.measurements && r.results == timer.results
  {
    timer.(begins := timer.begins[name := now])
  }

  /**
   * Timer::stop: a name never started is ignored; otherwise the elapsed
   * time is appended to its series and its result is marked stale.
   */
  function Stop(timer: Timer, name: string, now: int): (r: Timer)
    ensures name !in timer.begins ==> r == timer
    ensures name in timer.begins ==>
      && r.begins == timer.begins
      && r.measurements == timer.measurements[name := StoredSeries(timer, name) + [FromNanos(now - timer.begins[name])]]
      && name in r.results && r.results[name].needsUpdate
      && r.results[name].(needsUpdate := CachedResult(timer, name).needsUpdate) == CachedResult(timer, name)
      && forall other :: other in timer.results && other != name ==> other in r.results && r.results[other] == timer.results[other]
  {
    if name !in timer.begins then timer
    else
      Timer(timer.begins,
            timer.measurements[name := StoredSeries(timer, name) + [FromNanos(now - timer.begins[name])]],
            timer.results[name := CachedResult(timer, name).(needsUpdate := true)])
  }

  predicate AllSanitized(series: seq<Time>) {
    forall i :: 0 <= i < |series| ==> Sanitized(series[i])
  }

  /** The measurement loop's running minimum, from `lo`, in the order of the series. */
  function RunningMin(series: seq<Time>, lo: Time): (m: Time)
    ensures m == lo || m in series
    ensures Sanitized(lo) && AllSanitized(series) ==>
      Value(m) <= Value(lo) && forall i :: 0 <= i < |series| ==> Value(m) <= Value(series[i])
  {
    if |series| == 0 then lo
    else
      var n := |series|;
      var before := RunningMin(series[..n - 1], lo);
      var x := series[n - 1];
      var m := if Less(x, before) then x else before;
      if Sanitized(lo) && AllSanitized(series) then
        assert AllSanitized(series[..n - 1]);
        assert Sanitized(before);
        ComparisonsMatchValue(x, before);
        assert forall i :: 0 <= i < n - 1 ==> series[i] == series[..n - 1][i];
        m
      else
        m
  }

  /** The measurement loop's running maximum, from `hi`, in the order of the series. */
  function RunningMax(series: seq<Time>, hi: Time): (m: Time)
    ensures m == hi || m in series
    ensures Sanitized(hi) && AllSanitized(series) ==>
      Value(hi) <= Value(m) && forall i :: 0 <= i < |series| ==> Value(series[i]) <= Value(m)
  {
    if |series| == 0 then hi
    else
      var n := |series|;
      var before := RunningMax(series[..n - 1], hi);
      var x := series[n - 1];
      var m := if Greater(x, before) then x else before;
      if Sanitized(hi) && AllSanitized(series) then
        assert AllSanitized(series[..n - 1]);
        assert Sanitized(before);
        ComparisonsMatchValue(x, before);
        assert forall i :: 0 <= i < n - 1 ==> series[i] == series[..n - 1][i];
        m
      else
        m
  }

  /** The sum of the values of a series. */
  function SeriesValue(series: seq<Time>): int {
    if |series| == 0 then 0 else SeriesValue(series[..|series| - 1]) + Value(series[|series| - 1])
  }

  /**
   * The running `sum += measurement` of getResult's first loop, from a zero
   * sum; `None` once a partial sum gets stuck in sanitize(), which then
   * never returns.
   */
  function RunningSum(series: seq<Time>): (r: Option<Time>)
    ensures r.Some? ==> Sanitized(r.value) && Value(r.value) == SeriesValue(series)
  {
    if |series| == 0 then Some(ZERO_TIME)
    else
      match RunningSum(series[..|series| - 1])
      case None => None
      case Some(sum) => Plus(sum, series[|series| - 1])
  }

  /** Step k of the loop returns: the sum so far exists and adding measurement k does not get stuck. */
  predicate StepReturns(series: seq<Time>, k: nat)
    requires k < |series|
  {
    RunningSum(series[..k]).Some? && !Stuck(Carry(Sum(RunningSum(series[..k]).value, series[k])))
  }

  /** The last step: the loop gets through a series when it gets through its front and the last addition returns. */
  lemma LastStepReturns(series: seq<Time>)
    requires |series| > 0
    ensures RunningSum(series).Some? <==> RunningSum(series[..|series| - 1]).Some? && StepReturns(series, |series| - 1)
  {
    var n := |series|;
    var front := series[..n - 1];
    if RunningSum(front).Some? {
      PlusSettles(RunningSum(front).value, series[n - 1]);
    }
  }

  /** The steps before the last are those of the front. */
  lemma FrontStepsReturn(series: seq<Time>, k: nat)
    requires k < |series| - 1
    ensures StepReturns(series[..|series| - 1], k) == StepReturns(series, k)
  {
    assert series[..|series| - 1][..k] == series[..k];
  }

  /** The loop gets through the series exactly when no step's carried sum is stuck. */
  lemma {:induction false} RunningSumStops(series: seq<Time>)
    ensures RunningSum(series).Some? <==> forall k :: 0 <= k < |series| ==> StepReturns(series, k)
  {
    if |series| > 0 {
      var n := |series|;
      var front := series[..n - 1];
      RunningSumStops(front);
      LastStepReturns(series);
      if RunningSum(series).Some? {
        forall k | 0 <= k < n
          ensures StepReturns(series, k)
        {
          if k < n - 1 {
            FrontStepsReturn(series, k);
          }
        }
      } else if RunningSum(front).Some? {
        assert !StepReturns(series, n - 1);
      } else {
        var k :| 0 <= k < n - 1 && !StepReturns(front, k);
        FrontStepsReturn(series, k);
        assert !StepReturns(series, k);
      }
    }
  }

  /** Sanitised non-negative measurements always add up: the loop returns. */
  lemma {:induction false} NonNegativeSeriesSums(series: seq<Time>)
    requires AllSanitized(series) && forall i :: 0 <= i < |series| ==> Value(series[i]) >= 0
    ensures RunningSum(series).Some? && Value(RunningSum(series).value) >= 0
  {
    if |series| > 0 {
      var n := |series|;
      var front := series[..n - 1];
      assert forall i :: 0 <= i < n - 1 ==> front[i] == series[i];
      NonNegativeSeriesSums(front);
      NonNegativeSumSettles(RunningSum(front).value, series[n - 1]);
    }
  }

  /**
   * A clock that is not steady can give a negative measurement: one hour
   * followed by -1 ns leaves the sum at (1 h, 0 s, -1 ns), where sanitize()
   * never returns.
   */
  lemma NegativeMeasurementHangs()
    ensures RunningSum([FromNanos(3_600_000_000_000), FromNanos(-1)]) == None
  {
    var hour, back := FromNanos(3_600_000_000_000), FromNanos(-1);
    NormalFormUnique(AsDuration(hour), AsDuration(Time(1, 0, 0)));
    NormalFormUnique(AsDuration(back), AsDuration(Time(0, 0, -1)));
    NonNegativeSeriesSums([hour]);
    var first := RunningSum([hour]).value;
    NormalFormUnique(AsDuration(first), AsDuration(Time(1, 0, 0)));
    assert [hour, back][..1] == [hour];
    SignRepairLoops();
    assert Sum(back, first) == Time(1, 0, -1);
  }

  /**
   * Timer::getResult: a result that is not stale is returned as cached;
   * so is the result of a name without measurements. Otherwise the count
   * is the length of the series and the extremes are folded into the
   * cached ones (which are not reset first), and the result is marked
   * fresh. Looking the name up stores a default result for a new name.
   */
  function GetResult(timer: Timer, name: string): (o: (TimerResult, Timer))
    ensures o.1.begins == timer.begins && o.1.measurements == timer.measurements
    ensures o.1.results == timer.results[name := o.0]
    ensures !CachedResult(timer, name).needsUpdate || name !in timer.measurements ==> o.0 == CachedResult(timer, name)
    ensures CachedResult(timer, name).needsUpdate && name in timer.measurements ==>
      && !o.0.needsUpdate
      && o.0.numberMeasurements == |timer.measurements[name]|
      && (o.0.minMeasurement == CachedResult(timer, name).minMeasurement || o.0.minMeasurement in timer.measurements[name])
      && (o.0.maxMeasurement == CachedResult(timer, name).maxMeasurement || o.0.maxMeasurement in timer.measurements[name])
  {
    var cur := CachedResult(timer, name);
    if !cur.needsUpdate || name !in timer.measurements then
      (cur, timer.(results := timer.results[name := cur]))
    else
      var series := timer.measurements[name];
      var r := TimerResult(RunningMin(series, cur.minMeasurement), RunningMax(series, cur.maxMeasurement), |series|, false);
      (r, timer.(results := timer.results[name := r]))
  }

  /** Every stored measurement and every cached extreme is sanitised. */
  predicate TimerValid(timer: Timer) {
    && (forall name :: name in timer.measurements ==> AllSanitized(timer.measurements[name]))
    && (forall name :: name in timer.results ==>
          Sanitized(timer.results[name].minMeasurement) && Sanitized(timer.results[name].maxMeasurement))
  }

  /** Starting, stopping and reading results keep every stored value sanitised. */
  lemma TimerStaysValid(timer: Timer, name: string, now: int)
    requires TimerValid(timer)
    ensures TimerValid(Start(timer, name, now))
    ensures TimerValid(Stop(timer, name, now))
    ensures TimerValid(GetResult(timer, name).1)
  {
    StopKeepsValid(timer, name, now);
    GetResultKeepsValid(timer, name);
  }

  lemma CachedSanitized(timer: Timer, name: string)
    requires TimerValid(timer)
    ensures Sanitized(CachedResult(timer, name).minMeasurement) && Sanitized(CachedResult(timer, name).maxMeasurement)
  {
    assert Sanitized(MAX_TIME) && Sanitized(MIN_TIME);
  }

  lemma StopKeepsValid(timer: Timer, name: string, now: int)
    requires TimerValid(timer)
    ensures TimerValid(Stop(timer, name, now))
  {
    if name in timer.begins {
      var m := StopAppends(timer, name, now);
      AppendKeepsValid(timer, name, m);
    }
  }

  /** A stop of a started name appends one sanitised measurement and marks the result stale. */
  lemma StopAppends(timer: Timer, name: string, now: int) returns (m: Time)
    requires name in timer.begins
    ensures m == FromNanos(now - timer.begins[name])
    ensures Stop(timer, name, now) == Timer(timer.begins, timer.measurements[name := StoredSeries(timer, name) + [m]],
                                            timer.results[name := CachedResult(timer, name).(needsUpdate := true)])
  {
    m := FromNanos(now - timer.begins[name]);
  }

  /** Appending a sanitised measurement and marking the result stale keeps the timer valid. */
  lemma AppendKeepsValid(timer: Timer, name: string, m: Time)
    requires TimerValid(timer) && Sanitized(m)
    ensures TimerValid(Timer(timer.begins, timer.measurements[name := StoredSeries(timer, name) + [m]],
                             timer.results[name := CachedResult(timer, name).(needsUpdate := true)]))
  {
    CachedSanitized(timer, name);
    var series := StoredSeries(timer, name) + [m];
    assert AllSanitized(series);
    var after := Timer(timer.begins, timer.measurements[name := series],
                       timer.results[name := CachedResult(timer, name).(needsUpdate := true)]);
    forall k | k in after.measurements ensures AllSanitized(after.measurements[k]) {
      if k != name {
        assert after.measurements[k] == timer.measurements[k];
      }
    }
    forall k | k in after.results
      ensures Sanitized(after.results[k].minMeasurement) && Sanitized(after.results[k].maxMeasurement)
    {
      if k != name {
        assert after.results[k] == timer.results[k];
      }
    }
  }

  lemma GetResultKeepsValid(timer: Timer, name: string)
    requires TimerValid(timer)
    ensures TimerValid(GetResult(timer, name).1)
  {
    CachedSanitized(timer, name);
    var cur := CachedResult(timer, name);
    var r := GetResult(timer, name).0;
    assert Sanitized(r.minMeasurement) && Sanitized(r.maxMeasurement);
  }

  /** A recomputed result brackets every measurement of its name. */
  lemma RecomputedBrackets(timer: Timer, name: string)
    requires TimerValid(timer) && name in timer.measurements && CachedResult(timer, name).needsUpdate
    ensures var r := GetResult(timer, name).0;
      && forall i :: 0 <= i < |timer.measurements[name]| ==>
           LessOrEqual(r.minMeasurement, timer.measurements[name][i]) && LessOrEqual(timer.measurements[name][i], r.maxMeasurement)
  {
    var r := GetResult(timer, name).0;
    var series := timer.measurements[name];
    CachedSanitized(timer, name);
    forall i | 0 <= i < |series|
      ensures LessOrEqual(r.minMeasurement, series[i]) && LessOrEqual(series[i], r.maxMeasurement)
    {
      ComparisonsMatchValue(r.minMeasurement, series[i]);
      ComparisonsMatchValue(series[i], r.maxMeasurement);
    }
  }

  /** Reading a result twice gives the same result and the same timer: the second read is served from the cache. */
  lemma GetResultIdempotent(timer: Timer, name: string)
    ensures var (r, after) := GetResult(timer, name);
      GetResult(after, name) == (r, after)
  {
    var (r, after) := GetResult(timer, name);
    assert CachedResult(after, name) == r;
    if CachedResult(timer, name).needsUpdate && name in timer.measurements {
      assert !r.needsUpdate;
    }
    assert after.results[name := r] == after.results;
  }

  /** A name the timer has never seen reads as the default result. */
  lemma UnknownNameDefault(timer: Timer, name: string)
    requires name !in timer.results && name !in timer.measurements
    ensures GetResult(timer, name).0 == DEFAULT_TIMER_RESULT
  {
  }

  /** After a stop the next read recomputes: one more measurement is counted and the new one is bracketed. */
  lemma StopForcesRecount(timer: Timer, name: string, now: int)
    requires TimerValid(timer) && name in timer.begins
    ensures var after := Stop(timer, name, now);
      var r := GetResult(after, name).0;
      && !r.needsUpdate
      && r.numberMeasurements == |StoredSeries(timer, name)| + 1
      && LessOrEqual(r.minMeasurement, FromNanos(now - timer.begins[name]))
      && LessOrEqual(FromNanos(now - timer.begins[name]), r.maxMeasurement)
  {
    var after := Stop(timer, name, now);
    StopKeepsValid(timer, name, now);
    RecomputedBrackets(after, name);
    var series := after.measurements[name];
    assert series[|series| - 1] == FromNanos(now - timer.begins[name]);
  }
}

=== FILE: statistics.dfy ===
/**
 * Order statistics behind `CollectingTimer::findMedian`: counting, a
 * reference sort, the contract of `std::nth_element`, and the median of a
 * series of measurements (integer nanoseconds).
 */
module Statistics {
  import opened Common

  // ---------------------------------------------------------------------
  // Counting
  // ---------------------------------------------------------------------

  /** How many elements of `s` satisfy `p`. */
  function Count<T>(s: seq<T>, p: T -> bool): (n: nat)
    ensures n <= |s|
  {
    if |s| == 0 then 0 else Count(s[..|s| - 1], p) + (if p(s[|s| - 1]) then 1 else 0)
  }

  lemma {:induction false} CountConcat<T>(a: seq<T>, b: seq<T>, p: T -> bool)
    ensures Count(a + b, p) == Count(a, p) + Count(b, p)
  {
    if |b| == 0 {
      assert a + b == a;
    } else {
      CountConcat(a, b[..|b| - 1], p);
      assert (a + b)[..|a + b| - 1] == a + b[..|b| - 1];
    }
  }

  lemma {:induction false} CountAll<T>(s: seq<T>, p: T -> bool)
    requires forall i :: 0 <= i < |s| ==> p(s[i])
    ensures Count(s, p) == |s|
  {
    if |s| > 0 {
      CountAll(s[..|s| - 1], p);
    }
  }

  lemma {:induction false} CountNone<T>(s: seq<T>, p: T -> bool)
    requires forall i :: 0 <= i < |s| ==> !p(s[i])
    ensures Count(s, p) == 0
  {
    if |s| > 0 {
      CountNone(s[..|s| - 1], p);
    }
  }

  /** Counting does not depend on the order of the elements. */
  lemma {:induction false} CountPermutation<T>(a: seq<T>, b: seq<T>, p: T -> bool)
    requires multiset(a) == multiset(b)
    ensures Count(a, p) == Count(b, p)
    decreases |a|
  {
    if |a| > 0 {
      var x := a[|a| - 1];
      var a' := a[..|a| - 1];
      assert a == a' + [x];
      assert x in multiset(b);
      var j :| 0 <= j < |b| && b[j] == x;
      var b' := b[..j] + b[j + 1..];
      assert b == b[..j] + [x] + b[j + 1..];
      assert multiset(b') == multiset(b) - multiset{x};
      assert multiset(a') == multiset(a) - multiset{x};
      CountPermutation(a', b', p);
      CountConcat(a', [x], p);
      CountConcat(b[..j], [x], p);
      CountConcat(b[..j] + [x], b[j + 1..], p);
      CountConcat(b[..j], b[j + 1..], p);
    } else {
      assert |b| == |multiset(b)| == |multiset(a)| == 0;
    }
  }

  /** A weaker property is satisfied at least as often. */
  lemma {:induction false} CountMonotone<T>(s: seq<T>, p: T -> bool, q: T -> bool)
    requires forall x :: p(x) ==> q(x)
    ensures Count(s, p) <= Count(s, q)
  {
    if |s| > 0 {
      CountMonotone(s[..|s| - 1], p, q);
    }
  }

  function Below(v: int): int -> bool {
    x => x < v
  }

  function AtMost(v: int): int -> bool {
    x => x <= v
  }

  // ---------------------------------------------------------------------
  // Reference sort
  // ---------------------------------------------------------------------

  predicate SortedAsc(s: seq<int>) {
    forall i, j :: 0 <= i < j < |s| ==> s[i] <= s[j]
  }

  function Insert(x: int, s: seq<int>): (r: seq<int>)
    requires SortedAsc(s)
    ensures SortedAsc(r) && multiset(r) == multiset(s) + multiset{x} && |r| == |s| + 1
    ensures r[0] == x || (|s| > 0 && r[0] == s[0])
  {
    if |s| == 0 then [x]
    else if x <= s[0] then [x] + s
    else
      var t := Insert(x, s[1..]);
      assert s == [s[0]] + s[1..];
      [s[0]] + t
  }

  /** Insertion sort: the order statistics of a series by definition. */
  function Sort(s: seq<int>): (r: seq<int>)
    ensures SortedAsc(r) && multiset(r) == multiset(s) && |r| == |s|
  {
    if |s| == 0 then []
    else
      assert s == s[..|s| - 1] + [s[|s| - 1]];
      Insert(s[|s| - 1], Sort(s[..|s| - 1]))
  }

  /** Nothing before position k is larger than `r[k]`, nothing after it smaller. */
  predicate PartitionedAt(r: seq<int>, k: nat)
    requires k < |r|
  {
    (forall i :: 0 <= i < k ==> r[i] <= r[k]) && (forall i :: k < i < |r| ==> r[k] <= r[i])
  }

  /** In a sorted series the k-th element has at most k smaller and at least k + 1 no larger. */
  lemma SortedRank(r: seq<int>, k: nat)
    requires SortedAsc(r) && k < |r|
    ensures Count(r, Below(r[k])) <= k < Count(r, AtMost(r[k]))
  {
    FewerBelow(r, k);
    EnoughAtMost(r, k);
  }

  lemma FewerBelow(r: seq<int>, k: nat)
    requires k < |r| && PartitionedAt(r, k)
    ensures Count(r, Below(r[k])) <= k
  {
    var v := r[k];
    var front, back := r[..k], r[k..];
    assert r == front + back;
    CountConcat(front, back, Below(v));
    assert forall i :: 0 <= i < |back| ==> !Below(v)(back[i]);
    CountNone(back, Below(v));
  }

  lemma EnoughAtMost(r: seq<int>, k: nat)
    requires k < |r| && PartitionedAt(r, k)
    ensures k < Count(r, AtMost(r[k]))
  {
    var v := r[k];
    var upTo, after := r[..k + 1], r[k + 1..];
    assert r == upTo + after;
    CountConcat(upTo, after, AtMost(v));
    assert forall i :: 0 <= i < |upTo| ==> AtMost(v)(upTo[i]);
    CountAll(upTo, AtMost(v));
  }

  /** The rank condition pins the value down: only one value can be the k-th smallest. */
  lemma RankUnique(s: seq<int>, k: nat, v: int, w: int)
    requires Count(s, Below(v)) <= k < Count(s, AtMost(v))
    requires Count(s, Below(w)) <= k < Count(s, AtMost(w))
    ensures v == w
  {
    if v < w {
      CountMonotone(s, AtMost(v), Below(w));
    } else if w < v {
      CountMonotone(s, AtMost(w), Below(v));
    }
  }

  /** `Sort(s)[k]` is the only value of rank k in `s`. */
  lemma OrderStatistic(s: seq<int>, k: nat, v: int)
    requires k < |s|
    ensures Count(s, Below(Sort(s)[k])) <= k < Count(s, AtMost(Sort(s)[k]))
    ensures Count(s, Below(v)) <= k < Count(s, AtMost(v)) ==> v == Sort(s)[k]
  {
    var r := Sort(s);
    SortedRank(r, k);
    CountPermutation(r, s, Below(r[k]));
    CountPermutation(r, s, AtMost(r[k]));
    if Count(s, Below(v)) <= k < Count(s, AtMost(v)) {
      RankUnique(s, k, v, r[k]);
    }
  }

  /** Two sorted arrangements of the same elements are the same sequence. */
  lemma SortUnique(s: seq<int>, r: seq<int>)
    requires SortedAsc(r) && multiset(r) == multiset(s)
    ensures r == Sort(s)
  {
    var t := Sort(s);
    assert |r| == |multiset(r)| == |multiset(s)| == |s|;
    forall k | 0 <= k < |r| ensures r[k] == t[k] {
      SortedRank(r, k);
      CountPermutation(r, s, Below(r[k]));
      CountPermutation(r, s, AtMost(r[k]));
      OrderStatistic(s, k, r[k]);
    }
  }

  lemma CountWitness<T>(s: seq<T>, p: T -> bool, i: nat)
    requires i < |s| && p(s[i])
    ensures Count(s, p) >= 1
  {
    assert s == s[..i] + [s[i]] + s[i + 1..];
    CountConcat(s[..i] + [s[i]], s[i + 1..], p);
    CountConcat(s[..i], [s[i]], p);
  }

  // ---------------------------------------------------------------------
  // std::nth_element
  // ---------------------------------------------------------------------

  /**
   * What the standard promises of `std::nth_element(begin, begin + k, end)`:
   * the result is a rearrangement, partitioned around position k.
   */
  predicate IsNthElement(before: seq<int>, after: seq<int>, k: nat) {
    k < |after| && multiset(after) == multiset(before) && PartitionedAt(after, k)
  }

  /** Whatever rearrangement it picks, position k holds the k-th smallest value. */
  lemma NthElementSelects(before: seq<int>, after: seq<int>, k: nat)
    requires IsNthElement(before, after, k)
    ensures |after| == |before| && after[k] == Sort(before)[k]
  {
    assert |after| == |multiset(after)| == |multiset(before)| == |before|;
    FewerBelow(after, k);
    EnoughAtMost(after, k);
    CountPermutation(after, before, Below(after[k]));
    CountPermutation(after, before, AtMost(after[k]));
    OrderStatistic(before, k, after[k]);
  }

  /** Positions up to k and position j > k all hold values at most `r[j]`. */
  lemma PartitionAtMost(r: seq<int>, k: nat, j: nat)
    requires k < j < |r| && PartitionedAt(r, k)
    ensures k + 2 <= Count(r, AtMost(r[j]))
  {
    var w := r[j];
    var front, back := r[..k + 1], r[k + 1..];
    assert r == front + back;
    CountConcat(front, back, AtMost(w));
    assert forall i :: 0 <= i < |front| ==> AtMost(w)(front[i]);
    CountAll(front, AtMost(w));
    CountWitness(back, AtMost(w), j - (k + 1));
  }

  /** Every value behind position k is at least the (k+1)-th smallest. */
  lemma BehindNthElement(before: seq<int>, after: seq<int>, k: nat, j: nat)
    requires IsNthElement(before, after, k) && k < j < |after|
    ensures |before| == |after| && Sort(before)[k + 1] <= after[j]
  {
    assert |after| == |multiset(after)| == |multiset(before)| == |before|;
    var w := after[j];
    var t := Sort(before)[k + 1];
    if w < t {
      PartitionAtMost(after, k, j);
      CountPermutation(after, before, AtMost(w));
      OrderStatistic(before, k + 1, t);
      CountMonotone(before, AtMost(w), Below(t));
      assert false;
    }
  }

  // ---------------------------------------------------------------------
  // The median
  // ---------------------------------------------------------------------

  /** The middle of an odd-sized series, or the two middle values of an even-sized one. */
  datatype Median = Middle(v: int) | Halfway(lo: int, hi: int)

  /** The median by definition: the middle of the sorted series. */
  function MedianOf(s: seq<int>): (m: Median)
    requires |s| > 0
    ensures m.Middle? <==> |s| % 2 == 1
    ensures m.Middle? ==> Count(s, Below(m.v)) <= |s| / 2 < Count(s, AtMost(m.v))
    ensures m.Halfway? ==> (m.lo <= m.hi
      && Count(s, Below(m.lo)) <= |s| / 2 - 1 < Count(s, AtMost(m.lo))
      && Count(s, Below(m.hi)) <= |s| / 2 < Count(s, AtMost(m.hi)))
  {
    var r := Sort(s);
    var n := |s|;
    OrderStatistic(s, n / 2, r[n / 2]);
    if n % 2 == 1 then Middle(r[n / 2])
    else
      OrderStatistic(s, n / 2 - 1, r[n / 2 - 1]);
      Halfway(r[n / 2 - 1], r[n / 2])
  }

  /**
   * The nanoseconds of the median: an even-sized series averages its two
   * middle values, `(a + b) / 2.0`, whose integer part is the truncated half.
   */
  function MedianNanos(m: Median): (ns: int)
    ensures m.Middle? ==> ns == m.v
    ensures m.Halfway? && m.lo <= m.hi ==> m.lo <= ns <= m.hi
    ensures m.Halfway? ==> 2 * ns <= m.lo + m.hi < 2 * ns + 2 || 2 * ns - 2 < m.lo + m.hi <= 2 * ns
  {
    match m
    case Middle(v) => v
    case Halfway(lo, hi) => TDiv(lo + hi, 2)
  }

  /**
   * findMedian() as written. `first` is what the first `nth_element` call
   * (position n/2) leaves, `second` what the second call, on the whole
   * series again, leaves for an even size. The odd case and the lower middle
   * are right; the upper middle is only some value at or above the true one.
   */
  function MedianAsWritten(values: seq<int>, first: seq<int>, second: seq<int>): (m: Median)
    requires |values| > 0 && IsNthElement(values, first, |values| / 2)
    requires |values| % 2 == 0 ==> IsNthElement(first, second, (|values| - 1) / 2)
    ensures |values| % 2 == 1 ==> m == MedianOf(values)
    ensures |values| % 2 == 0 ==> m.Halfway? && m.lo == MedianOf(values).lo && MedianOf(values).hi <= m.hi
  {
    var n := |values|;
    if n % 2 == 1 then
      NthElementSelects(values, first, n / 2);
      Middle(first[n / 2])
    else
      var h := n / 2;
      assert (n - 1) / 2 == h - 1 && n == 2 * h;
      AsWrittenMiddles(values, first, second, h);
      Halfway(second[h - 1], second[h])
  }

  lemma MedianOfEven(values: seq<int>, h: nat)
    requires 1 <= h && |values| == 2 * h
    ensures MedianOf(values) == Halfway(Sort(values)[h - 1], Sort(values)[h])
  {
    assert |values| / 2 == h;
  }

  lemma AsWrittenMiddles(values: seq<int>, first: seq<int>, second: seq<int>, h: nat)
    requires 1 <= h && |values| == 2 * h
    requires IsNthElement(values, first, h) && IsNthElement(first, second, h - 1)
    ensures |second| == 2 * h && MedianOf(values) == Halfway(Sort(values)[h - 1], Sort(values)[h])
    ensures second[h - 1] == Sort(values)[h - 1] && Sort(values)[h] <= second[h]
  {
    assert |first| == |multiset(first)| == |multiset(values)| == 2 * h;
    NthElementSelects(first, second, h - 1);
    BehindNthElement(first, second, h - 1, h);
    var sorted := Sort(first);
    assert multiset(sorted) == multiset(values);
    SortUnique(values, sorted);
    MedianOfEven(values, h);
  }

  /** Both calls may leave these arrangements of [1, 2, 3, 4]. */
  lemma SampleArrangements()
    ensures IsNthElement([1, 2, 3, 4], [1, 2, 3, 4], 2) && IsNthElement([1, 2, 3, 4], [1, 2, 4, 3], 1)
  {
    assert multiset([1, 2, 4, 3]) == multiset([1, 2, 3, 4]);
  }

  /** The second `nth_element` may move the upper middle out of place. */
  lemma MedianAsWrittenMisses()
    ensures IsNthElement([1, 2, 3, 4], [1, 2, 3, 4], 2) && IsNthElement([1, 2, 3, 4], [1, 2, 4, 3], 1)
    ensures MedianAsWritten([1, 2, 3, 4], [1, 2, 3, 4], [1, 2, 4, 3]) == Halfway(2, 4)
    ensures MedianOf([1, 2, 3, 4]) == Halfway(2, 3)
  {
    SampleArrangements();
    SortedMedian();
  }

  lemma SortedMedian()
    ensures MedianOf([1, 2, 3, 4]) == Halfway(2, 3)
  {
    var values := [1, 2, 3, 4];
    assert SortedAsc(values);
    SortUnique(values, values);
    MedianOfEven(values, 2);
  }

  /**
   * findMedian() as intended: the second `nth_element` only rearranges the
   * lower half `first[..n/2]`, so the upper middle stays where the first
   * call put it.
   */
  function MedianCorrected(values: seq<int>, first: seq<int>, lower: seq<int>): (m: Median)
    requires |values| > 0 && IsNthElement(values, first, |values| / 2)
    requires |values| % 2 == 0 ==> IsNthElement(first[..|values| / 2], lower, |values| / 2 - 1)
    ensures m == MedianOf(values)
  {
    var n := |values|;
    if n % 2 == 1 then
      NthElementSelects(values, first, n / 2);
      Middle(first[n / 2])
    else
      var h := n / 2;
      assert n == 2 * h;
      CorrectedMiddles(values, first, lower, h);
      Halfway(lower[h - 1], first[h])
  }

  lemma CorrectedMiddles(values: seq<int>, first: seq<int>, lower: seq<int>, h: nat)
    requires 1 <= h && |values| == 2 * h
    requires IsNthElement(values, first, h) && IsNthElement(first[..h], lower, h - 1)
    ensures |first| == 2 * h && |lower| == h
    ensures MedianOf(values) == Halfway(lower[h - 1], first[h])
  {
    NthElementSelects(values, first, h);
    LowerHalfAtMost(values, first, lower, h);
    LowerHalfBelow(values, first, lower, h);
    var w := lower[h - 1];
    CountPermutation(first, values, AtMost(w));
    CountPermutation(first, values, Below(w));
    assert Count(values, Below(w)) <= h - 1 < Count(values, AtMost(w));
    OrderStatistic(values, h - 1, w);
    assert w == Sort(values)[h - 1] && first[h] == Sort(values)[h];
    MedianOfEven(values, h);
  }

  /** The whole lower half, h values, is at most its maximum w. */
  lemma LowerHalfAtMost(values: seq<int>, first: seq<int>, lower: seq<int>, h: nat)
    requires 1 <= h && |values| == 2 * h
    requires IsNthElement(values, first, h) && IsNthElement(first[..h], lower, h - 1)
    ensures |lower| == h && |first| == 2 * h
    ensures h <= Count(first, AtMost(lower[h - 1]))
  {
    assert |first| == |multiset(first)| == |multiset(values)| == 2 * h;
    var front, back := first[..h], first[h..];
    assert |lower| == |multiset(lower)| == |multiset(front)| == h;
    var w := lower[h - 1];
    assert first == front + back;
    assert forall i :: 0 <= i < |lower| ==> AtMost(w)(lower[i]);
    CountAll(lower, AtMost(w));
    CountPermutation(lower, front, AtMost(w));
    CountConcat(front, back, AtMost(w));
  }

  /** Below w there is nothing behind position h, and within the lower half w itself is not. */
  lemma LowerHalfBelow(values: seq<int>, first: seq<int>, lower: seq<int>, h: nat)
    requires 1 <= h && |values| == 2 * h
    requires IsNthElement(values, first, h) && IsNthElement(first[..h], lower, h - 1)
    ensures |lower| == h && |first| == 2 * h
    ensures Count(first, Below(lower[h - 1])) <= h - 1
  {
    assert |first| == |multiset(first)| == |multiset(values)| == 2 * h;
    var front, back := first[..h], first[h..];
    assert |lower| == |multiset(lower)| == |multiset(front)| == h;
    var w := lower[h - 1];
    assert first == front + back;
    assert w in multiset(front);
    assert w <= first[h];
    assert forall i :: 0 <= i < |back| ==> !Below(w)(back[i]);
    CountNone(back, Below(w));
    CountConcat(front, back, Below(w));
    CountPermutation(lower, front, Below(w));
    assert lower == lower[..h - 1] + [w];
    CountConcat(lower[..h - 1], [w], Below(w));
  }
}
